=== FILE: README.md ===
# FarmQuest in Dafny

FarmQuest is a gamified farming-habit web app. Its state lives in React components and
nothing is persisted. This project models the app's logic as pure Dafny functions over
immutable datatypes, and proves properties of that model. The logic covered is:

- the page's landing/dashboard/onboarding switch (`app/page.tsx`);
- the six-step onboarding wizard, with its `canProceed` gate and the profile it emits;
- the dashboard shell:
  - habit add, delete and toggle;
  - accessory toggling;
  - the greeting and the first name;
  - tab routing;
  - the credit and popularity setters;
- the habit dialog;
- challenges and quests;
- the community view: gifts, messages, friends, and search with tabs;
- the calendar: adding and deleting events, the time remaining, upcoming and today's events;
- learning progress, navigation and recommendations;
- settings: profile editing and its credit award, the help chat, and the panel switch;
- the leaderboard ranking;
- what the animated avatar draws;
- `lib/getAsset.ts`.

There is one module per source file, plus shared modules:

| module | what it holds |
|---|---|
| `Wrappers` | `Option` |
| `Strings` | JavaScript `trim`, ASCII `toLowerCase`, `includes`, `split(" ")[0]` |
| `Numbers` | `Number.parseInt` on decimal text |
| `Icons` | the lucide icon components as an enumeration |
| `IdLists` | the "max id + 1" and "filter by id" list discipline the views share |
| `Sorting` | a descending sort by an integer key |

Events that the views handle are functions from state to state. A `Run` function replays a
sequence of events. The clock, the environment and `Math.random` are parameters.

Some behaviours of the code are easy to misread, and the model keeps them as written:

- Credits and popularity that a view reports are stored unclamped (`components/farm-dashboard.tsx:418`, `:444-445`; `Dashboard.SetCredits`, `Dashboard.SetPopularity`).
- Claiming a challenge and completing a quest award no experience points (`components/challenges-system.tsx:134-154`, `components/quests-system.tsx:168-174`).
- The settings completion bar stays at 80% whatever is edited (`components/settings-system.tsx:60`, `:161`; `Settings.CompletionStaysAtEighty`), because the field count is never updated.

## Model

| member | source | states |
|---|---|---|
| AppMode.EnterDashboard | app/page.tsx:25-39 | "Get started" and logging in both show the dashboard and leave the wizard flag and the stored profile alone |
| AppMode.BackToLanding | app/page.tsx:29-31 | going back hides the dashboard; the wizard flag and the profile stay |
| AppMode.Signup | app/page.tsx:33-35 | signing up opens the wizard and changes nothing else |
| AppMode.OnboardingComplete | app/page.tsx:41-45 | finishing the wizard stores its profile, closes the wizard and shows the dashboard |
| AppMode.Render | app/page.tsx:49-54 | the wizard shows iff its flag is set; the page shows exactly one of the dashboard (given the stored profile) or the landing page |
| AppMode.BackUndoesEnter | app/page.tsx:25-39 | from the landing page, entering the dashboard and going back restores the state |
| AppMode.SignupKeepsLanding | app/page.tsx:33-54 | after signing up from the landing page, the wizard shows over the landing page |
| AppMode.ProfileKept | app/page.tsx:21-45 | once stored, a profile is never dropped, and only finishing the wizard replaces it |
| AppMode.NoProfileWithoutOnboarding | app/page.tsx:21-45 | without finishing the wizard no profile is ever stored, so a direct login reaches a dashboard with no profile |
| AppMode.WizardStaysOpen | app/page.tsx:33-45 | once open, the wizard closes only when it completes |
| Assets.Prefix | lib/getAsset.ts:4 | the base path when it is set, the empty string otherwise |
| Assets.GetAsset | lib/getAsset.ts:5 | the asset URL is the prefix followed by the path; an unset or empty base path gives the path itself |
| Assets.GetAssetInjective | lib/getAsset.ts:4-5 | distinct paths give distinct asset URLs |
| AnimatedAvatar.SkinTone | components/animated-avatar.tsx:60-69 | each of the five listed skin colours maps to the emoji modifier at its position; any other skin maps to none |
| AnimatedAvatar.TonesDistinct | components/animated-avatar.tsx:60-69 | the five modifiers are distinct single code points |
| AnimatedAvatar.SkinToneInjective | components/animated-avatar.tsx:60-69 | distinct listed skin colours get distinct modifiers |
| AnimatedAvatar.Overlay | components/animated-avatar.tsx:85-91 | an overlay is drawn iff its text is non-empty, and it shows that text |
| AnimatedAvatar.Character | components/animated-avatar.tsx:41-98 | a robot iff the kind is "robot", coloured by the skin; otherwise a man's face iff the kind is "male", the skin's modifier, hair unless "bald", and the clothing; the hat drawn iff set |
| AnimatedAvatar.FaceEmoji | components/animated-avatar.tsx:69 | the shown emoji starts with the face, and is the bare face exactly when there is no modifier |
| AnimatedAvatar.ToneShownIff | components/animated-avatar.tsx:59-69 | a human face carries a modifier iff the skin is one of the listed colours, and is otherwise the bare face |
| AnimatedAvatar.RobotIgnoresSkinTone | components/animated-avatar.tsx:41-56 | changing a robot's skin only recolours the glyph |
| AnimatedAvatar.Tier | components/animated-avatar.tsx:103-109 | the level tier: 0 below 5, 3 from 15, and otherwise the band of five levels it lies in |
| AnimatedAvatar.FarmingTool | components/animated-avatar.tsx:103-109 | an explicit tool wins; otherwise the tractor iff the level is at least 15, the wrench iff 10 to 14, the axe iff 5 to 9, the seedling below 5 |
| AnimatedAvatar.ToolNeverDowngrades | components/animated-avatar.tsx:103-109 | the default tool is the tier's tool, and the tier never falls as the level rises |
| AnimatedAvatar.StartingTools | components/animated-avatar.tsx:103-109 | the default and the wizard-built avatars hold a seedling at level 1; a wizard-built avatar holds a tractor at level 20 |
| Onboarding.Next | components/onboarding-flow.tsx:67-79 | moves one step forward with the draft unchanged before the last step; at the last step, emits the draft with level 1, xp 100, credits and popularity 100 and the three starting achievements |
| Onboarding.Back | components/onboarding-flow.tsx:83-87 | moves one step back and keeps the draft; at step 1 nothing changes |
| Onboarding.SkipAvatar | components/onboarding-flow.tsx:89-100 | jumps to the last step with the default avatar and changes no other field |
| Onboarding.CanProceed | components/onboarding-flow.tsx:102-119 | the per-step gate: step 1 passes iff the name holds a non-whitespace character; steps 2, 3, 4 and 6 iff their field is filled in; step 5 iff the avatar has a type and a skin; no step outside 1 to 6 passes |
| Onboarding.Offered | components/onboarding-flow.tsx:419-515 | an offered action happens on one of the six steps; Next is offered iff the step's gate holds; Back exactly when it would move the wizard; Skip only on the avatar step, where it advances by one step |
| Onboarding.ApplyEdit | components/onboarding-flow.tsx:140-467 | each input sets its own field of the draft and nothing else |
| Onboarding.Handle | components/onboarding-flow.tsx:419-515 | a wizard event completes the wizard iff it is "Next" on the last step; inputs keep the step |
| Onboarding.AvatarStepAlwaysPasses | components/onboarding-flow.tsx:113 | an avatar built from the pickers always passes the avatar step |
| Onboarding.InitialReachable | components/onboarding-flow.tsx:40-60 | the wizard's initial state satisfies the reachability invariant |
| Onboarding.EditKeepsOtherSteps | components/onboarding-flow.tsx:102-119 | an input never changes the gate of a step other than its own |
| Onboarding.StepPreservesReachable | components/onboarding-flow.tsx:67-515 | every event the UI offers keeps the invariant, and a completion emits a finished profile |
| Onboarding.RunPreservesReachable | components/onboarding-flow.tsx:67-515 | along any sequence of events (those the UI does not offer have no effect), the step stays within 1 to 6, every earlier step stays satisfied, the avatar step always passes, and every emitted profile is finished |
| Dashboard.AddHabit | components/farm-dashboard.tsx:133-141 | appends the input as a new habit with a fresh id above every existing one, streak 0, not completed; the list before it is unchanged |
| Dashboard.DeleteHabit | components/farm-dashboard.tsx:143-145 | keeps exactly the habits with another id, and leaves a list without that id unchanged |
| Dashboard.ToggleHabit | components/farm-dashboard.tsx:147-155 | toggles only the habits with the id, adjusting their streak, and keeps every id and position |
| Dashboard.ToggleTwice | components/farm-dashboard.tsx:147-155 | toggling twice restores the completion flag and leaves the streak one longer, since exactly one of the two toggles completes the habit |
| Dashboard.DeleteHabitCount | components/farm-dashboard.tsx:143-145 | with distinct ids, deleting removes one habit iff the id is listed |
| Dashboard.HabitIdsStayDistinct | components/farm-dashboard.tsx:133-155 | any sequence of adds, deletes and toggles keeps habit ids distinct |
| Dashboard.HabitOpKeepsDistinct | components/farm-dashboard.tsx:133-155 | one add, delete or toggle keeps habit ids distinct |
| Dashboard.InitialHabitsDistinct | components/farm-dashboard.tsx:90-131 | the built-in habits have distinct ids |
| Dashboard.ToggleAccessory | components/farm-dashboard.tsx:203-207 | the accessory becomes selected iff it was not, others keep their selection, and duplicates never appear |
| Dashboard.RemoveAll | components/farm-dashboard.tsx:203-207 | removal keeps exactly the other accessories |
| Dashboard.ToggleAccessoryTwice | components/farm-dashboard.tsx:203-207 | toggling an accessory twice restores the selection as a set |
| Dashboard.Greeting | components/farm-dashboard.tsx:83-88 | morning iff before 12, afternoon iff 12 to 16, evening iff 17 or later |
| Dashboard.FirstName | components/farm-dashboard.tsx:181-186 | "Farmer" when no name is set; otherwise the name up to its first space |
| Dashboard.RouteTab | components/farm-dashboard.tsx:390-667 | a tab id routes to the view carrying that id, and unknown ids fall back to the overview |
| Dashboard.RouteTabRoundTrip | components/farm-dashboard.tsx:390-667 | routing a view's own id gives back that view, and a tab shows the overview iff no view carries its id |
| Dashboard.SelectTab | components/farm-dashboard.tsx:36 | selecting a tab routes to that tab's view and changes nothing else |
| Dashboard.SetCredits | components/farm-dashboard.tsx:418 | the credits take the reported value, unclamped; nothing else changes |
| Dashboard.SetPopularity | components/farm-dashboard.tsx:444-445 | the popularity takes the reported value, unclamped; nothing else changes |
| Dashboard.NavigationReachesViews | components/farm-dashboard.tsx:157-167 | the initial tab is the overview, and every other sidebar item opens its own distinct view |
| HabitForm.LookupIcon | components/habit-management.tsx:52-61 | an icon name resolves iff it is a key of the icon table |
| HabitForm.LookupIconInjective | components/habit-management.tsx:52-61 | distinct icon names resolve to distinct icons |
| HabitForm.ApplyEdit | components/habit-management.tsx:127-183 | each control sets its own field only, and values the controls offer keep the form well formed |
| HabitForm.Submit | components/habit-management.tsx:84-97 | emits a habit iff name, description and category are filled in, carrying them with the xp and the resolved icon, then resets and closes the dialog; otherwise nothing changes |
| HabitForm.Run | components/habit-management.tsx:76-183 | over any actions the form stays well formed, and every emitted habit has a name, a description, a category and an offered xp |
| HabitForm.InitialFormWellFormed | components/habit-management.tsx:76-82 | the blank form is well formed, with 25 xp and the Sprout icon |
| Challenges.InitialAsWritten | components/challenges-system.tsx:125-130 | as written: the badge list is the three starting badges followed by every passed-in badge |
| Challenges.DashboardBadgesRepeat | components/challenges-system.tsx:125-130 | with the badges the dashboard passes, the list as written has five entries with two badges listed twice, where the user holds three |
| Challenges.AddNew | components/challenges-system.tsx:125-142 | appending only the badges not yet listed keeps the list's prefix, holds exactly the badges of both lists, and adds no repeat |
| Challenges.Initial | components/challenges-system.tsx:125-130 | corrected: the list starts with the three starting badges, holds exactly the starting and passed-in badges, and lists none twice |
| Challenges.ClaimMap | components/challenges-system.tsx:135-152 | claiming marks every open challenge with the id as completed at full progress, and leaves the others as they were |
| Challenges.Claim | components/challenges-system.tsx:134-154 | a claim keeps the challenges' order and ids, marks the open challenge with the id completed at full progress, leaves every other challenge as it was, keeps the earned badges and appends only badges not already earned |
| Challenges.AwardedFresh | components/challenges-system.tsx:140-142 | every badge a claim queues is missing from the list the view rendered with |
| Challenges.NothingClaimable | components/challenges-system.tsx:134-152 | with nothing claimable, a claim awards no credits and no badges and changes no challenge |
| Challenges.OneClaimable | components/challenges-system.tsx:134-152 | with distinct ids, a claim awards exactly the claimed challenge's credits and badge |
| Challenges.ClaimAwardsOnce | components/challenges-system.tsx:134-152 | claiming an open challenge adds its credits, adds its badge unless already earned, marks it "Completed", and changes no other challenge |
| Challenges.ClaimNothingClaimable | components/challenges-system.tsx:134-152 | a claim of a completed or unknown challenge changes nothing |
| Challenges.ClaimIdempotent | components/challenges-system.tsx:134-152 | claiming twice is claiming once |
| Challenges.ClaimKeepsBadgesDistinct | components/challenges-system.tsx:134-142 | with distinct challenge ids a claim adds at most one badge, so a badge list without repeats stays without repeats |
| Challenges.PressClaim | components/challenges-system.tsx:297-403 | the claim button does nothing unless the challenge is open and at full progress; pressed, with distinct ids, it adds that challenge's credits, marks it completed, adds its badge unless already earned, and leaves every other challenge as it was |
| Challenges.OfKindMembers | components/challenges-system.tsx:156-157 | the daily (weekly) list holds exactly the daily (weekly) challenges |
| Challenges.DailyWeeklyPartition | components/challenges-system.tsx:156-157 | the daily and weekly lists together are a permutation of all challenges |
| Quests.Find | components/quests-system.tsx:169 | finds a quest with the id iff one is active |
| Quests.Complete | components/quests-system.tsx:168-174 | when no active quest with the id has reached its maximum nothing changes; with distinct ids, a finished quest at position i leaves the active list (the rest keep their order) and is appended to the completed list with only its completion flag set |
| Quests.FindListed | components/quests-system.tsx:169-171 | with distinct ids, the search finds the one quest carrying the id and the filter removes exactly its position |
| Quests.CompleteMovesQuest | components/quests-system.tsx:170-172 | with distinct ids, completing removes exactly that quest from the active list and appends it to the completed list; the total is kept |
| Quests.CompleteTwiceIsNoop | components/quests-system.tsx:168-174 | completing the same quest twice is completing it once |
| Quests.PressComplete | components/quests-system.tsx:168-174 | the button on an unfinished quest does nothing; on a finished one it moves it |
| Quests.NoneCompletable | components/quests-system.tsx:170 | when no active quest has reached its maximum, completion changes nothing |
| Quests.InitialActiveShort | components/quests-system.tsx:44-110 | no built-in active quest has reached its maximum |
| Quests.InitialNothingCompletable | components/quests-system.tsx:44-174 | no quest can be completed on the initial state |
| Quests.InitialIds | components/quests-system.tsx:44-110 | the built-in active quests are numbered 1 upwards |
| Community.InitialMembersDistinct | components/community-system.tsx:60-169 | the built-in members have distinct ids |
| Community.Credit | components/community-system.tsx:186-189 | adds the amount to the members with the id and leaves the others as they were |
| Community.CreditTotal | components/community-system.tsx:186-189 | the members' credit total grows by the amount once per member with the id |
| Community.CountIdListed | components/community-system.tsx:186-189 | with distinct ids, a listed id is held by exactly one member |
| Community.CountIdAbsent | components/community-system.tsx:186-189 | an unlisted id is held by no member |
| Community.SendGiftAsWritten | components/community-system.tsx:179-191 | as written: refuses only gifts above the user's credits; otherwise debits the amount, adds floor(amount/10) popularity and credits the recipient |
| Community.SendGift | components/community-system.tsx:179-191 | corrected: refuses negative gifts too; an accepted gift leaves the user with credits between 0 and the former credits, and popularity never falls |
| Community.GiftConserves | components/community-system.tsx:179-191 | an accepted gift to a listed member moves credits without creating or destroying any |
| Community.GiftMonotone | components/community-system.tsx:179-191 | a gift never raises the user's credits |
| Community.PressGiftAsWritten | components/community-system.tsx:474-475 | the gift button is disabled iff the amount is blank or above the credits; pressed, it sends the parsed amount, or yields NaN when the text has no digits |
| Community.NegativeGiftAccepted | components/community-system.tsx:474-475 | as written, the amount "-50" passes the button with 100 credits, raising the user to 150 credits and 45 popularity and taking 50 from the recipient |
| Community.MinusFifty | components/community-system.tsx:474 | "-50" parses as -50 |
| Community.PressGift | components/community-system.tsx:474-475 | corrected button: same gate and parse, and a sent gift never raises the user's credits |
| Community.SendMessage | components/community-system.tsx:194-201 | sending a message adds 5 popularity, clears the text and changes nothing else |
| Community.PressMessage | components/community-system.tsx:497 | the send button does nothing on a blank message |
| Community.AddFriend | components/community-system.tsx:203-207 | marks the members with the id as friends and changes nothing else |
| Community.AddFriendIdempotent | components/community-system.tsx:203-207 | adding a friend twice is adding once |
| Community.Filtered | components/community-system.tsx:171-177 | keeps exactly the members that match the search and the tab |
| Community.Searched | components/community-system.tsx:172-174 | keeps exactly the members whose name or specialisation contains the term, ignoring ASCII case |
| Community.TabsPartition | components/community-system.tsx:175 | for any search, the friends and discover tabs together are a permutation of the search results |
| Community.EmptySearchMatchesAll | components/community-system.tsx:172-174 | the empty search matches every member |
| Community.AddFriendCount | components/community-system.tsx:203-207 | with distinct ids, befriending a non-friend raises the friend count by one |
| Community.Handle | components/community-system.tsx:179-207 | typing changes only its field; a gift press uses the corrected handler and is a no-op when the button is disabled or the text parses to NaN (such as ".5"); only a gift moves the user's credits, never upward; messages and friend requests keep every balance |
| Community.HandleKeepsBalance | components/community-system.tsx:179-207 | every offered event keeps ids distinct, keeps the user's credits non-negative, and keeps the total of user and member credits |
| Community.ClickGiftKeepsBalance | components/community-system.tsx:179-191 | the gift press keeps ids distinct, credits non-negative and the credit total |
| Community.CreditIds | components/community-system.tsx:186-189 | crediting keeps member ids distinct |
| Community.AddFriendIds | components/community-system.tsx:203-207 | befriending keeps member ids distinct |
| Community.AddFriendTotal | components/community-system.tsx:203-207 | befriending keeps the credit total |
| Calendar.CategoryIcon | components/calendar-system.tsx:110-119 | each of the eight listed categories gets its own icon from the table (Soil Care a sprout, Water Management droplets, Crop Management a sun, Plant Protection a shield, Equipment a tractor, Harvest wheat, Marketing people, General the calendar), and any unknown category gets the calendar icon |
| Calendar.CategoryIconsDistinct | components/calendar-system.tsx:110-119 | distinct categories have distinct icons |
| Calendar.AddEvent | components/calendar-system.tsx:137-166 | nothing changes when the title, date or time is empty; otherwise the draft is appended as an event and the dialog resets and closes |
| Calendar.AddedEvent | components/calendar-system.tsx:141-154 | the added event has a fresh id above all others and carries every field of the draft (an absent description as empty, the attendees included) and its category's icon |
| Calendar.AddEventDistinct | components/calendar-system.tsx:141 | adding keeps event ids distinct |
| Calendar.DeleteEvent | components/calendar-system.tsx:168-170 | keeps exactly the events with another id and nothing else changes |
| Calendar.DeleteListed | components/calendar-system.tsx:168-170 | with distinct ids, deleting a listed event removes exactly its position |
| Calendar.DeleteEventDistinct | components/calendar-system.tsx:168-170 | deleting keeps event ids distinct |
| Calendar.TimeRemaining | components/calendar-system.tsx:121-134 | "past due" iff the difference is negative; otherwise days and hours when a day or more remains, hours and minutes when an hour or more, and minutes alone otherwise, each within its bounds |
| Calendar.Breakdown | components/calendar-system.tsx:128-130 | the day, hour and minute parts lie within their ranges and add up to the difference, up to less than a minute |
| Calendar.Upcoming | components/calendar-system.tsx:172-175 | at most five events, drawn from the list without repeating any more often than it occurs, none past, in time order, and every later event left out comes after all of them; ties keep list order: for every time, the events listed at that time are the first events at that time in the list, in list order |
| Calendar.NotBefore | components/calendar-system.tsx:173 | keeps exactly the events not in the past, each at most as often as it occurs |
| Calendar.UpcomingPastDue | components/calendar-system.tsx:121-390 | the list filters with one clock reading and each row's time remaining uses a later one: a listed event shows as past due exactly when it fell due between the two readings, and with one reading none does |
| Calendar.DueBetweenReadings | components/calendar-system.tsx:121-390 | an event that falls due between the two clock readings is listed and shown as past due |
| Calendar.SoonestKey | components/calendar-system.tsx:174 | ordering by negated time groups the same events as ordering by time |
| Calendar.NotBeforeAtTime | components/calendar-system.tsx:173 | dropping past events keeps every event at a time not before now, in order, and none at an earlier time |
| Calendar.UpcomingStable | components/calendar-system.tsx:172-175 | for every time, the upcoming events at that time are the first events at that time in the list, in list order |
| Calendar.Today | components/calendar-system.tsx:177 | keeps exactly the events on today's date, each at most as often as it occurs |
| Learning.MarkComplete | components/learning-system.tsx:185-189 | a lesson is appended iff it is not yet complete, no lesson is lost, and duplicates never appear |
| Learning.MarkCompleteIdempotent | components/learning-system.tsx:185-189 | completing a lesson twice is completing it once |
| Learning.CompleteQuiz | components/learning-system.tsx:191-194 | records the score for that lesson only, keeps the other scores, and completes the lesson |
| Learning.InitialProgressDistinct | components/learning-system.tsx:36-40 | the initially completed lessons are distinct |
| Learning.FindCourse | components/learning-system.tsx:182 | finds a listed course with the id, or reports that none has it |
| Learning.FindLesson | components/learning-system.tsx:183 | finds a lesson of the course with the id, or reports that none has it |
| Learning.CurrentScreen | components/learning-system.tsx:196-318 | a lesson screen iff both selections are set and resolve; a course screen for a resolved course; the catalogue otherwise |
| Learning.BackToCourse | components/learning-system.tsx:201 | clears the lesson selection and keeps the course |
| Learning.BackToCourses | components/learning-system.tsx:323 | clears the course selection |
| Learning.BackGoesUpOneLevel | components/learning-system.tsx:196-323 | back from a lesson shows its course, and back from a course shows the catalogue |
| Learning.CourseIdsDistinct | components/learning-system.tsx:47-180 | the courses have distinct ids |
| Learning.Suitable | components/learning-system.tsx:500-506 | keeps exactly the courses the knowledge level recommends |
| Learning.Recommended | components/learning-system.tsx:500-507 | no recommendation without a profile; otherwise at most two suitable courses |
| Learning.RecommendedLevels | components/learning-system.tsx:500-507 | beginners see only beginner courses, intermediates no advanced ones, and unknown levels see none |
| Learning.SuitableNone | components/learning-system.tsx:500-506 | with no suitable course the list is empty |
| Learning.FirstSuitable | components/learning-system.tsx:500-507 | a suitable course with fewer than n suitable courses before it is among the first n |
| Learning.RecommendedFirstTwo | components/learning-system.tsx:500-507 | the first two suitable courses are the ones recommended |
| Numbers.DigitValue | components/community-system.tsx:474 | a digit's value lies in 0 to 9 |
| Numbers.DigitChar | components/habit-management.tsx:182 | the digit character for a value reads back as that value |
| Numbers.DigitPrefix | components/community-system.tsx:474 | the longest run of leading digits |
| Numbers.ParseInt | components/community-system.tsx:474 | NaN iff no digits follow the leading whitespace and sign; a minus gives a non-positive value, otherwise non-negative |
| Numbers.Unsigned | components/community-system.tsx:474 | drops one leading sign, if any |
| Numbers.NatDecimal | components/habit-management.tsx:182 | a non-empty digit string without leading zeros |
| Numbers.Decimal | components/habit-management.tsx:182 | decimal text of an integer: digits, with a leading minus when negative |
| Numbers.DigitsOfNatDecimal | components/habit-management.tsx:182-183 | the digits of a natural read back as that natural |
| Numbers.AllDigitsPrefix | components/community-system.tsx:474 | an all-digit text is its own digit prefix |
| Numbers.ParseDecimal | components/habit-management.tsx:182-183 | parsing an integer's decimal text gives the integer back, as the xp select does |
| Settings.InitialProfile | components/settings-system.tsx:49-61 | the sample profile, with the onboarding experience as years of experience when set and "5-10 years" otherwise; 8 completed fields |
| Settings.Set | components/settings-system.tsx:133 | sets the field and no other |
| Settings.FieldsDetermineProfile | components/settings-system.tsx:49-61 | the named fields and the completed count determine a profile |
| Settings.ProfileUpdate | components/settings-system.tsx:132-138 | sets the field; 10 credits are awarded iff a non-empty value fills an empty field, else none; the completed count is untouched |
| Settings.RefillAwardsAgain | components/settings-system.tsx:135-137 | clearing and refilling a field awards the credits again |
| Settings.CompletionPercentage | components/settings-system.tsx:161 | the bar reads between 0 and 100 for a count of 0 to 10 fields, 100 exactly when all ten are filled and 80 exactly when eight are |
| Settings.CompletionStaysAtEighty | components/settings-system.tsx:161 | profile edits never move the completion bar off 80 |
| Settings.SendMessage | components/settings-system.tsx:140-158 | a blank draft changes nothing; otherwise the user's text is appended and the draft cleared |
| Settings.BotReply | components/settings-system.tsx:146-156 | the reply appends one bot message drawn from the five responses and keeps the history |
| Settings.SendKeepsHistory | components/settings-system.tsx:140-158 | sending keeps the earlier messages and adds at most one |
| Settings.PanelFor | components/settings-system.tsx:542-558 | each of the four section ids opens its own panel; anything else shows the menu |
| Settings.MenuOpensPanels | components/settings-system.tsx:105-131 | every menu item opens a distinct panel, and no selection shows the menu |
| Leaderboard.BaseUsers | components/leaderboard-system.tsx:37-135 | eight players, the fourth the current user, named after the profile or "You", at 1250 xp and a 27-day streak |
| Leaderboard.Board | components/leaderboard-system.tsx:137-146 | a permutation of the players, sorted by streak for weekly and monthly and by xp otherwise |
| Leaderboard.CurrentUserRank | components/leaderboard-system.tsx:150 | 0 iff nobody is marked; otherwise the first marked position, counted from 1 |
| Leaderboard.BaseUsersMarked | components/leaderboard-system.tsx:37-135 | exactly one built-in player is the current user |
| Leaderboard.BaseUsersKeys | components/leaderboard-system.tsx:37-135 | no other player shares the current user's xp or streak |
| Leaderboard.BaseUsersAhead | components/leaderboard-system.tsx:37-135 | six players have a longer streak and seven more xp |
| Leaderboard.RankCountsPlayersAhead | components/leaderboard-system.tsx:137-150 | a uniquely marked player with a unique key ranks one after the players with larger keys |
| Leaderboard.BoardRank | components/leaderboard-system.tsx:137-150 | on the built-in board the user's rank is one more than the number of built-in players with a larger key |
| Leaderboard.CurrentUserRankValue | components/leaderboard-system.tsx:137-150 | the current user ranks 7th by streak and 8th by xp |
| Leaderboard.MessageFor | components/leaderboard-system.tsx:241-245 | top three iff the rank is at most 3; top ten iff 4 to 10 |
| Leaderboard.AlwaysTopTen | components/leaderboard-system.tsx:137-245 | with the built-in players the user always reads "top 10" |
| Leaderboard.BadgeFor | components/leaderboard-system.tsx:152-176 | crown for 1, silver for 2, bronze for 3, and the plain number otherwise |
| Leaderboard.BadgeAgreesWithMessage | components/leaderboard-system.tsx:152-245 | distinct ranks get distinct badges, and a medal shows iff the message says top three |
| Leaderboard.UserRowNumbered | components/leaderboard-system.tsx:137-176 | with the built-in players the user's row never carries a medal |
| IdLists.MaxId | components/calendar-system.tsx:141 | `Math.max(...ids, 0)`: non-negative, at least every id, and either 0 or some record's id |
| IdLists.NextId | components/farm-dashboard.tsx:133-141 | the new id is positive and above every existing id |
| IdLists.WithoutIdMembers | components/calendar-system.tsx:169 | the filter keeps exactly the records with another id, and a list without the id is unchanged |
| IdLists.WithoutIdAppend | components/quests-system.tsx:171 | filtering distributes over concatenation |
| IdLists.WithoutIdSingle | components/quests-system.tsx:171 | a single record is kept iff its id differs |
| IdLists.WithoutIdDistinct | components/farm-dashboard.tsx:143-145 | with distinct ids, deleting keeps ids distinct and removes one record iff the id is present |
| IdLists.WithoutIdAt | components/quests-system.tsx:171 | with distinct ids, deleting a listed id removes exactly its position |
| IdLists.AppendNextDistinct | components/calendar-system.tsx:141-154 | appending a record with the next id keeps ids distinct |
| Sorting.Insert | components/leaderboard-system.tsx:137-146 | inserting into a sorted list keeps it sorted and adds exactly that element |
| Sorting.Sort | components/leaderboard-system.tsx:137-146 | the result is sorted by the key, highest first, and is a permutation of the input |
| Sorting.SortStable | components/calendar-system.tsx:174 | sorting is stable: the records sharing any one key keep their input order |
| Sorting.InsertStable | components/leaderboard-system.tsx:137-146 | an inserted record goes in front of the records with its key |
| Sorting.WithKeyAppend | components/calendar-system.tsx:174-175 | picking the records with one key distributes over concatenation |
| Sorting.WithKeyPrefix | components/calendar-system.tsx:175 | the records with one key in a prefix are a prefix of the list's records with that key |
| Sorting.InsertCount | components/leaderboard-system.tsx:150 | inserting adds one to a count iff the element satisfies the predicate |
| Sorting.SortCount | components/leaderboard-system.tsx:150 | sorting keeps every count |
| Sorting.CountOneUnique | components/leaderboard-system.tsx:150 | a count of one means exactly one position satisfies the predicate |
| Sorting.CountZeroNone | components/leaderboard-system.tsx:150 | a count of zero means no position satisfies the predicate |
| Sorting.CountNone | components/leaderboard-system.tsx:150 | no satisfying position means a count of zero |
| Sorting.Take | components/calendar-system.tsx:175 | `slice(0, n)`: the first min(n, length) elements, so never an element more often than the list holds it |
| Sorting.Top | components/calendar-system.tsx:174-175 | `sort(...).slice(0, n)`: at most n elements drawn from the list (none more often than it occurs), sorted, and any element cut off ranks no higher than every kept one, the prefix then being full; for every key, the kept records with that key are the first ones with that key in the input, in input order |
| Sorting.SortMembers | components/calendar-system.tsx:174 | sorting keeps exactly the same elements |
| Sorting.TakeSortedBound | components/calendar-system.tsx:174-175 | of a sorted list, the elements cut off are ordered after every element kept |
| Sorting.SortedPosition | components/leaderboard-system.tsx:150 | in a sorted list, an element with a unique key sits after exactly the elements with larger keys |
| Sorting.SortedRank | components/leaderboard-system.tsx:137-150 | after sorting, the unique marked element sits at the number of elements with a larger key |
| Sorting.RankInSorted | components/leaderboard-system.tsx:150 | the same for a list that is already sorted |
| Strings.TrimStart | components/settings-system.tsx:141 | drops exactly the leading whitespace |
| Strings.TrimEnd | components/settings-system.tsx:141 | drops exactly the trailing whitespace |
| Strings.BlankIffAllWhitespace | components/community-system.tsx:497 | a text trims to empty iff every character is whitespace |
| Strings.LowerChar | components/community-system.tsx:173 | each upper-case ASCII letter maps to its own lower-case letter (code point plus 32); other characters are unchanged |
| Strings.Lower | components/community-system.tsx:173-174 | lowers each character in place |
| Strings.IncludesFrom | components/community-system.tsx:173-174 | true iff the term occurs at or after the position |
| Strings.Includes | components/community-system.tsx:173-174 | true iff the term occurs somewhere in the text |
| Strings.FirstWord | components/farm-dashboard.tsx:183 | the prefix before the first space, or the whole text when there is none |

## Left out

- Rendering is not modelled: layout, CSS classes, sizes, icons drawn as components, and the hover and level-up animations of `animated-avatar.tsx` (its 1.5 s level-up timer).
- Timers are not modelled:
  - the dashboard's one-second clock tick;
  - the settings bot's one-second reply delay. `Settings.BotReply` is the delayed step, and `Math.random()` becomes the `pick` index parameter.
- Dates are abstract, because JavaScript `Date` parsing, time zones and locale formatting are outside the model:
  - the greeting takes the hour;
  - the calendar takes `now` and a `timeOf` function that maps an event to its timestamp;
  - `getTimeRemaining` takes the millisecond difference;
  - chat message ids take `now` for `Date.now()`.
- Calendar.Show: the rendered strings of the time remaining are built from `Numbers.Decimal`, and no contract is stated about their text.
- Settings.CompletionPercentage: floating point is not modelled. `Math.round(completedFields / 10 * 100)` becomes `completedFields * 10`; the rounding error of the division is far below one half for any integer count, so the two agree.
- Numbers.ParseInt: models decimal text only. The following are not modelled: `0x` hexadecimal prefixes, digits beyond the precision of a double, and `Infinity`. A NaN result is `None`; the gift button then yields the `NotANumber` outcome, whose effect in the source (NaN credits) is not modelled further.
- Strings.Lower: ASCII letters only. Unicode case mapping is not modelled.
- HabitForm.Submit: requires the form to be well formed, i.e. its icon name is a key of the icon table and its xp is one of the offered rewards. Every reachable form is well formed (`HabitForm.Run`), because the select controls offer nothing else. The source would otherwise hand an `undefined` icon on.
- `console.log` in the community message handler and `window.location.reload` on logout are not modelled; they are output and a page reload.
- `process.env.NEXT_PUBLIC_BASE_PATH` is not read; it is the `basePath` parameter of `Assets.GetAsset`.
- Credits a challenge claim awards stay in the challenge view's own counter, as in the source. The dashboard's credit total is a separate state that only the settings and community views report to.
- The language select of the settings view is not modelled: it only stores the chosen code.
- `components/farm-landing.tsx`, `components/auth-modal.tsx` and `components/animated-background.tsx` are not modelled. They are the page's landing screen, the login form and a decoration; the model sees only the callbacks `app/page.tsx` passes down to them (`AppMode.Event`).
- AnimatedAvatar.FarmingTool: the component's `level` prop defaults to 1. The model takes the level explicitly.
- AppMode.Event: `ClickGetStarted` and `ClickBack` model handlers that `app/page.tsx` defines and passes down but that the app never raises. The landing page takes `onGetStarted` (`components/farm-landing.tsx:33`) but calls only `onLogin` and `onSignup`. The dashboard's props (`components/farm-dashboard.tsx:21-35`) have no `onBackToLanding`. So AppMode.BackUndoesEnter and the `ClickBack` cases of AppMode.ProfileKept and AppMode.WizardStaysOpen describe the handlers as written, not transitions a user can reach.
- Community.HandleKeepsBalance: in the app a gift whose text has no leading digits (".5") parses to `NaN`, passes the button, and sets the user's credits, popularity and the recipient's credits to `NaN`. The model makes that press a no-op, so this lemma and Community.ClickGiftKeepsBalance do not cover it. They also state the balance for the corrected gift handler (Community.SendGift), not for the one as written.
- Community.ClickGiftKeepsBalance: the same two limits as Community.HandleKeepsBalance. A `NaN` gift press is a no-op, and the gift is the corrected one.
- Challenges.Initial: models the badge list without the repeats the app's initial list holds (see Findings); `Challenges.InitialAsWritten` is the list as written.

## Findings

| source | as written | input that shows it | evidently intended | confidence | as-written member | corrected member |
|---|---|---|---|---|---|---|
| components/community-system.tsx:180-189 | the gift handler and its button refuse only amounts above the user's credits | gift amount "-50" with 100 credits: the user ends with 150 credits and 45 popularity, and the recipient loses 50 | a gift is a non-negative transfer from the user to the member | not executed | Community.NegativeGiftAccepted | Community.PressGift |
| components/challenges-system.tsx:125-130 | the earned-badge list starts as the three starting badges followed by every `userBadges` entry, with no check for repeats | the dashboard passes "Water Warrior" and "Soil Guardian" (components/farm-dashboard.tsx:439): the view lists five badges, two of them twice, and reads "5 Badges Earned" for three badges | the badge list holds each badge once, as the claim handler's `includes` check keeps it | not executed | Challenges.DashboardBadgesRepeat | Challenges.Initial |

=== FILE: app_mode.dfy ===
/** The page of `app/page.tsx`: two flags choose between the landing page
    and the dashboard and whether the onboarding wizard is open on top, and
    the profile the wizard hands over is kept for the dashboard. */
module AppMode {
  import opened Wrappers
  import Onboarding

  datatype State = State(showDashboard: bool, showOnboarding: bool, profile: Option<Onboarding.Profile>)

  const Initial: State := State(false, false, None)

  /** `handleGetStarted` and `handleLogin`: the two handlers have the same
      body, setting the dashboard flag. */
  function EnterDashboard(st: State): (r: State)
    ensures r.showDashboard
    ensures r.showOnboarding == st.showOnboarding && r.profile == st.profile
  {
    st.(showDashboard := true)
  }

  /** `handleBackToLanding`: the wizard flag and the stored profile stay. */
  function BackToLanding(st: State): (r: State)
    ensures !r.showDashboard
    ensures r.showOnboarding == st.showOnboarding && r.profile == st.profile
  {
    st.(showDashboard := false)
  }

  /** `handleSignup`: opens the wizard; the landing page stays underneath. */
  function Signup(st: State): (r: State)
    ensures r.showOnboarding
    ensures r.showDashboard == st.showDashboard && r.profile == st.profile
  {
    st.(showOnboarding := true)
  }

  /** `handleOnboardingComplete`. */
  function OnboardingComplete(st: State, p: Onboarding.Profile): (r: State)
    ensures r.profile == Some(p) && !r.showOnboarding && r.showDashboard
  {
    State(true, false, Some(p))
  }

  /** What the page renders: the wizard when its flag is set, and exactly one
      of the dashboard (given the stored profile) or the landing page. */
  datatype Main = Dashboard(profile: Option<Onboarding.Profile>) | Landing

  datatype View = View(onboarding: bool, main: Main)

  function Render(st: State): (v: View)
    ensures v.onboarding <==> st.showOnboarding
    ensures v.main.Dashboard? <==> st.showDashboard
    ensures v.main.Landing? <==> !st.showDashboard
    ensures v.main.Dashboard? ==> v.main.profile == st.profile
  {
    View(st.showOnboarding, if st.showDashboard then Dashboard(st.profile) else Landing)
  }

  /** The callbacks app/page.tsx passes down to the components it renders.
      The landing page never calls its `onGetStarted` and the dashboard
      declares no `onBackToLanding`, so `ClickGetStarted` and `ClickBack`
      are handlers the page defines but its children never raise. */
  datatype Event = ClickGetStarted | ClickLogin | ClickSignup | ClickBack | Complete(p: Onboarding.Profile)

  function Handle(st: State, ev: Event): State {
    match ev
    case ClickGetStarted => EnterDashboard(st)
    case ClickLogin => EnterDashboard(st)
    case ClickSignup => Signup(st)
    case ClickBack => BackToLanding(st)
    case Complete(p) => OnboardingComplete(st, p)
  }

  function Run(st: State, evs: seq<Event>): State
    decreases |evs|
  {
    if |evs| == 0 then st else Run(Handle(st, evs[0]), evs[1..])
  }

  /** Going back undoes entering the dashboard from the landing page. */
  lemma BackUndoesEnter(st: State)
    requires !st.showDashboard
    ensures BackToLanding(EnterDashboard(st)) == st
  {
  }

  /** Signing up from the landing page keeps the landing page rendered
      under the wizard. */
  lemma SignupKeepsLanding(st: State)
    requires !st.showDashboard
    ensures Render(Signup(st)) == View(true, Landing)
  {
  }

  /** A stored profile is never dropped, and the only way to change it is to
      finish the wizard again. */
  lemma {:induction false} ProfileKept(st: State, evs: seq<Event>)
    requires st.profile.Some?
    ensures Run(st, evs).profile.Some?
    ensures (forall i :: 0 <= i < |evs| ==> !evs[i].Complete?) ==> Run(st, evs).profile == st.profile
    decreases |evs|
  {
    if |evs| > 0 {
      ProfileKept(Handle(st, evs[0]), evs[1..]);
      assert forall i :: 1 <= i < |evs| ==> evs[1..][i - 1] == evs[i];
    }
  }

  /** Without finishing the wizard, no profile is ever stored: a user who
      logs in directly sees the dashboard without one. */
  lemma {:induction false} NoProfileWithoutOnboarding(st: State, evs: seq<Event>)
    requires st.profile.None?
    requires forall i :: 0 <= i < |evs| ==> !evs[i].Complete?
    ensures Run(st, evs).profile.None?
    decreases |evs|
  {
    if |evs| > 0 {
      assert forall i :: 1 <= i < |evs| ==> evs[1..][i - 1] == evs[i];
      NoProfileWithoutOnboarding(Handle(st, evs[0]), evs[1..]);
    }
  }

  /** The wizard flag is cleared only by finishing the wizard. */
  lemma {:induction false} WizardStaysOpen(st: State, evs: seq<Event>)
    requires st.showOnboarding
    requires forall i :: 0 <= i < |evs| ==> !evs[i].Complete?
    ensures Run(st, evs).showOnboarding
    decreases |evs|
  {
    if |evs| > 0 {
      assert forall i :: 1 <= i < |evs| ==> evs[1..][i - 1] == evs[i];
      WizardStaysOpen(Handle(st, evs[0]), evs[1..]);
    }
  }
}

=== FILE: assets.dfy ===
/** `lib/getAsset.ts`: public asset paths carry the deployment's base path.
    The environment variable is a parameter: `None` when it is unset. */
module Assets {
  import opened Wrappers

  /** `process.env.NEXT_PUBLIC_BASE_PATH || ""`. */
  function Prefix(basePath: Option<string>): (p: string)
    ensures basePath.Some? ==> p == basePath.value
    ensures basePath.None? ==> p == ""
  {
    if basePath.Some? && basePath.value != "" then basePath.value else ""
  }

  /** `getAsset`. */
  function GetAsset(basePath: Option<string>, path: string): (r: string)
    ensures |r| == |Prefix(basePath)| + |path|
    ensures r[..|Prefix(basePath)|] == Prefix(basePath)
    ensures r[|Prefix(basePath)|..] == path
    ensures basePath.None? || basePath == Some("") ==> r == path
  {
    Prefix(basePath) + path
  }

  /** The path can always be read back from the result by dropping the
      prefix, so distinct paths give distinct asset URLs. */
  lemma GetAssetInjective(basePath: Option<string>, p: string, q: string)
    requires GetAsset(basePath, p) == GetAsset(basePath, q)
    ensures p == q
  {
    assert p == GetAsset(basePath, p)[|Prefix(basePath)|..];
  }
}

=== FILE: avatar.dfy ===
/** What `components/animated-avatar.tsx` draws for an avatar record: a
    robot or a human face with an optional skin-tone modifier, the hair, hat
    and clothing overlays, and the farming tool chosen by level. Sizes,
    colours of the frame and the hover and level-up animations are left
    out. */
module AnimatedAvatar {
  import opened Wrappers
  import Onboarding

  /** The five skin colours the skin picker offers, and the emoji modifier
      each one maps to, pairwise by position. */
  const SkinColours: seq<string> := ["#FDBCB4", "#EEA990", "#CE967C", "#B07948", "#8D5524"]
  const Tones: seq<string> := ["🏻", "🏼", "🏽", "🏾", "🏿"]

  /** `skinToneMap[skin] || ""`: the map is the pairing of the two lists,
      so each listed colour gets the modifier at its position and any other
      skin gets none. */
  function SkinTone(skin: string): (r: string)
    ensures forall i :: 0 <= i < |SkinColours| && SkinColours[i] == skin ==> r == Tones[i]
    ensures skin !in SkinColours ==> r == ""
  {
    if skin == "#FDBCB4" then "🏻"
    else if skin == "#EEA990" then "🏼"
    else if skin == "#CE967C" then "🏽"
    else if skin == "#B07948" then "🏾"
    else if skin == "#8D5524" then "🏿"
    else ""
  }

  /** The five modifiers are distinct and none is empty, so the modifier
      shown tells the listed colours apart. */
  lemma TonesDistinct()
    ensures forall i, j :: 0 <= i < j < |Tones| ==> Tones[i] != Tones[j]
    ensures forall i :: 0 <= i < |Tones| ==> |Tones[i]| == 1
  {
  }

  lemma SkinToneInjective(a: string, b: string)
    requires a in SkinColours && b in SkinColours && a != b
    ensures SkinTone(a) != SkinTone(b)
  {
    TonesDistinct();
    var i :| 0 <= i < |SkinColours| && SkinColours[i] == a;
    var j :| 0 <= j < |SkinColours| && SkinColours[j] == b;
    assert i != j;
    if i < j {
      assert Tones[i] != Tones[j];
    } else {
      assert Tones[j] != Tones[i];
    }
  }

  /** The figure `renderCharacter` draws. `color` is the robot glyph's
      text colour, taken from the skin field. */
  datatype Figure =
    | Robot(color: string, hat: Option<string>)
    | Human(face: string, tone: string, hair: Option<string>, hat: Option<string>, clothing: string)

  /** JavaScript truthiness of an optional overlay text. */
  function Overlay(s: string): (r: Option<string>)
    ensures r.Some? <==> s != ""
    ensures r.Some? ==> r.value == s
  {
    if s != "" then Some(s) else None
  }

  /** `renderCharacter`. */
  function Character(a: Onboarding.Avatar): (f: Figure)
    ensures f.Robot? <==> a.kind == "robot"
    ensures f.Robot? ==> f.color == a.skin
    ensures f.hat == Overlay(a.hat)
    ensures f.Human? ==>
      && (f.face == "👨" <==> a.kind == "male")
      && (f.face == "👩" <==> a.kind != "male")
      && f.tone == SkinTone(a.skin)
      && (f.hair.Some? <==> a.hair != "bald")
      && (f.hair.Some? ==> f.hair.value == a.hair)
      && f.clothing == a.clothing
  {
    if a.kind == "robot" then Robot(a.skin, Overlay(a.hat))
    else
      Human(if a.kind == "male" then "👨" else "👩", SkinTone(a.skin),
            if a.hair != "bald" then Some(a.hair) else None,
            Overlay(a.hat), a.clothing)
  }

  /** `characterEmoji`: the face followed by the modifier, if any. */
  function FaceEmoji(f: Figure): (r: string)
    requires f.Human?
    ensures |r| >= |f.face| && r[..|f.face|] == f.face
    ensures r == f.face <==> f.tone == ""
  {
    f.face + f.tone
  }

  /** A human face carries a skin-tone modifier exactly when the skin is one
      of the five listed colours; otherwise it is the bare face. */
  lemma ToneShownIff(a: Onboarding.Avatar)
    requires a.kind != "robot"
    ensures |FaceEmoji(Character(a))| == 2 <==> a.skin in SkinColours
    ensures a.skin !in SkinColours ==> FaceEmoji(Character(a)) == Character(a).face
  {
    TonesDistinct();
    if a.skin in SkinColours {
      var i :| 0 <= i < |SkinColours| && SkinColours[i] == a.skin;
      assert |Tones[i]| == 1;
    }
  }

  /** A robot never consults the skin-tone map: changing the skin changes
      only the glyph's colour. */
  lemma RobotIgnoresSkinTone(a: Onboarding.Avatar, skin: string)
    requires a.kind == "robot"
    ensures Character(a.(skin := skin)) == Robot(skin, Character(a).hat)
  {
  }

  /** The tools `getFarmingTool` picks by level, from the lowest tier up. */
  const TierTools: seq<string> := ["🌱", "🪓", "🔧", "🚜"]

  /** The tier a level reaches: thresholds 5, 10 and 15. */
  function Tier(level: int): (t: nat)
    ensures t < |TierTools|
    ensures t == 0 <==> level < 5
    ensures t == 3 <==> level >= 15
    ensures 0 < t < 3 ==> 5 * t <= level < 5 * (t + 1)
  {
    if level >= 15 then 3 else if level >= 10 then 2 else if level >= 5 then 1 else 0
  }

  /** `getFarmingTool`: an explicit tool wins; otherwise the level picks. */
  function FarmingTool(tool: string, level: int): (r: string)
    ensures tool != "" ==> r == tool
    ensures tool == "" ==> r in TierTools
    ensures tool == "" ==> (r == "🚜" <==> level >= 15)
    ensures tool == "" ==> (r == "🔧" <==> 10 <= level < 15)
    ensures tool == "" ==> (r == "🪓" <==> 5 <= level < 10)
    ensures tool == "" ==> (r == "🌱" <==> level < 5)
  {
    if tool != "" then tool
    else if level >= 15 then "🚜"
    else if level >= 10 then "🔧"
    else if level >= 5 then "🪓"
    else "🌱"
  }

  /** Levelling up never downgrades the tool: without an explicit tool the
      tool shown is the tier's, and tiers only rise with the level. */
  lemma ToolNeverDowngrades(a: int, b: int)
    requires a <= b
    ensures FarmingTool("", a) == TierTools[Tier(a)]
    ensures FarmingTool("", b) == TierTools[Tier(b)]
    ensures Tier(a) <= Tier(b)
  {
  }

  /** The tool of the default avatar, and of a wizard-built one, at the
      starting level. */
  lemma StartingTools()
    ensures FarmingTool(Onboarding.DefaultAvatar.tool, 1) == "🌱"
    ensures FarmingTool(Onboarding.InitialAvatar.tool, 1) == "🌱"
    ensures FarmingTool(Onboarding.InitialAvatar.tool, 20) == "🚜"
  {
  }
}

=== FILE: calendar.dfy ===
/** The farm calendar of `components/calendar-system.tsx`: adding and
    deleting events, the countdown shown next to an upcoming event, and the
    "upcoming" and "today" lists. Clock time is abstract: `now` is a
    millisecond timestamp and `timeOf` stands for
    `new Date(`${date}T${time}`).getTime()`. */
module Calendar {
  import opened Wrappers
  import opened Icons
  import IdLists
  import Sorting
  import Numbers

  datatype EventKind = Task | Appointment

  datatype ReminderTiming = SameDay | DayBefore

  datatype Reminder = Reminder(enabled: bool, timing: ReminderTiming, time: string)

  datatype Event = Event(
    id: int,
    title: string,
    description: string,
    date: string,
    time: string,
    kind: EventKind,
    category: string,
    icon: Icon,
    reminder: Option<Reminder>,
    location: Option<string>,
    attendees: Option<seq<string>>)

  function EventId(e: Event): int { e.id }

  /** The add-event dialog's fields (`newEvent`). */
  datatype Draft = Draft(
    title: string,
    description: Option<string>,
    date: string,
    time: string,
    kind: EventKind,
    category: string,
    reminder: Option<Reminder>,
    location: Option<string>,
    attendees: Option<seq<string>>)

  datatype State = State(events: seq<Event>, draft: Draft, dialogOpen: bool, selectedDate: string)

  /** The dialog's fields after opening the view or adding an event. */
  function FreshDraft(selectedDate: string): Draft {
    Draft("", Some(""), selectedDate, "09:00", Task, "General",
          Some(Reminder(false, SameDay, "09:00")), None, None)
  }

  /** `categoryIcons[category] || Calendar`. */
  function CategoryIcon(category: string): (r: Icon)
    ensures forall i :: 0 <= i < |Categories| && Categories[i] == category ==> r == CategoryIcons[i]
    ensures category == "General" ==> r == Icons.Calendar
    ensures category !in Categories ==> r == Icons.Calendar
  {
    if category == "Soil Care" then Sprout
    else if category == "Water Management" then Droplets
    else if category == "Crop Management" then Sun
    else if category == "Plant Protection" then Shield
    else if category == "Equipment" then Tractor
    else if category == "Harvest" then Wheat
    else if category == "Marketing" then Users
    else Icons.Calendar
  }

  /** The keys of `categoryIcons`, which the category select offers. */
  const Categories: seq<string> :=
    ["Soil Care", "Water Management", "Crop Management", "Plant Protection",
     "Equipment", "Harvest", "Marketing", "General"]

  /** The icon `categoryIcons` gives each of `Categories`, position by position. */
  const CategoryIcons: seq<Icon> :=
    [Sprout, Droplets, Sun, Shield, Tractor, Wheat, Users, Icons.Calendar]

  /** Only "General" among the offered categories shares the fallback icon;
      the other seven each have an icon of their own. */
  lemma CategoryIconsDistinct(a: string, b: string)
    requires a in Categories && b in Categories && a != b
    ensures CategoryIcon(a) != CategoryIcon(b)
  {
  }

  /** `handleAddEvent`: refused while title, date or time is empty. */
  function AddEvent(st: State): (r: State)
    ensures st.draft.title == "" || st.draft.date == "" || st.draft.time == "" ==> r == st
    ensures st.draft.title != "" && st.draft.date != "" && st.draft.time != "" ==>
      && |r.events| == |st.events| + 1
      && r.events[..|st.events|] == st.events
      && r.draft == FreshDraft(st.selectedDate) && !r.dialogOpen
      && r.selectedDate == st.selectedDate
  {
    var d := st.draft;
    if d.title == "" || d.date == "" || d.time == "" then st
    else
      var e := Event(IdLists.NextId(st.events, EventId), d.title, d.description.GetOr(""),
                     d.date, d.time, d.kind, d.category, CategoryIcon(d.category),
                     d.reminder, d.location, d.attendees);
      State(st.events + [e], FreshDraft(st.selectedDate), false, st.selectedDate)
  }

  /** The event an accepted add appends: a fresh id above every existing
      one, the draft's fields, an absent description read as empty, and the
      category's icon. */
  lemma AddedEvent(st: State)
    requires st.draft.title != "" && st.draft.date != "" && st.draft.time != ""
    ensures
      var e := AddEvent(st).events[|st.events|];
      && e.id == IdLists.MaxId(st.events, EventId) + 1
      && (forall x :: x in st.events ==> x.id < e.id)
      && e.title == st.draft.title && e.date == st.draft.date && e.time == st.draft.time
      && (st.draft.description.None? ==> e.description == "")
      && (st.draft.description.Some? ==> e.description == st.draft.description.value)
      && e.kind == st.draft.kind && e.category == st.draft.category
      && e.icon == CategoryIcon(st.draft.category)
      && e.reminder == st.draft.reminder && e.location == st.draft.location
      && e.attendees == st.draft.attendees
  {
  }

  /** Adding keeps event ids distinct. */
  lemma AddEventDistinct(st: State)
    requires IdLists.DistinctIds(st.events, EventId)
    ensures IdLists.DistinctIds(AddEvent(st).events, EventId)
  {
    if st.draft.title != "" && st.draft.date != "" && st.draft.time != "" {
      var r := AddEvent(st);
      assert r.events == st.events + [r.events[|st.events|]];
      IdLists.AppendNextDistinct(st.events, EventId, r.events[|st.events|]);
    }
  }

  /** `handleDeleteEvent`. */
  function DeleteEvent(st: State, k: int): (r: State)
    ensures forall e :: e in r.events ==> e in st.events && e.id != k
    ensures forall e :: e in st.events && e.id != k ==> e in r.events
    ensures r.draft == st.draft && r.dialogOpen == st.dialogOpen && r.selectedDate == st.selectedDate
  {
    IdLists.WithoutIdMembers(st.events, EventId, k);
    st.(events := IdLists.WithoutId(st.events, EventId, k))
  }

  /** Deleting a listed event removes exactly that one: the others stay, in
      order. */
  lemma DeleteListed(st: State, i: int)
    requires IdLists.DistinctIds(st.events, EventId)
    requires 0 <= i < |st.events|
    ensures DeleteEvent(st, st.events[i].id).events == st.events[..i] + st.events[i + 1..]
  {
    IdLists.WithoutIdAt(st.events, EventId, i);
  }

  /** Deleting keeps event ids distinct. */
  lemma DeleteEventDistinct(st: State, k: int)
    requires IdLists.DistinctIds(st.events, EventId)
    ensures IdLists.DistinctIds(DeleteEvent(st, k).events, EventId)
  {
    IdLists.WithoutIdDistinct(st.events, EventId, k);
  }

  // ---------------------------------------------------------------------
  // The countdown

  /** `1000 * 60`, `1000 * 60 * 60` and `1000 * 60 * 60 * 24`. */
  const MsPerMinute: int := 60000
  const MsPerHour: int := 3600000
  const MsPerDay: int := 86400000

  /** What `getTimeRemaining` shows, before it is formatted. */
  datatype Remaining =
    | PastDue
    | DaysHours(days: int, hours: int)
    | HoursMinutes(hours: int, minutes: int)
    | MinutesOnly(minutes: int)

  /** `getTimeRemaining` on the millisecond difference between the event and
      now. For a non-negative difference JavaScript's `%` and `Math.floor` of
      the quotient agree with the integer division used here. */
  function TimeRemaining(diff: int): (r: Remaining)
    ensures r.PastDue? <==> diff < 0
    ensures r.DaysHours? ==>
      && r.days >= 1 && 0 <= r.hours < 24
      && r.days * MsPerDay + r.hours * MsPerHour <= diff
      && diff < r.days * MsPerDay + (r.hours + 1) * MsPerHour
    ensures r.HoursMinutes? ==>
      && 1 <= r.hours < 24 && 0 <= r.minutes < 60
      && r.hours * MsPerHour + r.minutes * MsPerMinute <= diff
      && diff < r.hours * MsPerHour + (r.minutes + 1) * MsPerMinute
    ensures r.MinutesOnly? ==>
      && 0 <= r.minutes < 60
      && r.minutes * MsPerMinute <= diff < (r.minutes + 1) * MsPerMinute
  {
    if diff < 0 then PastDue
    else
      Breakdown(diff);
      var days := diff / MsPerDay;
      var hours := (diff % MsPerDay) / MsPerHour;
      var minutes := (diff % MsPerHour) / MsPerMinute;
      if days > 0 then DaysHours(days, hours)
      else if hours > 0 then HoursMinutes(hours, minutes)
      else MinutesOnly(minutes)
  }

  /** Days, hours of the day and minutes of the hour, each read off the
      difference as `getTimeRemaining` does, add back up to it to within a
      minute. */
  lemma Breakdown(diff: int)
    requires diff >= 0
    ensures var d, h, m := diff / MsPerDay, (diff % MsPerDay) / MsPerHour, (diff % MsPerHour) / MsPerMinute;
      && 0 <= h < 24 && 0 <= m < 60 && d >= 0
      && d * MsPerDay + h * MsPerHour + m * MsPerMinute <= diff
      && diff < d * MsPerDay + h * MsPerHour + (m + 1) * MsPerMinute
  {
    var d, r := diff / 86400000, diff % 86400000;
    var h, r2 := r / 3600000, r % 3600000;
    assert diff % 3600000 == r2 by {
      assert diff == (d * 24 + h) * 3600000 + r2;
    }
  }

  /** The text `getTimeRemaining` returns. */
  function Show(r: Remaining): string {
    match r
    case PastDue => "Past due"
    case DaysHours(d, h) => Numbers.Decimal(d) + "d " + Numbers.Decimal(h) + "h remaining"
    case HoursMinutes(h, m) => Numbers.Decimal(h) + "h " + Numbers.Decimal(m) + "m remaining"
    case MinutesOnly(m) => Numbers.Decimal(m) + "m remaining"
  }

  // ---------------------------------------------------------------------
  // The lists

  /** `upcomingEvents`: the events not before now, earliest first, at most
      five. The sort is stable: for every time, the events listed at that
      time are the first events at that time in the list, in list order. */
  function Upcoming(events: seq<Event>, now: int, timeOf: Event -> int): (r: seq<Event>)
    ensures |r| <= 5
    ensures multiset(r) <= multiset(events)
    ensures forall e :: e in r ==> e in events && timeOf(e) >= now
    ensures forall i, j :: 0 <= i < j < |r| ==> timeOf(r[i]) <= timeOf(r[j])
    ensures forall e :: e in events && timeOf(e) >= now && e !in r ==>
              |r| == 5 && forall x :: x in r ==> timeOf(x) <= timeOf(e)
    ensures forall t :: Sorting.IsPrefix(Sorting.WithKey(r, timeOf, t), Sorting.WithKey(events, timeOf, t))
  {
    var r := Sorting.Top(NotBefore(events, now, timeOf), Soonest(timeOf), 5);
    UpcomingStable(events, now, timeOf);
    r
  }

  /** The sort key that puts the earliest event first. */
  function Soonest(timeOf: Event -> int): Event -> int {
    e => -timeOf(e)
  }

  /** The events at time `t` are the events whose negated time is `-t`. */
  lemma {:induction false} SoonestKey(s: seq<Event>, timeOf: Event -> int, t: int)
    ensures Sorting.WithKey(s, Soonest(timeOf), -t) == Sorting.WithKey(s, timeOf, t)
  {
    if |s| > 0 {
      SoonestKey(s[1..], timeOf, t);
    }
  }

  /** Dropping past events keeps, for a time not before now, all the events
      at that time in order, and for an earlier time none. */
  lemma {:induction false} NotBeforeAtTime(events: seq<Event>, now: int, timeOf: Event -> int, t: int)
    ensures Sorting.WithKey(NotBefore(events, now, timeOf), timeOf, t)
            == if t >= now then Sorting.WithKey(events, timeOf, t) else []
  {
    if |events| > 0 {
      NotBeforeAtTime(events[1..], now, timeOf, t);
      var head := if timeOf(events[0]) >= now then [events[0]] else [];
      var rest := NotBefore(events[1..], now, timeOf);
      assert NotBefore(events, now, timeOf) == head + rest;
      Sorting.WithKeyAppend(head, rest, timeOf, t);
      assert Sorting.WithKey(head, timeOf, t)
             == if timeOf(events[0]) >= now && timeOf(events[0]) == t then [events[0]] else [];
    }
  }

  /** The events the upcoming list shows at any one time are the first
      events at that time in the list, in list order. */
  lemma UpcomingStable(events: seq<Event>, now: int, timeOf: Event -> int)
    ensures var r := Sorting.Top(NotBefore(events, now, timeOf), Soonest(timeOf), 5);
      forall t :: Sorting.IsPrefix(Sorting.WithKey(r, timeOf, t), Sorting.WithKey(events, timeOf, t))
  {
    var pending := NotBefore(events, now, timeOf);
    var r := Sorting.Top(pending, Soonest(timeOf), 5);
    forall t ensures Sorting.IsPrefix(Sorting.WithKey(r, timeOf, t), Sorting.WithKey(events, timeOf, t)) {
      SoonestKey(r, timeOf, t);
      SoonestKey(pending, timeOf, t);
      NotBeforeAtTime(events, now, timeOf, t);
      assert Sorting.IsPrefix(Sorting.WithKey(r, Soonest(timeOf), -t), Sorting.WithKey(pending, Soonest(timeOf), -t));
    }
  }

  /** `events.filter(e => timeOf(e) >= now)`. */
  function NotBefore(events: seq<Event>, now: int, timeOf: Event -> int): (r: seq<Event>)
    ensures multiset(r) <= multiset(events)
    ensures forall e :: e in r ==> e in events && timeOf(e) >= now
    ensures forall e :: e in events && timeOf(e) >= now ==> e in r
  {
    if |events| == 0 then []
    else
      assert forall e :: e in events <==> e == events[0] || e in events[1..];
      assert events == [events[0]] + events[1..];
      (if timeOf(events[0]) >= now then [events[0]] else []) + NotBefore(events[1..], now, timeOf)
  }

  /** The list is filtered with one reading of the clock (`now`) and each
      row's time remaining is computed with a later one (`later`). A listed
      event shows as past due exactly when it fell due between the two
      readings; with a single reading no listed event is past due. */
  lemma UpcomingPastDue(events: seq<Event>, now: int, later: int, timeOf: Event -> int)
    requires now <= later
    ensures forall e :: e in Upcoming(events, now, timeOf) ==>
              (TimeRemaining(timeOf(e) - later).PastDue? <==> now <= timeOf(e) < later)
    ensures now == later ==>
              forall e :: e in Upcoming(events, now, timeOf) ==> !TimeRemaining(timeOf(e) - later).PastDue?
  {
  }

  /** An event that falls due between the two readings is listed and shown
      as past due. */
  lemma DueBetweenReadings(e: Event, now: int, later: int, timeOf: Event -> int)
    requires now <= timeOf(e) < later
    ensures e in Upcoming([e], now, timeOf)
    ensures TimeRemaining(timeOf(e) - later).PastDue?
  {
    var r := Upcoming([e], now, timeOf);
    assert |multiset(r)| <= |multiset([e])|;
  }

  /** `todayEvents`, given today's date as `YYYY-MM-DD`. */
  function Today(events: seq<Event>, today: string): (r: seq<Event>)
    ensures multiset(r) <= multiset(events)
    ensures forall e :: e in r ==> e in events && e.date == today
    ensures forall e :: e in events && e.date == today ==> e in r
  {
    if |events| == 0 then []
    else
      assert forall e :: e in events <==> e == events[0] || e in events[1..];
      assert events == [events[0]] + events[1..];
      (if events[0].date == today then [events[0]] else []) + Today(events[1..], today)
  }
}

=== FILE: challenges.dfy ===
/** The challenge board of `components/challenges-system.tsx`: claiming a
    challenge's reward, the earned-badge list, the view's local credit
    balance, the claim button's gate, and the daily / weekly split. */
module Challenges {
  import opened Wrappers
  import opened Icons
  import IdLists
  import Strings

  datatype Kind = Daily | Weekly
  datatype Difficulty = Easy | Medium | Hard

  datatype Challenge = Challenge(
    id: int,
    title: string,
    description: string,
    kind: Kind,
    difficulty: Difficulty,
    icon: Icon,
    progress: int,
    maxProgress: int,
    credits: int,
    xp: int,
    badge: Option<string>,
    completed: bool,
    timeLeft: string)

  /** The view's state: the challenges, the earned badges and the view's own
      credit balance (initialised from the `userCredits` prop and never passed
      back to the dashboard). */
  datatype State = State(challenges: seq<Challenge>, earnedBadges: seq<string>, credits: int)

  function ChallengeId(c: Challenge): int { c.id }

  const InitialChallenges: seq<Challenge> := [
    Challenge(1, "Water Wise Wednesday", "Check irrigation efficiency in 3 different areas",
              Daily, Easy, Droplets, 2, 3, 25, 50, None, false, "6h 23m"),
    Challenge(2, "Soil Health Check", "Test soil pH and moisture levels",
              Daily, Medium, Sprout, 0, 1, 35, 75, Some("Soil Guardian"), false, "6h 23m"),
    Challenge(3, "Sustainable Pest Control", "Apply organic pest management techniques",
              Daily, Hard, Shield, 1, 1, 50, 100, Some("Eco Defender"), true, "Completed"),
    Challenge(4, "Crop Rotation Master", "Plan and implement crop rotation for 5 plots",
              Weekly, Medium, Sun, 3, 5, 100, 200, Some("Rotation Expert"), false, "3d 12h"),
    Challenge(5, "Community Helper", "Help 10 fellow farmers with sustainable practices",
              Weekly, Hard, Target, 7, 10, 150, 300, Some("Community Champion"), false, "3d 12h")
  ]

  /** The three badges every user starts with. */
  const StartingBadges: seq<string> := ["Soil Guardian", "Water Warrior", "Eco Defender"]

  /** `earnedBadges` as initialised: the starting badges followed by every
      `userBadges` entry, so a badge passed in that is also a starting badge
      is listed, and counted, twice. */
  function InitialAsWritten(userCredits: int, userBadges: seq<string>): (r: State)
    ensures |StartingBadges| <= |r.earnedBadges| && r.earnedBadges[..|StartingBadges|] == StartingBadges
    ensures r.earnedBadges[|StartingBadges|..] == userBadges
  {
    State(InitialChallenges, StartingBadges + userBadges, userCredits)
  }

  /** The dashboard passes "Water Warrior" and "Soil Guardian", both starting
      badges: the view then lists five badges, two of them twice, where the
      user holds three. */
  lemma DashboardBadgesRepeat(userCredits: int)
    ensures var earned := InitialAsWritten(userCredits, ["Water Warrior", "Soil Guardian"]).earnedBadges;
      |earned| == 5 && earned[1] == earned[3] && earned[0] == earned[4]
    ensures |Initial(userCredits, ["Water Warrior", "Soil Guardian"]).earnedBadges| == 3
  {
  }

  /** Appends each of `more` that is not yet listed, in order. */
  function AddNew(earned: seq<string>, more: seq<string>): (r: seq<string>)
    ensures |earned| <= |r| && r[..|earned|] == earned
    ensures forall b :: b in r <==> b in earned || b in more
    ensures Strings.NoDuplicates(earned) ==> Strings.NoDuplicates(r)
    decreases |more|
  {
    if |more| == 0 then earned
    else
      var next := if more[0] in earned then earned else earned + [more[0]];
      assert next[..|earned|] == earned;
      assert forall b :: b in more <==> b == more[0] || b in more[1..];
      var r := AddNew(next, more[1..]);
      assert r[..|earned|] == r[..|next|][..|earned|];
      r
  }

  /** The view's initial state for the `userCredits` and `userBadges` props,
      with the badge list kept free of repeats: the starting badges first,
      then each passed-in badge the user does not already hold. */
  function Initial(userCredits: int, userBadges: seq<string>): (r: State)
    ensures r.challenges == InitialChallenges && r.credits == userCredits
    ensures |StartingBadges| <= |r.earnedBadges| && r.earnedBadges[..|StartingBadges|] == StartingBadges
    ensures forall b :: b in r.earnedBadges <==> b in StartingBadges || b in userBadges
    ensures Strings.NoDuplicates(r.earnedBadges)
  {
    State(InitialChallenges, AddNew(StartingBadges, userBadges), userCredits)
  }

  /** The handler acts on this challenge. */
  predicate Claimable(c: Challenge, k: int) {
    c.id == k && !c.completed
  }

  /** The claimed form of a challenge. */
  function MarkClaimed(c: Challenge): Challenge {
    c.(completed := true, progress := c.maxProgress, timeLeft := "Completed")
  }

  /** The badge a claim of `c` adds when the render-time list is `earned`. */
  function BadgeGain(c: Challenge, earned: seq<string>): seq<string> {
    if c.badge.Some? && c.badge.value != "" && c.badge.value !in earned then [c.badge.value] else []
  }

  /** The `challenges.map(...)` of `handleCompleteChallenge`. */
  function ClaimMap(cs: seq<Challenge>, k: int): (r: seq<Challenge>)
    ensures |r| == |cs|
    ensures forall i :: 0 <= i < |cs| && !Claimable(cs[i], k) ==> r[i] == cs[i]
    ensures forall i :: 0 <= i < |cs| && Claimable(cs[i], k) ==> r[i] == MarkClaimed(cs[i])
  {
    if |cs| == 0 then []
    else [if Claimable(cs[0], k) then MarkClaimed(cs[0]) else cs[0]] + ClaimMap(cs[1..], k)
  }

  /** The credits queued by the map: one `setCredits` per claimed challenge. */
  function CreditsAwarded(cs: seq<Challenge>, k: int): int {
    if |cs| == 0 then 0
    else (if Claimable(cs[0], k) then cs[0].credits else 0) + CreditsAwarded(cs[1..], k)
  }

  /** The badges queued by the map. Each is checked against `earned`, the list
      as it stood when the view rendered. */
  function BadgesAwarded(cs: seq<Challenge>, k: int, earned: seq<string>): seq<string> {
    if |cs| == 0 then []
    else (if Claimable(cs[0], k) then BadgeGain(cs[0], earned) else []) + BadgesAwarded(cs[1..], k, earned)
  }

  /** `handleCompleteChallenge`: the challenges keep their order and ids;
      the uncompleted one with the id is marked completed at full progress
      and every other stays as it was; the earned list keeps its entries and
      gains only badges not already in it. No XP is awarded anywhere. */
  function Claim(st: State, k: int): (r: State)
    ensures |r.challenges| == |st.challenges|
    ensures forall i :: 0 <= i < |st.challenges| ==> r.challenges[i].id == st.challenges[i].id
    ensures forall i :: 0 <= i < |st.challenges| && !Claimable(st.challenges[i], k) ==>
              r.challenges[i] == st.challenges[i]
    ensures forall i :: 0 <= i < |st.challenges| && Claimable(st.challenges[i], k) ==>
              r.challenges[i].completed && r.challenges[i].progress == st.challenges[i].maxProgress
    ensures |st.earnedBadges| <= |r.earnedBadges| && r.earnedBadges[..|st.earnedBadges|] == st.earnedBadges
    ensures forall b :: b in r.earnedBadges[|st.earnedBadges|..] ==> b !in st.earnedBadges
  {
    var added := BadgesAwarded(st.challenges, k, st.earnedBadges);
    AwardedFresh(st.challenges, k, st.earnedBadges);
    var r := State(ClaimMap(st.challenges, k), st.earnedBadges + added,
                   st.credits + CreditsAwarded(st.challenges, k));
    assert r.earnedBadges[|st.earnedBadges|..] == added;
    r
  }

  /** Every badge the map queues is missing from the render-time list. */
  lemma {:induction false} AwardedFresh(cs: seq<Challenge>, k: int, earned: seq<string>)
    ensures forall b :: b in BadgesAwarded(cs, k, earned) ==> b !in earned
  {
    if |cs| > 0 {
      AwardedFresh(cs[1..], k, earned);
    }
  }

  lemma {:induction false} NothingClaimable(cs: seq<Challenge>, k: int, earned: seq<string>)
    requires forall i :: 0 <= i < |cs| ==> !Claimable(cs[i], k)
    ensures CreditsAwarded(cs, k) == 0
    ensures BadgesAwarded(cs, k, earned) == []
    ensures ClaimMap(cs, k) == cs
  {
    if |cs| > 0 {
      assert !Claimable(cs[0], k);
      NothingClaimable(cs[1..], k, earned);
    }
  }

  lemma {:induction false} OneClaimable(cs: seq<Challenge>, k: int, earned: seq<string>, i: int)
    requires IdLists.DistinctIds(cs, ChallengeId)
    requires 0 <= i < |cs| && Claimable(cs[i], k)
    ensures CreditsAwarded(cs, k) == cs[i].credits
    ensures BadgesAwarded(cs, k, earned) == BadgeGain(cs[i], earned)
  {
    if i == 0 {
      assert forall j :: 0 <= j < |cs[1..]| ==> cs[1..][j].id != cs[0].id;
      NothingClaimable(cs[1..], k, earned);
    } else {
      assert cs[0].id != k;
      assert cs[1..][i - 1] == cs[i];
      OneClaimable(cs[1..], k, earned, i - 1);
    }
  }

  /** Claiming an uncompleted challenge adds its credits exactly once, marks
      it completed at full progress, adds its badge only when not yet earned,
      and leaves every other challenge as it was. */
  lemma ClaimAwardsOnce(st: State, k: int, i: int)
    requires IdLists.DistinctIds(st.challenges, ChallengeId)
    requires 0 <= i < |st.challenges| && st.challenges[i].id == k && !st.challenges[i].completed
    ensures Claim(st, k).credits == st.credits + st.challenges[i].credits
    ensures Claim(st, k).earnedBadges == st.earnedBadges + BadgeGain(st.challenges[i], st.earnedBadges)
    ensures Claim(st, k).challenges[i].completed
    ensures Claim(st, k).challenges[i].progress == st.challenges[i].maxProgress
    ensures Claim(st, k).challenges[i].timeLeft == "Completed"
    ensures forall j :: 0 <= j < |st.challenges| && j != i ==> Claim(st, k).challenges[j] == st.challenges[j]
  {
    OneClaimable(st.challenges, k, st.earnedBadges, i);
  }

  /** Claiming an unknown id or an already-completed challenge changes
      nothing. */
  lemma ClaimNothingClaimable(st: State, k: int)
    requires forall i :: 0 <= i < |st.challenges| ==> !Claimable(st.challenges[i], k)
    ensures Claim(st, k) == st
  {
    NothingClaimable(st.challenges, k, st.earnedBadges);
  }

  /** A second claim of the same id changes nothing. */
  lemma ClaimIdempotent(st: State, k: int)
    ensures Claim(Claim(st, k), k) == Claim(st, k)
  {
    var st' := Claim(st, k);
    NothingClaimable(st'.challenges, k, st'.earnedBadges);
  }

  /** With distinct ids a claim adds at most one badge, so a list without
      repeats stays without repeats. */
  lemma ClaimKeepsBadgesDistinct(st: State, k: int)
    ensures IdLists.DistinctIds(st.challenges, ChallengeId) ==>
              |Claim(st, k).earnedBadges| <= |st.earnedBadges| + 1
    ensures IdLists.DistinctIds(st.challenges, ChallengeId) && Strings.NoDuplicates(st.earnedBadges) ==>
              Strings.NoDuplicates(Claim(st, k).earnedBadges)
  {
    if IdLists.DistinctIds(st.challenges, ChallengeId) {
      if i :| 0 <= i < |st.challenges| && Claimable(st.challenges[i], k) {
        OneClaimable(st.challenges, k, st.earnedBadges, i);
      } else {
        NothingClaimable(st.challenges, k, st.earnedBadges);
      }
    }
  }

  /** The claim button is enabled only for an uncompleted challenge whose
      progress has reached its maximum. */
  predicate ClaimEnabled(c: Challenge) {
    !c.completed && c.progress >= c.maxProgress
  }

  /** Pressing the claim button of the `i`-th challenge: a disabled button
      does nothing; an enabled one, with distinct ids, adds that challenge's
      credits, marks it completed, adds its badge when not yet earned, and
      leaves every other challenge as it was. */
  function PressClaim(st: State, i: int): (r: State)
    requires 0 <= i < |st.challenges|
    ensures !ClaimEnabled(st.challenges[i]) ==> r == st
    ensures |r.challenges| == |st.challenges|
    ensures ClaimEnabled(st.challenges[i]) && IdLists.DistinctIds(st.challenges, ChallengeId) ==>
      && r.credits == st.credits + st.challenges[i].credits
      && r.challenges[i].completed
      && r.earnedBadges == st.earnedBadges + BadgeGain(st.challenges[i], st.earnedBadges)
      && forall j :: 0 <= j < |st.challenges| && j != i ==> r.challenges[j] == st.challenges[j]
  {
    if ClaimEnabled(st.challenges[i]) then
      var r := Claim(st, st.challenges[i].id);
      assert IdLists.DistinctIds(st.challenges, ChallengeId) ==>
        && r.credits == st.credits + st.challenges[i].credits
        && r.earnedBadges == st.earnedBadges + BadgeGain(st.challenges[i], st.earnedBadges)
      by {
        if IdLists.DistinctIds(st.challenges, ChallengeId) {
          ClaimAwardsOnce(st, st.challenges[i].id, i);
        }
      }
      r
    else st
  }

  /** `challenges.filter(c => c.type === kind)`. */
  function OfKind(cs: seq<Challenge>, kind: Kind): seq<Challenge> {
    if |cs| == 0 then []
    else if cs[0].kind == kind then [cs[0]] + OfKind(cs[1..], kind)
    else OfKind(cs[1..], kind)
  }

  /** A tab lists exactly the challenges of its kind. */
  lemma {:induction false} OfKindMembers(cs: seq<Challenge>, kind: Kind)
    ensures forall c :: c in OfKind(cs, kind) <==> c in cs && c.kind == kind
  {
    if |cs| > 0 {
      OfKindMembers(cs[1..], kind);
      assert forall c :: c in cs <==> c == cs[0] || c in cs[1..];
    }
  }

  /** The other tab's kind. */
  function Other(kind: Kind): Kind {
    if kind == Daily then Weekly else Daily
  }

  /** A tab and the other tab together hold every challenge exactly as
      often as the board does: the daily and weekly lists split it. */
  lemma {:induction false} DailyWeeklyPartition(cs: seq<Challenge>, kind: Kind)
    ensures multiset(OfKind(cs, kind)) + multiset(OfKind(cs, Other(kind))) == multiset(cs)
  {
    if |cs| > 0 {
      DailyWeeklyPartition(cs[1..], kind);
      assert cs == [cs[0]] + cs[1..];
    }
  }
}

=== FILE: community.dfy ===
/** The community view of `components/community-system.tsx`: gifts of
    credits to other farmers, helpful messages, adding friends, and the
    searchable friends / discover lists. The user's credits and popularity
    are the dashboard's counters, handed in as props and written back through
    `onCreditsChange` and `onPopularityChange`. */
module Community {
  import opened Wrappers
  import Strings
  import Numbers
  import IdLists
  import Onboarding

  datatype Stats = Stats(habitsCompleted: int, challengesWon: int, giftsGiven: int, helpfulMessages: int)

  datatype Member = Member(
    id: int,
    name: string,
    level: int,
    location: string,
    joinedDate: string,
    popularity: int,
    credits: int,
    specialization: string,
    avatar: Onboarding.Avatar,
    stats: Stats,
    badges: seq<string>,
    isOnline: bool,
    isFriend: bool)

  function MemberId(m: Member): int { m.id }

  /** The dashboard's counters as the view sees and writes them. */
  datatype Account = Account(credits: int, popularity: int)

  /** The view's state: the counters, the member list and the two text
      fields of the member dialog. */
  datatype State = State(account: Account, members: seq<Member>, giftAmount: string, message: string)

  const InitialMembers: seq<Member> := [
    Member(1, "Sarah Green", 12, "California, USA", "2023-01-15", 850, 2400, "Organic Farming",
           Onboarding.Avatar("female", "#F4A460", "#8B4513", "#228B22", "#D2691E", "🌾"),
           Stats(245, 18, 32, 67),
           ["Water Warrior", "Soil Guardian", "Eco Champion", "Community Helper"], true, true),
    Member(2, "Mike Rodriguez", 9, "Texas, USA", "2023-03-22", 620, 1800, "Sustainable Livestock",
           Onboarding.Avatar("male", "#DEB887", "#2F4F4F", "#4682B4", "#8B4513", "🐄"),
           Stats(189, 12, 28, 45),
           ["Animal Whisperer", "Green Thumb", "Mentor"], false, true),
    Member(3, "Emma Watson", 15, "Ontario, Canada", "2022-11-08", 1200, 3500, "Permaculture Design",
           Onboarding.Avatar("female", "#FDBCB4", "#FFD700", "#9370DB", "#32CD32", "🌿"),
           Stats(356, 25, 48, 89),
           ["Eco Master", "Design Guru", "Community Leader", "Sustainability Champion"], true, false),
    Member(4, "RoboFarm-3000", 7, "Digital Farm", "2023-06-10", 420, 1200, "Smart Agriculture",
           Onboarding.Avatar("robot", "#C0C0C0", "#FF0000", "#000080", "#FFD700", "🤖"),
           Stats(156, 8, 15, 23),
           ["Tech Pioneer", "Data Analyst", "Innovation Award"], true, false)
  ]

  function Initial(account: Account): State {
    State(account, InitialMembers, "", "")
  }

  lemma InitialMembersDistinct()
    ensures IdLists.DistinctIds(InitialMembers, MemberId)
  {
  }

  // ---------------------------------------------------------------------
  // Gifts

  /** The members' credits added up. */
  function TotalCredits(ms: seq<Member>): int {
    if |ms| == 0 then 0 else ms[0].credits + TotalCredits(ms[1..])
  }

  /** How many members carry id `k`. */
  function CountId(ms: seq<Member>, k: int): nat {
    if |ms| == 0 then 0 else (if ms[0].id == k then 1 else 0) + CountId(ms[1..], k)
  }

  /** The `members.map(...)` of `handleSendGift`. */
  function Credit(ms: seq<Member>, k: int, amount: int): (r: seq<Member>)
    ensures |r| == |ms|
    ensures forall i :: 0 <= i < |ms| && ms[i].id != k ==> r[i] == ms[i]
    ensures forall i :: 0 <= i < |ms| && ms[i].id == k ==> r[i] == ms[i].(credits := ms[i].credits + amount)
  {
    if |ms| == 0 then []
    else [if ms[0].id == k then ms[0].(credits := ms[0].credits + amount) else ms[0]] + Credit(ms[1..], k, amount)
  }

  /** Every member carrying the id gains the amount; nothing else moves. */
  lemma {:induction false} CreditTotal(ms: seq<Member>, k: int, amount: int)
    ensures TotalCredits(Credit(ms, k, amount)) == TotalCredits(ms) + amount * CountId(ms, k)
  {
    if |ms| > 0 {
      var c := CountId(ms[1..], k);
      var rest := Credit(ms[1..], k, amount);
      CreditTotal(ms[1..], k, amount);
      CreditUnfold(ms, k, amount);
      TotalCons(Credit(ms, k, amount)[0], rest);
      if ms[0].id == k {
        assert CountId(ms, k) == 1 + c;
        assert amount * (1 + c) == amount + amount * c;
        assert Credit(ms, k, amount)[0].credits == ms[0].credits + amount;
      } else {
        assert CountId(ms, k) == c;
        assert Credit(ms, k, amount)[0].credits == ms[0].credits;
      }
    }
  }

  lemma CreditUnfold(ms: seq<Member>, k: int, amount: int)
    requires |ms| > 0
    ensures Credit(ms, k, amount)
            == [if ms[0].id == k then ms[0].(credits := ms[0].credits + amount) else ms[0]]
               + Credit(ms[1..], k, amount)
  {
  }

  lemma TotalCons(m: Member, ms: seq<Member>)
    ensures TotalCredits([m] + ms) == m.credits + TotalCredits(ms)
  {
    assert ([m] + ms)[1..] == ms;
  }

  /** With distinct ids, a listed member's id is carried exactly once. */
  lemma {:induction false} CountIdListed(ms: seq<Member>, i: int)
    requires IdLists.DistinctIds(ms, MemberId)
    requires 0 <= i < |ms|
    ensures CountId(ms, ms[i].id) == 1
  {
    if i == 0 {
      assert CountId(ms[1..], ms[0].id) == 0 by {
        CountIdAbsent(ms[1..], ms[0].id);
      }
    } else {
      assert ms[1..][i - 1] == ms[i];
      CountIdListed(ms[1..], i - 1);
    }
  }

  lemma {:induction false} CountIdAbsent(ms: seq<Member>, k: int)
    requires forall j :: 0 <= j < |ms| ==> ms[j].id != k
    ensures CountId(ms, k) == 0
  {
    if |ms| > 0 {
      CountIdAbsent(ms[1..], k);
    }
  }

  /** `handleSendGift` as written: the only guard is `amount > userCredits`. */
  function SendGiftAsWritten(st: State, k: int, amount: int): (r: State)
    ensures amount > st.account.credits ==> r == st
    ensures amount <= st.account.credits ==>
      && r.account == Account(st.account.credits - amount, st.account.popularity + amount / 10)
      && r.members == Credit(st.members, k, amount)
      && r.giftAmount == "" && r.message == st.message
  {
    if amount > st.account.credits then st
    else State(Account(st.account.credits - amount, st.account.popularity + amount / 10),
               Credit(st.members, k, amount), "", st.message)
  }

  /** `handleSendGift` with the guard it evidently needs: an amount outside
      `0 ..= userCredits` changes nothing. */
  function SendGift(st: State, k: int, amount: int): (r: State)
    ensures amount < 0 || amount > st.account.credits ==> r == st
    ensures 0 <= amount <= st.account.credits ==>
      && r.account == Account(st.account.credits - amount, st.account.popularity + amount / 10)
      && r.members == Credit(st.members, k, amount)
      && r.giftAmount == "" && r.message == st.message
    ensures 0 <= amount <= st.account.credits ==> r == SendGiftAsWritten(st, k, amount)
    ensures 0 <= r.account.credits <= st.account.credits || r == st
    ensures r.account.popularity >= st.account.popularity
  {
    if amount < 0 then st else SendGiftAsWritten(st, k, amount)
  }

  /** A gift to a listed member moves credits from the user to that member:
      the user's balance plus every member's balance stays the same. */
  lemma GiftConserves(st: State, i: int, amount: int)
    requires IdLists.DistinctIds(st.members, MemberId)
    requires 0 <= i < |st.members|
    ensures
      var r := SendGift(st, st.members[i].id, amount);
      r.account.credits + TotalCredits(r.members) == st.account.credits + TotalCredits(st.members)
  {
    CountIdListed(st.members, i);
    CreditTotal(st.members, st.members[i].id, amount);
  }

  /** A corrected gift never lowers another member's balance and never raises
      the user's. */
  lemma GiftMonotone(st: State, k: int, amount: int)
    ensures
      var r := SendGift(st, k, amount);
      && r.account.credits <= st.account.credits
      && |r.members| == |st.members|
      && forall j :: 0 <= j < |st.members| ==> r.members[j].credits >= st.members[j].credits
  {
  }

  /** The "Send" button: disabled while the field is empty or while the
      parsed amount exceeds the user's credits. A field that parses to `NaN`
      leaves the button enabled; the handler then computes with `NaN`. */
  datatype Press = Disabled | Sent(state: State) | NotANumber

  predicate GiftEnabled(st: State) {
    var a := Numbers.ParseInt(st.giftAmount);
    st.giftAmount != "" && !(a.Some? && a.value > st.account.credits)
  }

  function PressGiftAsWritten(st: State, k: int): (p: Press)
    ensures p.Disabled? <==> !GiftEnabled(st)
    ensures p.Sent? <==> GiftEnabled(st) && Numbers.ParseInt(st.giftAmount).Some?
    ensures p.Sent? ==> p.state == SendGiftAsWritten(st, k, Numbers.ParseInt(st.giftAmount).value)
  {
    if !GiftEnabled(st) then Disabled
    else match Numbers.ParseInt(st.giftAmount)
      case None => NotANumber
      case Some(a) => Sent(SendGiftAsWritten(st, k, a))
  }

  /** A negative amount typed into the field passes the button's gate and
      the handler's guard: the user's credits grow, the recipient's shrink,
      and the popularity drops. */
  lemma NegativeGiftAccepted(members: seq<Member>, i: int)
    requires 0 <= i < |members|
    ensures
      var st := State(Account(100, 50), members, "-50", "");
      var p := PressGiftAsWritten(st, members[i].id);
      && p.Sent?
      && p.state.account == Account(150, 45)
      && p.state.members[i].credits == members[i].credits - 50
  {
    MinusFifty();
  }

  /** The field text "-50" parses to the number -50. */
  lemma MinusFifty()
    ensures Numbers.ParseInt("-50") == Some(-50)
  {
    Numbers.ParseDecimal(-50);
    assert Numbers.Decimal(-50) == "-50";
  }

  /** The button with the corrected handler. */
  function PressGift(st: State, k: int): (p: Press)
    ensures p.Disabled? <==> !GiftEnabled(st)
    ensures p.Sent? <==> GiftEnabled(st) && Numbers.ParseInt(st.giftAmount).Some?
    ensures p.Sent? ==> p.state == SendGift(st, k, Numbers.ParseInt(st.giftAmount).value)
    ensures p.Sent? ==> p.state.account.credits <= st.account.credits
  {
    if !GiftEnabled(st) then Disabled
    else match Numbers.ParseInt(st.giftAmount)
      case None => NotANumber
      case Some(a) => Sent(SendGift(st, k, a))
  }

  // ---------------------------------------------------------------------
  // Messages and friends

  /** `handleSendMessage`: the message itself goes nowhere; the field is
      cleared and popularity rises by five. */
  function SendMessage(st: State): (r: State)
    ensures r.account.popularity == st.account.popularity + 5
    ensures r.account.credits == st.account.credits
    ensures r.members == st.members && r.giftAmount == st.giftAmount && r.message == ""
  {
    st.(account := st.account.(popularity := st.account.popularity + 5), message := "")
  }

  /** The "Send Message" button is disabled while the text is blank. */
  function PressMessage(st: State): (r: State)
    ensures Strings.IsBlank(st.message) ==> r == st
    ensures !Strings.IsBlank(st.message) ==> r.account.popularity == st.account.popularity + 5 && r.message == ""
  {
    if Strings.IsBlank(st.message) then st else SendMessage(st)
  }

  /** `handleAddFriend`. */
  function AddFriend(ms: seq<Member>, k: int): (r: seq<Member>)
    ensures |r| == |ms|
    ensures forall i :: 0 <= i < |ms| && ms[i].id != k ==> r[i] == ms[i]
    ensures forall i :: 0 <= i < |ms| && ms[i].id == k ==> r[i] == ms[i].(isFriend := true)
  {
    if |ms| == 0 then []
    else [if ms[0].id == k then ms[0].(isFriend := true) else ms[0]] + AddFriend(ms[1..], k)
  }

  /** Adding the same friend twice is the same as adding them once. */
  lemma AddFriendIdempotent(ms: seq<Member>, k: int)
    ensures AddFriend(AddFriend(ms, k), k) == AddFriend(ms, k)
  {
  }

  // ---------------------------------------------------------------------
  // The member lists

  /** The search half of the `filteredMembers` predicate: the lower-cased
      name or specialization contains the lower-cased term. */
  predicate MatchesSearch(m: Member, term: string) {
    Strings.Includes(Strings.Lower(m.name), Strings.Lower(term))
    || Strings.Includes(Strings.Lower(m.specialization), Strings.Lower(term))
  }

  /** The tab half: the "friends" tab shows friends, any other tab the rest. */
  predicate MatchesTab(m: Member, tab: string) {
    if tab == "friends" then m.isFriend else !m.isFriend
  }

  /** `filteredMembers`. */
  function Filtered(ms: seq<Member>, term: string, tab: string): (r: seq<Member>)
    ensures forall m :: m in r ==> m in ms && MatchesSearch(m, term) && MatchesTab(m, tab)
    ensures forall m :: m in ms && MatchesSearch(m, term) && MatchesTab(m, tab) ==> m in r
  {
    if |ms| == 0 then []
    else
      assert forall m :: m in ms <==> m == ms[0] || m in ms[1..];
      (if MatchesSearch(ms[0], term) && MatchesTab(ms[0], tab) then [ms[0]] else [])
      + Filtered(ms[1..], term, tab)
  }

  /** The members the search alone lets through. */
  function Searched(ms: seq<Member>, term: string): (r: seq<Member>)
    ensures forall m :: m in r <==> m in ms && MatchesSearch(m, term)
  {
    if |ms| == 0 then []
    else
      assert forall m :: m in ms <==> m == ms[0] || m in ms[1..];
      (if MatchesSearch(ms[0], term) then [ms[0]] else []) + Searched(ms[1..], term)
  }

  /** The two tabs split the search results: every match appears on exactly
      one of them, as often as it appears in the member list. */
  lemma {:induction false} TabsPartition(ms: seq<Member>, term: string)
    ensures multiset(Filtered(ms, term, "friends")) + multiset(Filtered(ms, term, "discover"))
            == multiset(Searched(ms, term))
  {
    if |ms| > 0 {
      TabsPartition(ms[1..], term);
    }
  }

  /** The empty search term matches every member. */
  lemma EmptySearchMatchesAll(m: Member)
    ensures MatchesSearch(m, "")
  {
    assert Strings.OccursAt(Strings.Lower(m.name), Strings.Lower(""), 0);
  }

  /** The "Friends" counter. */
  function FriendCount(ms: seq<Member>): nat {
    if |ms| == 0 then 0 else (if ms[0].isFriend then 1 else 0) + FriendCount(ms[1..])
  }

  /** Adding a listed member who is not yet a friend raises the counter by
      one. */
  lemma {:induction false} AddFriendCount(ms: seq<Member>, i: int)
    requires IdLists.DistinctIds(ms, MemberId)
    requires 0 <= i < |ms| && !ms[i].isFriend
    ensures FriendCount(AddFriend(ms, ms[i].id)) == FriendCount(ms) + 1
  {
    var k := ms[i].id;
    assert AddFriend(ms, k)[1..] == AddFriend(ms[1..], k);
    if i == 0 {
      assert AddFriend(ms[1..], k) == ms[1..] by {
        forall j | 0 <= j < |ms[1..]| ensures ms[1..][j].id != k {
          assert ms[1..][j] == ms[j + 1];
        }
      }
    } else {
      assert ms[1..][i - 1] == ms[i];
      AddFriendCount(ms[1..], i - 1);
    }
  }

  // ---------------------------------------------------------------------
  // The view over a sequence of actions

  datatype Event =
    | TypeGift(text: string)
    | TypeMessage(text: string)
    | ClickGift(member: int)
    | ClickMessage(member: int)
    | ClickAddFriend(member: int)

  /** Buttons belong to a listed member's card or dialog. */
  predicate Offered(st: State, ev: Event) {
    match ev
    case ClickGift(k) => IdLists.HasId(st.members, MemberId, k)
    case ClickMessage(k) => IdLists.HasId(st.members, MemberId, k)
    case ClickAddFriend(k) => IdLists.HasId(st.members, MemberId, k)
    case _ => true
  }

  /** One user action. Typing changes only its own field; a gift press goes
      through the corrected handler, and a disabled press or one whose text
      parses to `NaN` changes nothing; only a gift moves credits, and it
      never raises the user's; messages and friend requests leave every
      balance alone. */
  function Handle(st: State, ev: Event): (r: State)
    ensures ev.TypeGift? ==>
      r.giftAmount == ev.text && r.account == st.account && r.members == st.members && r.message == st.message
    ensures ev.TypeMessage? ==>
      r.message == ev.text && r.account == st.account && r.members == st.members && r.giftAmount == st.giftAmount
    ensures ev.ClickGift? && !(GiftEnabled(st) && Numbers.ParseInt(st.giftAmount).Some?) ==> r == st
    ensures ev.ClickGift? && GiftEnabled(st) && Numbers.ParseInt(st.giftAmount).Some? ==>
      r == SendGift(st, ev.member, Numbers.ParseInt(st.giftAmount).value)
    ensures ev.ClickGift? ==> r.account.credits <= st.account.credits
    ensures !ev.ClickGift? ==> r.account.credits == st.account.credits
    ensures ev.ClickMessage? || ev.ClickAddFriend? ==> TotalCredits(r.members) == TotalCredits(st.members)
  {
    match ev
    case TypeGift(t) => st.(giftAmount := t)
    case TypeMessage(t) => st.(message := t)
    case ClickGift(k) =>
      var p := PressGift(st, k);
      if p.Sent? then p.state else st
    case ClickMessage(_) => PressMessage(st)
    case ClickAddFriend(k) =>
      AddFriendTotal(st.members, k);
      st.(members := AddFriend(st.members, k))
  }

  /** One offered action keeps the ids distinct, the balance non-negative
      and the credits in the community, user included, constant. */
  lemma HandleKeepsBalance(st: State, ev: Event)
    requires IdLists.DistinctIds(st.members, MemberId)
    requires st.account.credits >= 0
    requires Offered(st, ev)
    ensures var r := Handle(st, ev);
      && IdLists.DistinctIds(r.members, MemberId)
      && r.account.credits >= 0
      && r.account.credits + TotalCredits(r.members) == st.account.credits + TotalCredits(st.members)
  {
    match ev
    case ClickGift(k) => ClickGiftKeepsBalance(st, k);
    case ClickAddFriend(k) => AddFriendTotal(st.members, k); AddFriendIds(st.members, k);
    case _ =>
  }

  lemma ClickGiftKeepsBalance(st: State, k: int)
    requires IdLists.DistinctIds(st.members, MemberId)
    requires st.account.credits >= 0
    requires IdLists.HasId(st.members, MemberId, k)
    ensures var r := Handle(st, ClickGift(k));
      && IdLists.DistinctIds(r.members, MemberId)
      && r.account.credits >= 0
      && r.account.credits + TotalCredits(r.members) == st.account.credits + TotalCredits(st.members)
  {
    var p := PressGift(st, k);
    if p.Sent? {
      var m :| m in st.members && m.id == k;
      var i :| 0 <= i < |st.members| && st.members[i] == m;
      var amount := Numbers.ParseInt(st.giftAmount).value;
      GiftConserves(st, i, amount);
      CreditIds(st.members, k, amount);
    }
  }

  /** Crediting a member leaves every id in place. */
  lemma CreditIds(ms: seq<Member>, k: int, amount: int)
    requires IdLists.DistinctIds(ms, MemberId)
    ensures IdLists.DistinctIds(Credit(ms, k, amount), MemberId)
  {
    var r := Credit(ms, k, amount);
    assert forall j :: 0 <= j < |ms| ==> r[j].id == ms[j].id;
  }

  /** Befriending a member leaves every id in place. */
  lemma AddFriendIds(ms: seq<Member>, k: int)
    requires IdLists.DistinctIds(ms, MemberId)
    ensures IdLists.DistinctIds(AddFriend(ms, k), MemberId)
  {
    var r := AddFriend(ms, k);
    assert forall j :: 0 <= j < |ms| ==> r[j].id == ms[j].id;
  }

  lemma {:induction false} AddFriendTotal(ms: seq<Member>, k: int)
    ensures TotalCredits(AddFriend(ms, k)) == TotalCredits(ms)
  {
    if |ms| > 0 {
      assert AddFriend(ms, k)[1..] == AddFriend(ms[1..], k);
      AddFriendTotal(ms[1..], k);
    }
  }
}

=== FILE: dashboard.dfy ===
/** The dashboard shell of `components/farm-dashboard.tsx`: the habit list
    and its handlers, the accessory selection, the greeting and first-name
    helpers, the tab router, and the shared credit and popularity counters. */
module Dashboard {
  import opened Wrappers
  import opened Icons
  import Strings
  import IdLists

  datatype Habit = Habit(
    id: int,
    name: string,
    description: string,
    icon: Icon,
    streak: int,
    completed: bool,
    xp: int,
    category: string)

  /** What the habit form hands to `onAddHabit`: a habit without id, streak
      and completion flag. */
  datatype HabitInput = HabitInput(
    name: string,
    description: string,
    icon: Icon,
    xp: int,
    category: string)

  function HabitId(h: Habit): int { h.id }

  const InitialHabits: seq<Habit> := [
    Habit(1, "Water Conservation Check", "Monitor and optimize water usage", Droplets, 7, true, 25, "Water Management"),
    Habit(2, "Soil Health Assessment", "Test soil pH and nutrient levels", Sprout, 3, false, 30, "Soil Care"),
    Habit(3, "Crop Rotation Planning", "Plan next season crop rotation", Sun, 12, true, 40, "Crop Management"),
    Habit(4, "Pest Control Review", "Check for sustainable pest solutions", Shield, 5, false, 35, "Plant Protection")
  ]

  /** `handleAddHabit`: appends the new habit with the next free id, a zero
      streak and not completed. */
  function AddHabit(hs: seq<Habit>, h: HabitInput): (r: seq<Habit>)
    ensures |r| == |hs| + 1 && r[..|hs|] == hs
    ensures forall x :: x in hs ==> x.id < r[|hs|].id
    ensures r[|hs|].id == IdLists.MaxId(hs, HabitId) + 1
    ensures r[|hs|].streak == 0 && !r[|hs|].completed
    ensures && r[|hs|].name == h.name && r[|hs|].description == h.description
            && r[|hs|].icon == h.icon && r[|hs|].xp == h.xp && r[|hs|].category == h.category
  {
    var habit := Habit(IdLists.NextId(hs, HabitId), h.name, h.description, h.icon, 0, false, h.xp, h.category);
    assert (hs + [habit])[..|hs|] == hs;
    hs + [habit]
  }

  /** `handleDeleteHabit`: keeps, in order, exactly the habits whose id
      differs from `k`. */
  function DeleteHabit(hs: seq<Habit>, k: int): (r: seq<Habit>)
    ensures forall x :: x in r ==> x in hs && x.id != k
    ensures forall x :: x in hs && x.id != k ==> x in r
    ensures (forall x :: x in hs ==> x.id != k) ==> r == hs
  {
    IdLists.WithoutIdMembers(hs, HabitId, k);
    IdLists.WithoutId(hs, HabitId, k)
  }

  /** The toggle applied to one habit: flips completion and extends the
      streak only when the habit becomes completed. */
  function ToggleOne(h: Habit): Habit {
    h.(completed := !h.completed, streak := if h.completed then h.streak else h.streak + 1)
  }

  /** `handleToggleHabit`. */
  function ToggleHabit(hs: seq<Habit>, k: int): (r: seq<Habit>)
    ensures |r| == |hs|
    ensures forall i :: 0 <= i < |hs| ==> r[i].id == hs[i].id
    ensures forall i :: 0 <= i < |hs| && hs[i].id != k ==> r[i] == hs[i]
    ensures forall i :: 0 <= i < |hs| && hs[i].id == k ==>
      && r[i].completed == !hs[i].completed
      && r[i].streak == (if hs[i].completed then hs[i].streak else hs[i].streak + 1)
      && r[i].(completed := hs[i].completed, streak := hs[i].streak) == hs[i]
  {
    if |hs| == 0 then []
    else [if hs[0].id == k then ToggleOne(hs[0]) else hs[0]] + ToggleHabit(hs[1..], k)
  }

  /** Toggling twice restores completion and has extended the streak by
      exactly one: of the two transitions, exactly one goes from not
      completed to completed. */
  lemma ToggleTwice(hs: seq<Habit>, k: int)
    ensures |ToggleHabit(ToggleHabit(hs, k), k)| == |hs|
    ensures forall i :: 0 <= i < |hs| && hs[i].id == k ==>
      && ToggleHabit(ToggleHabit(hs, k), k)[i].completed == hs[i].completed
      && ToggleHabit(ToggleHabit(hs, k), k)[i].streak == hs[i].streak + 1
  {
  }

  /** A change to the habit list made through the dashboard's handlers. */
  datatype HabitOp = AddOp(input: HabitInput) | DeleteOp(deleteId: int) | ToggleOp(toggleId: int)

  function ApplyHabitOp(hs: seq<Habit>, op: HabitOp): seq<Habit> {
    match op
    case AddOp(h) => AddHabit(hs, h)
    case DeleteOp(k) => DeleteHabit(hs, k)
    case ToggleOp(k) => ToggleHabit(hs, k)
  }

  function ApplyHabitOps(hs: seq<Habit>, ops: seq<HabitOp>): seq<Habit>
    decreases |ops|
  {
    if |ops| == 0 then hs else ApplyHabitOps(ApplyHabitOp(hs, ops[0]), ops[1..])
  }

  /** Deleting a present id removes exactly one habit when ids are distinct. */
  lemma DeleteHabitCount(hs: seq<Habit>, k: int)
    requires IdLists.DistinctIds(hs, HabitId)
    ensures |DeleteHabit(hs, k)| == if IdLists.HasId(hs, HabitId, k) then |hs| - 1 else |hs|
  {
    IdLists.WithoutIdDistinct(hs, HabitId, k);
  }

  /** Habit ids stay pairwise distinct under any sequence of add, delete and
      toggle. */
  lemma {:induction false} HabitIdsStayDistinct(hs: seq<Habit>, ops: seq<HabitOp>)
    requires IdLists.DistinctIds(hs, HabitId)
    ensures IdLists.DistinctIds(ApplyHabitOps(hs, ops), HabitId)
    decreases |ops|
  {
    if |ops| > 0 {
      HabitOpKeepsDistinct(hs, ops[0]);
      HabitIdsStayDistinct(ApplyHabitOp(hs, ops[0]), ops[1..]);
    }
  }

  lemma HabitOpKeepsDistinct(hs: seq<Habit>, op: HabitOp)
    requires IdLists.DistinctIds(hs, HabitId)
    ensures IdLists.DistinctIds(ApplyHabitOp(hs, op), HabitId)
  {
    match op
    case AddOp(h) =>
      var next := AddHabit(hs, h);
      IdLists.AppendNextDistinct(hs, HabitId, next[|hs|]);
      assert next == hs + [next[|hs|]];
    case DeleteOp(k) =>
      IdLists.WithoutIdDistinct(hs, HabitId, k);
    case ToggleOp(k) =>
  }

  lemma InitialHabitsDistinct()
    ensures IdLists.DistinctIds(InitialHabits, HabitId)
  {
  }

  /** `handleAccessoryToggle`: removes the accessory when selected, appends it
      otherwise. */
  function ToggleAccessory(selected: seq<string>, name: string): (r: seq<string>)
    ensures name in r <==> name !in selected
    ensures forall a :: a != name ==> (a in r <==> a in selected)
    ensures Strings.NoDuplicates(selected) ==> Strings.NoDuplicates(r)
  {
    if name in selected then RemoveAll(selected, name) else selected + [name]
  }

  /** `s.filter(a => a !== name)`. */
  function RemoveAll(s: seq<string>, name: string): (r: seq<string>)
    ensures forall a :: a in r <==> a in s && a != name
    ensures Strings.NoDuplicates(s) ==> Strings.NoDuplicates(r)
  {
    if |s| == 0 then []
    else
      var rest := RemoveAll(s[1..], name);
      assert forall a :: a in s <==> a == s[0] || a in s[1..];
      if s[0] == name then rest
      else
        assert Strings.NoDuplicates(s) ==> s[0] !in s[1..];
        [s[0]] + rest
  }

  /** Toggling the same accessory twice restores the selected set. */
  lemma ToggleAccessoryTwice(selected: seq<string>, name: string)
    ensures forall a :: a in ToggleAccessory(ToggleAccessory(selected, name), name) <==> a in selected
  {
  }

  /** `formatGreeting`, given the clock's hour. */
  function Greeting(hour: int): (r: string)
    ensures r == "Good Morning" <==> hour < 12
    ensures r == "Good Afternoon" <==> 12 <= hour < 17
    ensures r == "Good Evening" <==> 17 <= hour
  {
    if hour < 12 then "Good Morning"
    else if hour < 17 then "Good Afternoon"
    else "Good Evening"
  }

  /** `getUserFirstName`: the text before the first space of a non-empty
      name, otherwise "Farmer". */
  function FirstName(name: Option<string>): (r: string)
    ensures (name.None? || name.value == "") ==> r == "Farmer"
    ensures name.Some? && name.value != "" ==>
      && |r| <= |name.value| && r == name.value[..|r|]
      && (forall i :: 0 <= i < |r| ==> r[i] != ' ')
      && (|r| == |name.value| || name.value[|r|] == ' ')
  {
    if name.Some? && name.value != "" then Strings.FirstWord(name.value) else "Farmer"
  }

  /** The views the main area can show. */
  datatype View =
    | InventoryView | ShopView | SettingsView | LearnView | HabitsView | QuestsView
    | ChallengesView | CommunityView | LeaderboardView | AchievementsView | CalendarView
    | OverviewView

  /** The tab id that selects a view; the overview has none of its own. */
  function TabId(v: View): Option<string> {
    match v
    case InventoryView => Some("inventory")
    case ShopView => Some("shop")
    case SettingsView => Some("settings")
    case LearnView => Some("learn")
    case HabitsView => Some("habits")
    case QuestsView => Some("quests")
    case ChallengesView => Some("challenges")
    case CommunityView => Some("community")
    case LeaderboardView => Some("leaderboard")
    case AchievementsView => Some("achievements")
    case CalendarView => Some("calendar")
    case OverviewView => None
  }

  /** The conditional chain that renders the main area for `selectedTab`. */
  function RouteTab(tab: string): (v: View)
    ensures TabId(v) == Some(tab) || v == OverviewView
  {
    if tab == "inventory" then InventoryView
    else if tab == "shop" then ShopView
    else if tab == "settings" then SettingsView
    else if tab == "learn" then LearnView
    else if tab == "habits" then HabitsView
    else if tab == "quests" then QuestsView
    else if tab == "challenges" then ChallengesView
    else if tab == "community" then CommunityView
    else if tab == "leaderboard" then LeaderboardView
    else if tab == "achievements" then AchievementsView
    else if tab == "calendar" then CalendarView
    else OverviewView
  }

  /** Each known tab id selects its own view, and every other id, including
      the initial "dashboard", falls through to the overview. */
  lemma RouteTabRoundTrip(v: View, tab: string)
    ensures TabId(v).Some? ==> RouteTab(TabId(v).value) == v
    ensures RouteTab(tab) == OverviewView <==> (forall w: View :: TabId(w) != Some(tab))
  {
    if RouteTab(tab) != OverviewView {
      assert TabId(RouteTab(tab)) == Some(tab);
    }
  }

  /** The ids of the navigation buttons: the sidebar, then the top bar. */
  const NavigationTabs: seq<string> := [
    "dashboard", "habits", "learn", "quests", "challenges", "community", "leaderboard",
    "achievements", "calendar", "inventory", "shop", "settings"
  ]

  /** The dashboard shell's own state. */
  datatype Shell = Shell(
    selectedTab: string,
    credits: int,
    popularity: int,
    habits: seq<Habit>,
    accessories: seq<string>)

  const InitialShell: Shell := Shell("dashboard", 1250, 420, InitialHabits, [])

  /** A navigation button sets the tab unconditionally. */
  function SelectTab(s: Shell, tab: string): (r: Shell)
    ensures RouteTab(r.selectedTab) == RouteTab(tab)
    ensures r.(selectedTab := s.selectedTab) == s
  {
    s.(selectedTab := tab)
  }

  /** `setUserCredits`, handed to the settings and community views as
      `onCreditsChange`: the new value is stored as given, without clamping. */
  function SetCredits(s: Shell, v: int): (r: Shell)
    ensures r.credits == v
    ensures r.(credits := s.credits) == s
  {
    s.(credits := v)
  }

  /** `setUserPopularity`, handed to the community view as
      `onPopularityChange`, stored as given. */
  function SetPopularity(s: Shell, v: int): (r: Shell)
    ensures r.popularity == v
    ensures r.(popularity := s.popularity) == s
  {
    s.(popularity := v)
  }

  /** The main area starts on the overview, and any navigation button
      reaches a view: every id but "dashboard" reaches a view of its own. */
  lemma NavigationReachesViews()
    ensures RouteTab(InitialShell.selectedTab) == OverviewView
    ensures forall i :: 1 <= i < |NavigationTabs| ==> RouteTab(NavigationTabs[i]) != OverviewView
    ensures forall i, j :: 0 <= i < j < |NavigationTabs| ==>
      RouteTab(NavigationTabs[i]) != RouteTab(NavigationTabs[j])
  {
  }
}

=== FILE: habit_form.dfy ===
/** The "Add New Habit" dialog of `components/habit-management.tsx`: the
    form state, its validation on submit, the icon lookup, and the reset
    after a successful add. */
module HabitForm {
  import opened Wrappers
  import opened Icons
  import Dashboard

  datatype Form = Form(
    name: string,
    description: string,
    iconName: string,
    xp: int,
    category: string)

  datatype State = State(form: Form, dialogOpen: bool)

  const InitialForm: Form := Form("", "", "Sprout", 25, "")

  /** The XP choices of the "XP Reward" select. */
  const XpOptions: seq<int> := [15, 25, 35, 50]

  /** The keys of `habitIcons`, in declaration order. */
  const IconNames: seq<string> :=
    ["Droplets", "Sprout", "Sun", "Shield", "Leaf", "Tractor", "Bug", "Thermometer"]

  const Categories: seq<string> := [
    "Water Management", "Soil Care", "Crop Management", "Plant Protection",
    "Equipment Maintenance", "Pest Control", "Climate Monitoring", "Organic Practices"
  ]

  /** `habitIcons[name]`. */
  function LookupIcon(name: string): (r: Option<Icon>)
    ensures r.Some? <==> name in IconNames
  {
    if name == "Droplets" then Some(Droplets)
    else if name == "Sprout" then Some(Sprout)
    else if name == "Sun" then Some(Sun)
    else if name == "Shield" then Some(Shield)
    else if name == "Leaf" then Some(Leaf)
    else if name == "Tractor" then Some(Tractor)
    else if name == "Bug" then Some(Bug)
    else if name == "Thermometer" then Some(Thermometer)
    else None
  }

  /** The icon table is one-to-one: different names give different icons. */
  lemma LookupIconInjective(a: string, b: string)
    requires a in IconNames && b in IconNames && a != b
    ensures LookupIcon(a) != LookupIcon(b)
  {
  }

  /** What every reachable form satisfies: the selected icon is a key of the
      icon table and the XP is one of the offered rewards. */
  predicate WellFormed(f: Form) {
    f.iconName in IconNames && f.xp in XpOptions
  }

  /** A change made in the dialog. Picker values come from the options the
      select controls offer. */
  datatype FormEdit =
    | TypeName(name: string)
    | TypeDescription(description: string)
    | PickCategory(category: string)
    | PickIcon(iconName: string)
    | PickXp(xp: int)

  predicate EditOffered(e: FormEdit) {
    match e
    case TypeName(_) => true
    case TypeDescription(_) => true
    case PickCategory(c) => c in Categories
    case PickIcon(n) => n in IconNames
    case PickXp(x) => x in XpOptions
  }

  function ApplyEdit(f: Form, e: FormEdit): (r: Form)
    ensures EditOffered(e) && WellFormed(f) ==> WellFormed(r)
    ensures e.TypeName? ==> r.name == e.name && r.(name := f.name) == f
    ensures e.TypeDescription? ==>
      r.description == e.description && r.(description := f.description) == f
    ensures e.PickCategory? ==> r.category == e.category && r.(category := f.category) == f
    ensures e.PickIcon? ==> r.iconName == e.iconName && r.(iconName := f.iconName) == f
    ensures e.PickXp? ==> r.xp == e.xp && r.(xp := f.xp) == f
  {
    match e
    case TypeName(v) => f.(name := v)
    case TypeDescription(v) => f.(description := v)
    case PickCategory(v) => f.(category := v)
    case PickIcon(v) => f.(iconName := v)
    case PickXp(v) => f.(xp := v)
  }

  datatype SubmitOutcome = SubmitOutcome(state: State, emitted: Option<Dashboard.HabitInput>)

  /** `handleAddHabit` of the dialog: hands the habit to `onAddHabit` only
      when name, description and category are all filled in, then resets the
      form and closes the dialog; otherwise nothing changes. */
  function Submit(st: State): (o: SubmitOutcome)
    requires WellFormed(st.form)
    ensures o.emitted.Some? <==> st.form.name != "" && st.form.description != "" && st.form.category != ""
    ensures o.emitted.None? ==> o.state == st
    ensures o.emitted.Some? ==>
      && o.emitted.value.name == st.form.name
      && o.emitted.value.description == st.form.description
      && o.emitted.value.category == st.form.category
      && o.emitted.value.xp == st.form.xp
      && Some(o.emitted.value.icon) == LookupIcon(st.form.iconName)
      && o.state == State(InitialForm, false)
  {
    var f := st.form;
    if f.name != "" && f.description != "" && f.category != "" then
      var icon := LookupIcon(f.iconName).value;
      SubmitOutcome(State(InitialForm, false),
                    Some(Dashboard.HabitInput(f.name, f.description, icon, f.xp, f.category)))
    else SubmitOutcome(st, None)
  }

  /** A user action in the habit view's dialog. */
  datatype FormEvent = Input(edit: FormEdit) | ClickAdd | SetDialog(open: bool)

  /** Runs the dialog over a sequence of actions, collecting the habits handed
      to `onAddHabit`. Inputs whose value no control can produce are ignored. */
  function Run(st: State, evs: seq<FormEvent>): (r: (State, seq<Dashboard.HabitInput>))
    requires WellFormed(st.form)
    ensures WellFormed(r.0.form)
    ensures forall h :: h in r.1 ==> h.xp in XpOptions && h.name != "" && h.description != "" && h.category != ""
    decreases |evs|
  {
    if |evs| == 0 then (st, [])
    else
      match evs[0]
      case Input(e) =>
        var st' := if EditOffered(e) then st.(form := ApplyEdit(st.form, e)) else st;
        Run(st', evs[1..])
      case SetDialog(open) => Run(st.(dialogOpen := open), evs[1..])
      case ClickAdd =>
        var o := Submit(st);
        var rest := Run(o.state, evs[1..]);
        if o.emitted.Some? then (rest.0, [o.emitted.value] + rest.1) else rest
  }

  lemma InitialFormWellFormed()
    ensures WellFormed(InitialForm) && InitialForm.xp == 25 && InitialForm.iconName == "Sprout"
  {
  }
}

=== FILE: icons.dfy ===
/** The icon set the records refer to. The app stores icon components
    from the `lucide-react` library inside its records; here an icon is a tag
    that the presentation layer would resolve. */
module Icons {

  datatype Icon =
    | Droplets | Sprout | Sun | Shield | Leaf | Tractor | Bug | Thermometer
    | Calendar | Users | Wheat | Target | Zap
}

=== FILE: id_lists.dfy ===
/** The list discipline every feature view follows for its records (habits,
    calendar events): each record carries an integer id, a new record gets
    `Math.max(...ids, 0) + 1`, and deletion is `filter(r => r.id !== id)`.
    The functions are generic over the record type; `id` projects a record
    to its id. */
module IdLists {

  /** `Math.max(...s.map(id), 0)`. */
  function MaxId<T(==)>(s: seq<T>, id: T -> int): (m: int)
    ensures m >= 0
    ensures forall x :: x in s ==> id(x) <= m
    ensures m == 0 || exists x :: x in s && id(x) == m
  {
    if |s| == 0 then 0
    else
      var rest := MaxId(s[1..], id);
      assert forall x :: x in s[1..] ==> x in s;
      if id(s[0]) > rest then id(s[0]) else rest
  }

  /** The id a newly added record receives. */
  function NextId<T(==)>(s: seq<T>, id: T -> int): (k: int)
    ensures k >= 1
    ensures forall x :: x in s ==> id(x) < k
  {
    MaxId(s, id) + 1
  }

  /** No two positions of `s` hold records with the same id. */
  predicate DistinctIds<T>(s: seq<T>, id: T -> int) {
    forall i, j :: 0 <= i < j < |s| ==> id(s[i]) != id(s[j])
  }

  /** Some record of `s` has id `k`. */
  predicate HasId<T(==)>(s: seq<T>, id: T -> int, k: int) {
    exists x :: x in s && id(x) == k
  }

  /** `s.filter(x => id(x) !== k)`. What it keeps is stated by
      `WithoutIdMembers`, kept apart so that its quantifiers are in scope
      only where a proof asks for them. */
  function WithoutId<T(==)>(s: seq<T>, id: T -> int, k: int): (r: seq<T>)
    ensures |r| <= |s|
  {
    if |s| == 0 then []
    else if id(s[0]) == k then WithoutId(s[1..], id, k)
    else [s[0]] + WithoutId(s[1..], id, k)
  }

  /** The filter keeps exactly the records with another id, and a list
      without the id comes back unchanged. */
  lemma {:induction false} WithoutIdMembers<T>(s: seq<T>, id: T -> int, k: int)
    ensures forall x :: x in WithoutId(s, id, k) ==> x in s && id(x) != k
    ensures forall x :: x in s && id(x) != k ==> x in WithoutId(s, id, k)
    ensures !HasId(s, id, k) ==> WithoutId(s, id, k) == s
  {
    if |s| > 0 {
      WithoutIdMembers(s[1..], id, k);
      WithoutIdUnfold(s, id, k);
      assert forall x :: x in s <==> x == s[0] || x in s[1..];
      if !HasId(s, id, k) {
        assert id(s[0]) != k && !HasId(s[1..], id, k);
        assert [s[0]] + s[1..] == s;
      }
    }
  }

  /** Filtering distributes over concatenation: together with the one-element
      case, `WithoutIdSingle`, this pins `WithoutId` down as an
      order-preserving filter. */
  lemma {:induction false} WithoutIdAppend<T>(a: seq<T>, b: seq<T>, id: T -> int, k: int)
    ensures WithoutId(a + b, id, k) == WithoutId(a, id, k) + WithoutId(b, id, k)
  {
    if |a| == 0 {
      assert a + b == b;
    } else {
      var h := if id(a[0]) == k then [] else [a[0]];
      assert (a + b)[0] == a[0] && (a + b)[1..] == a[1..] + b;
      WithoutIdUnfold(a + b, id, k);
      WithoutIdUnfold(a, id, k);
      WithoutIdAppend(a[1..], b, id, k);
      assert h + (WithoutId(a[1..], id, k) + WithoutId(b, id, k))
          == (h + WithoutId(a[1..], id, k)) + WithoutId(b, id, k);
    }
  }

  lemma WithoutIdUnfold<T>(s: seq<T>, id: T -> int, k: int)
    requires |s| > 0
    ensures WithoutId(s, id, k) == (if id(s[0]) == k then [] else [s[0]]) + WithoutId(s[1..], id, k)
  {
  }

  lemma WithoutIdSingle<T>(x: T, id: T -> int, k: int)
    ensures WithoutId([x], id, k) == if id(x) == k then [] else [x]
  {
    WithoutIdUnfold([x], id, k);
    assert [x][1..] == [];
  }

  /** The tail of a list with distinct ids has distinct ids, none of them
      the head's. */
  lemma TailDistinct<T>(s: seq<T>, id: T -> int)
    requires DistinctIds(s, id)
    requires |s| > 0
    ensures DistinctIds(s[1..], id)
    ensures !HasId(s[1..], id, id(s[0]))
  {
    forall a, b | 0 <= a < b < |s[1..]| ensures id(s[1..][a]) != id(s[1..][b]) {
      assert s[1..][a] == s[a + 1] && s[1..][b] == s[b + 1];
    }
    forall x | x in s[1..] ensures id(x) != id(s[0]) {
      var j :| 0 <= j < |s[1..]| && s[1..][j] == x;
      assert s[j + 1] == x;
    }
  }

  /** A head whose id no tail record carries keeps the ids distinct. */
  lemma ConsDistinct<T>(x: T, r: seq<T>, id: T -> int)
    requires DistinctIds(r, id)
    requires forall j :: 0 <= j < |r| ==> id(r[j]) != id(x)
    ensures DistinctIds([x] + r, id)
  {
    forall a, b | 0 <= a < b < |[x] + r| ensures id(([x] + r)[a]) != id(([x] + r)[b]) {
      assert ([x] + r)[b] == r[b - 1];
      if a > 0 {
        assert ([x] + r)[a] == r[a - 1];
      }
    }
  }

  /** With distinct ids, deleting a present id shortens the list by exactly one
      and keeps the ids distinct. */
  lemma {:induction false} WithoutIdDistinct<T>(s: seq<T>, id: T -> int, k: int)
    requires DistinctIds(s, id)
    ensures DistinctIds(WithoutId(s, id, k), id)
    ensures |WithoutId(s, id, k)| == if HasId(s, id, k) then |s| - 1 else |s|
  {
    if |s| > 0 {
      TailDistinct(s, id);
      WithoutIdDistinct(s[1..], id, k);
      WithoutIdMembers(s[1..], id, k);
      var rest := WithoutId(s[1..], id, k);
      assert forall x :: x in s[1..] ==> x in s;
      assert HasId(s, id, k) <==> id(s[0]) == k || HasId(s[1..], id, k) by {
        assert forall x :: x in s ==> x == s[0] || x in s[1..];
      }
      if id(s[0]) == k {
        assert WithoutId(s, id, k) == rest;
      } else {
        assert WithoutId(s, id, k) == [s[0]] + rest;
        assert forall j :: 0 <= j < |rest| ==> id(rest[j]) != id(s[0]) by {
          forall j | 0 <= j < |rest| ensures id(rest[j]) != id(s[0]) {
            assert rest[j] in rest;
          }
        }
        ConsDistinct(s[0], rest, id);
      }
    }
  }

  /** With distinct ids, deleting the id held at position `i` removes exactly
      that position. */
  lemma {:induction false} WithoutIdAt<T>(s: seq<T>, id: T -> int, i: int)
    requires DistinctIds(s, id)
    requires 0 <= i < |s|
    ensures WithoutId(s, id, id(s[i])) == s[..i] + s[i + 1..]
  {
    if i == 0 {
      TailDistinct(s, id);
      WithoutIdHead(s, id);
    } else {
      TailDistinct(s, id);
      WithoutIdCons(s, id, id(s[i]));
      assert s[1..][i - 1] == s[i];
      WithoutIdAt(s[1..], id, i - 1);
      DropShift(s, i);
    }
  }

  /** Deleting the head's id from a list whose tail does not carry it
      leaves the tail. */
  lemma WithoutIdHead<T>(s: seq<T>, id: T -> int)
    requires |s| > 0 && !HasId(s[1..], id, id(s[0]))
    ensures WithoutId(s, id, id(s[0])) == s[..0] + s[1..]
  {
    WithoutIdMembers(s[1..], id, id(s[0]));
    assert WithoutId(s, id, id(s[0])) == WithoutId(s[1..], id, id(s[0]));
    assert s[..0] + s[1..] == s[1..];
  }

  /** A head with another id is kept in front. */
  lemma WithoutIdCons<T>(s: seq<T>, id: T -> int, k: int)
    requires |s| > 0 && id(s[0]) != k
    ensures WithoutId(s, id, k) == [s[0]] + WithoutId(s[1..], id, k)
  {
  }

  /** Dropping position `i` is keeping the head and dropping position
      `i - 1` of the tail. */
  lemma DropShift<T>(s: seq<T>, i: int)
    requires 0 < i < |s|
    ensures [s[0]] + (s[1..][..i - 1] + s[1..][i..]) == s[..i] + s[i + 1..]
  {
    assert s[1..][..i - 1] == s[1..i] && s[1..][i..] == s[i + 1..];
    assert s[..i] == [s[0]] + s[1..i];
  }

  /** Appending a record carrying `NextId` keeps the ids distinct. */
  lemma AppendNextDistinct<T>(s: seq<T>, id: T -> int, x: T)
    requires DistinctIds(s, id)
    requires id(x) == NextId(s, id)
    ensures DistinctIds(s + [x], id)
  {
    forall i, j | 0 <= i < j < |s + [x]| ensures id((s + [x])[i]) != id((s + [x])[j]) {
      if j == |s| {
        assert s[i] in s;
      }
    }
  }
}

=== FILE: leaderboard.dfy ===
/** The leaderboard of `components/leaderboard-system.tsx`: eight players,
    one of them the current user, ranked by XP or by streak, and the current
    user's rank with its message. */
module Leaderboard {
  import opened Wrappers
  import Sorting

  datatype Player = Player(
    id: int,
    name: string,
    level: int,
    xp: int,
    credits: int,
    location: string,
    specialization: string,
    achievements: int,
    streak: int,
    isCurrentUser: bool)

  /** JavaScript's `s || fallback` on an optional string. */
  function OrElse(s: Option<string>, fallback: string): string {
    if s.Some? && s.value != "" then s.value else fallback
  }

  /** `baseUsers`; the fourth entry is the current user, named after the
      profile when it has a name. */
  function BaseUsers(userName: Option<string>, knowledgeLevel: Option<string>): (r: seq<Player>)
    ensures |r| == 8
    ensures r[3].isCurrentUser && r[3].xp == 1250 && r[3].streak == 27
    ensures r[3].name == OrElse(userName, "You")
    ensures r[3].specialization == OrElse(knowledgeLevel, "Beginner")
  {
    [ Player(1, "Sarah Chen", 12, 2450, 1850, "California, USA", "Organic Farming", 18, 45, false),
      Player(2, "Miguel Rodriguez", 11, 2280, 1720, "Texas, USA", "Sustainable Agriculture", 16, 38, false),
      Player(3, "Emma Thompson", 10, 2150, 1650, "Ontario, Canada", "Permaculture", 15, 42, false),
      Player(4, OrElse(userName, "You"), 8, 1250, 1250, "Your Location",
             OrElse(knowledgeLevel, "Beginner"), 8, 27, true),
      Player(5, "Raj Patel", 9, 1850, 1420, "Gujarat, India", "Water Conservation", 12, 33, false),
      Player(6, "Lisa Johnson", 8, 1680, 1380, "Queensland, Australia", "Crop Rotation", 11, 29, false),
      Player(7, "Carlos Silva", 7, 1420, 1180, "São Paulo, Brazil", "Soil Health", 9, 24, false),
      Player(8, "Aisha Hassan", 9, 1750, 1350, "Lagos, Nigeria", "Pest Management", 13, 31, false) ]
  }

  /** The tabs: "weekly" and "monthly" rank by streak, every other category
      by XP. */
  predicate ByStreak(category: string) {
    category == "weekly" || category == "monthly"
  }

  function SortKey(category: string): Player -> int {
    if ByStreak(category) then (p: Player) => p.streak else (p: Player) => p.xp
  }

  /** `getLeaderboardData`: the players, highest key first. */
  function Board(category: string, userName: Option<string>, knowledgeLevel: Option<string>): (r: seq<Player>)
    ensures Sorting.SortedBy(r, SortKey(category))
    ensures multiset(r) == multiset(BaseUsers(userName, knowledgeLevel))
    ensures |r| == 8
  {
    Sorting.Sort(BaseUsers(userName, knowledgeLevel), SortKey(category))
  }

  /** `findIndex(u => u.isCurrentUser) + 1`: 0 when nobody is marked. */
  function CurrentUserRank(board: seq<Player>): (r: int)
    ensures 0 <= r <= |board|
    ensures r == 0 <==> forall i :: 0 <= i < |board| ==> !board[i].isCurrentUser
    ensures r > 0 ==> board[r - 1].isCurrentUser && forall i :: 0 <= i < r - 1 ==> !board[i].isCurrentUser
  {
    if |board| == 0 then 0
    else if board[0].isCurrentUser then 1
    else
      var r := CurrentUserRank(board[1..]);
      assert forall i :: 1 <= i < |board| ==> board[i] == board[1..][i - 1];
      if r == 0 then 0 else r + 1
  }

  function IsCurrent(p: Player): bool { p.isCurrentUser }

  /** The current user's key under the category's ranking. */
  function UserKey(category: string): int {
    if ByStreak(category) then 27 else 1250
  }

  /** Exactly one built-in player is the current user. */
  lemma BaseUsersMarked(userName: Option<string>, knowledgeLevel: Option<string>)
    ensures Sorting.CountWhere(BaseUsers(userName, knowledgeLevel), IsCurrent) == 1
  {
    var s := BaseUsers(userName, knowledgeLevel);
    assert Sorting.CountWhere(s[8..], IsCurrent) == 0;
    assert Sorting.CountWhere(s[7..], IsCurrent) == 0;
    assert Sorting.CountWhere(s[6..], IsCurrent) == 0;
    assert Sorting.CountWhere(s[5..], IsCurrent) == 0;
    assert Sorting.CountWhere(s[4..], IsCurrent) == 0;
    assert Sorting.CountWhere(s[3..], IsCurrent) == 1;
    assert Sorting.CountWhere(s[2..], IsCurrent) == 1;
    assert Sorting.CountWhere(s[1..], IsCurrent) == 1;
    assert Sorting.CountWhere(s[0..], IsCurrent) == 1;
    assert s[0..] == s;
  }

  /** No other built-in player shares the current user's XP or streak. */
  lemma BaseUsersKeys(userName: Option<string>, knowledgeLevel: Option<string>, category: string)
    ensures forall p :: p in BaseUsers(userName, knowledgeLevel) && !p.isCurrentUser ==>
              SortKey(category)(p) != UserKey(category)
    ensures forall p :: p in BaseUsers(userName, knowledgeLevel) && p.isCurrentUser ==>
              SortKey(category)(p) == UserKey(category)
  {
    var s := BaseUsers(userName, knowledgeLevel);
    forall p | p in s ensures p.isCurrentUser <==> p == s[3] {
      var i :| 0 <= i < |s| && s[i] == p;
    }
  }

  /** Six built-in players have a longer streak than the current user, and
      seven have more XP. */
  lemma BaseUsersAhead(userName: Option<string>, knowledgeLevel: Option<string>, category: string)
    ensures Sorting.CountWhere(BaseUsers(userName, knowledgeLevel), Sorting.Above(SortKey(category), UserKey(category)))
            == if ByStreak(category) then 6 else 7
  {
    var s := BaseUsers(userName, knowledgeLevel);
    var above := Sorting.Above(SortKey(category), UserKey(category));
    if ByStreak(category) {
      assert Sorting.CountWhere(s[8..], above) == 0;
      assert Sorting.CountWhere(s[7..], above) == 1;
      assert Sorting.CountWhere(s[6..], above) == 1;
      assert Sorting.CountWhere(s[5..], above) == 2;
      assert Sorting.CountWhere(s[4..], above) == 3;
      assert Sorting.CountWhere(s[3..], above) == 3;
      assert Sorting.CountWhere(s[2..], above) == 4;
      assert Sorting.CountWhere(s[1..], above) == 5;
      assert Sorting.CountWhere(s[0..], above) == 6;
      assert s[0..] == s;
    } else {
      assert Sorting.CountWhere(s[8..], above) == 0;
      assert Sorting.CountWhere(s[7..], above) == 1;
      assert Sorting.CountWhere(s[6..], above) == 2;
      assert Sorting.CountWhere(s[5..], above) == 3;
      assert Sorting.CountWhere(s[4..], above) == 4;
      assert Sorting.CountWhere(s[3..], above) == 4;
      assert Sorting.CountWhere(s[2..], above) == 5;
      assert Sorting.CountWhere(s[1..], above) == 6;
      assert Sorting.CountWhere(s[0..], above) == 7;
      assert s[0..] == s;
    }
  }

  /** On any list with a single marked player whose key nobody else
      shares, that player's rank is one more than the number of players with
      a larger key. */
  lemma RankCountsPlayersAhead(base: seq<Player>, category: string)
    requires Sorting.CountWhere(base, IsCurrent) == 1
    requires forall p :: p in base && p.isCurrentUser ==> SortKey(category)(p) == UserKey(category)
    requires forall p :: p in base && !p.isCurrentUser ==> SortKey(category)(p) != UserKey(category)
    ensures CurrentUserRank(Sorting.Sort(base, SortKey(category)))
            == 1 + Sorting.CountWhere(base, Sorting.Above(SortKey(category), UserKey(category)))
  {
    var key := SortKey(category);
    var board := Sorting.Sort(base, key);
    var ahead := Sorting.CountWhere(base, Sorting.Above(key, UserKey(category)));
    assert forall x :: x in base && IsCurrent(x) ==> key(x) == UserKey(category);
    assert forall x :: x in base && !IsCurrent(x) ==> key(x) != UserKey(category);
    Sorting.SortedRank(base, key, IsCurrent, UserKey(category));
    var i :| 0 <= i < |board| && IsCurrent(board[i]);
    var r := CurrentUserRank(board);
    assert r != 0 by {
      assert board[i].isCurrentUser;
    }
    assert r - 1 == ahead by {
      assert IsCurrent(board[r - 1]);
    }
  }

  /** With the built-in players the current user is 7th by streak and 8th
      by XP. */
  lemma CurrentUserRankValue(category: string, userName: Option<string>, knowledgeLevel: Option<string>)
    ensures CurrentUserRank(Board(category, userName, knowledgeLevel)) == if ByStreak(category) then 7 else 8
  {
    BoardRank(category, userName, knowledgeLevel);
    BaseUsersAhead(userName, knowledgeLevel, category);
    if ByStreak(category) {
      assert CurrentUserRank(Board(category, userName, knowledgeLevel)) == 7;
    } else {
      assert CurrentUserRank(Board(category, userName, knowledgeLevel)) == 8;
    }
  }

  /** On the built-in board the user's rank is one more than the number of
      built-in players with a larger key. */
  lemma BoardRank(category: string, userName: Option<string>, knowledgeLevel: Option<string>)
    ensures CurrentUserRank(Board(category, userName, knowledgeLevel))
            == 1 + Sorting.CountWhere(BaseUsers(userName, knowledgeLevel), Sorting.Above(SortKey(category), UserKey(category)))
  {
    BaseUsersMarked(userName, knowledgeLevel);
    BaseUsersKeys(userName, knowledgeLevel, category);
    RankCountsPlayersAhead(BaseUsers(userName, knowledgeLevel), category);
  }

  /** The line under the rank card. */
  datatype RankMessage = TopThree | TopTen | KeepClimbing

  function MessageFor(rank: int): (m: RankMessage)
    ensures m == TopThree <==> rank <= 3
    ensures m == TopTen <==> 3 < rank <= 10
  {
    if rank <= 3 then TopThree else if rank <= 10 then TopTen else KeepClimbing
  }

  /** With the built-in players the user always reads "top 10", never "top
      3", whatever tab is chosen. */
  lemma AlwaysTopTen(category: string, userName: Option<string>, knowledgeLevel: Option<string>)
    ensures MessageFor(CurrentUserRank(Board(category, userName, knowledgeLevel))) == TopTen
  {
    CurrentUserRankValue(category, userName, knowledgeLevel);
  }

  /** The style a rank is shown with: `getRankIcon` and `getRankBadgeColor`
      switch on the same three ranks (crown and yellow, grey medal, amber
      medal) and show every other rank as its plain number. */
  datatype Badge = Crown | SilverMedal | BronzeMedal | Numbered(rank: int)

  function BadgeFor(rank: int): (b: Badge)
    ensures b == Crown <==> rank == 1
    ensures b == SilverMedal <==> rank == 2
    ensures b == BronzeMedal <==> rank == 3
    ensures b.Numbered? <==> rank < 1 || rank > 3
    ensures b.Numbered? ==> b.rank == rank
  {
    if rank == 1 then Crown
    else if rank == 2 then SilverMedal
    else if rank == 3 then BronzeMedal
    else Numbered(rank)
  }

  /** Distinct ranks get distinct badges, and a medal is shown exactly when
      the rank message congratulates on the top three among positive ranks. */
  lemma BadgeAgreesWithMessage(a: int, b: int)
    requires a >= 1 && b >= 1
    ensures a != b ==> BadgeFor(a) != BadgeFor(b)
    ensures !BadgeFor(a).Numbered? <==> MessageFor(a) == TopThree
  {
  }

  /** With the built-in players the current user's row never carries a
      medal. */
  lemma UserRowNumbered(category: string, userName: Option<string>, knowledgeLevel: Option<string>)
    ensures BadgeFor(CurrentUserRank(Board(category, userName, knowledgeLevel))).Numbered?
  {
    CurrentUserRankValue(category, userName, knowledgeLevel);
  }
}

=== FILE: learning.dfy ===
/** The learning hub of `components/learning-system.tsx`: the completed
    lessons and quiz scores, the catalog / course / lesson navigation, and the
    courses recommended for the farmer's knowledge level. */
module Learning {
  import opened Wrappers
  import opened Icons
  import Strings
  import Sorting

  datatype Lesson = Lesson(id: string, title: string, duration: string, kind: string, completed: bool, quiz: bool)

  datatype Course = Course(
    id: string,
    title: string,
    description: string,
    icon: Icon,
    level: string,
    lessons: int,
    duration: string,
    progress: int,
    color: string,
    lessonsData: seq<Lesson>)

  const Courses: seq<Course> := [
    Course("water-management", "Water Management & Conservation",
           "Learn sustainable water practices for your farm", Droplets, "Beginner", 8, "2h 30m", 37,
           "bg-blue-500", [
             Lesson("water-basics-1", "Introduction to Water Conservation", "15 min", "video", true, true),
             Lesson("water-basics-2", "Drip Irrigation Systems", "20 min", "video", false, true),
             Lesson("water-basics-3", "Rainwater Harvesting", "18 min", "video", false, false)]),
    Course("soil-health", "Soil Health & Fertility",
           "Master soil management for sustainable farming", Sprout, "Intermediate", 12, "4h 15m", 25,
           "bg-green-500", [
             Lesson("soil-intro-1", "Understanding Soil Composition", "22 min", "video", true, true),
             Lesson("soil-intro-2", "pH Testing and Management", "25 min", "video", false, true),
             Lesson("soil-intro-3", "Organic Matter and Composting", "30 min", "video", false, true)]),
    Course("crop-rotation", "Crop Rotation & Planning",
           "Optimize your crop cycles for maximum yield", Sun, "Advanced", 10, "3h 45m", 10,
           "bg-yellow-500", [
             Lesson("crop-rotation-1", "Principles of Crop Rotation", "28 min", "video", true, true),
             Lesson("crop-rotation-2", "Nitrogen-Fixing Crops", "24 min", "video", false, true)]),
    Course("pest-management", "Integrated Pest Management",
           "Sustainable approaches to pest control", Shield, "Intermediate", 9, "3h 20m", 0,
           "bg-red-500", [
             Lesson("pest-intro-1", "IPM Fundamentals", "20 min", "video", false, true),
             Lesson("pest-intro-2", "Beneficial Insects", "25 min", "video", false, false)])
  ]

  // ---------------------------------------------------------------------
  // Progress

  /** The completed lesson ids and the quiz scores by lesson id. */
  datatype Progress = Progress(completed: seq<string>, quizResults: map<string, int>)

  const InitialProgress: Progress :=
    Progress(["water-basics-1", "soil-intro-1", "crop-rotation-1"],
             map["water-basics-1" := 85, "soil-intro-1" := 92, "crop-rotation-1" := 78])

  /** `handleLessonComplete`: appends the id unless it is already listed. */
  function MarkComplete(done: seq<string>, id: string): (r: seq<string>)
    ensures id in r
    ensures forall x :: x in r ==> x in done || x == id
    ensures forall x :: x in done ==> x in r
    ensures id in done ==> r == done
    ensures id !in done ==> r == done + [id]
    ensures Strings.NoDuplicates(done) ==> Strings.NoDuplicates(r)
  {
    if id in done then done else done + [id]
  }

  /** Marking a lesson twice is the same as marking it once. */
  lemma MarkCompleteIdempotent(done: seq<string>, id: string)
    ensures MarkComplete(MarkComplete(done, id), id) == MarkComplete(done, id)
  {
  }

  /** `handleQuizComplete`: records the score, replacing an earlier one, and
      marks the lesson complete. */
  function CompleteQuiz(p: Progress, id: string, score: int): (r: Progress)
    ensures id in r.quizResults && r.quizResults[id] == score
    ensures forall k :: k in p.quizResults && k != id ==> k in r.quizResults && r.quizResults[k] == p.quizResults[k]
    ensures forall k :: k in r.quizResults ==> k in p.quizResults || k == id
    ensures r.completed == MarkComplete(p.completed, id)
  {
    Progress(MarkComplete(p.completed, id), p.quizResults[id := score])
  }

  /** Every reachable progress record lists each lesson at most once. */
  lemma InitialProgressDistinct()
    ensures Strings.NoDuplicates(InitialProgress.completed)
  {
  }

  // ---------------------------------------------------------------------
  // Navigation

  /** `selectedCourse` and `selectedLesson`; `None` is `null`. */
  datatype Nav = Nav(course: Option<string>, lesson: Option<string>)

  /** JavaScript truthiness of a nullable string. */
  predicate Truthy(o: Option<string>) {
    o.Some? && o.value != ""
  }

  /** `courses.find(c => c.id === id)`. */
  function FindCourse(cs: seq<Course>, id: Option<string>): (r: Option<Course>)
    ensures r.Some? ==> r.value in cs && id == Some(r.value.id)
    ensures r.None? ==> forall c :: c in cs ==> id != Some(c.id)
  {
    if |cs| == 0 then None
    else if id == Some(cs[0].id) then Some(cs[0])
    else
      assert forall c :: c in cs ==> c == cs[0] || c in cs[1..];
      FindCourse(cs[1..], id)
  }

  /** `lessons_data.find(l => l.id === id)`. */
  function FindLesson(ls: seq<Lesson>, id: Option<string>): (r: Option<Lesson>)
    ensures r.Some? ==> r.value in ls && id == Some(r.value.id)
    ensures r.None? ==> forall l :: l in ls ==> id != Some(l.id)
  {
    if |ls| == 0 then None
    else if id == Some(ls[0].id) then Some(ls[0])
    else
      assert forall l :: l in ls ==> l == ls[0] || l in ls[1..];
      FindLesson(ls[1..], id)
  }

  datatype Screen = LessonScreen(course: Course, lesson: Lesson) | CourseScreen(course: Course) | Catalog

  /** Which of the three renders the view returns: the lesson page needs a
      selected lesson of the selected course, the course page a selected
      course, and otherwise the catalog shows. */
  function CurrentScreen(nav: Nav): (s: Screen)
    ensures s.LessonScreen? <==>
      Truthy(nav.lesson) && FindCourse(Courses, nav.course).Some?
      && FindLesson(FindCourse(Courses, nav.course).value.lessonsData, nav.lesson).Some?
    ensures s.LessonScreen? ==>
      s.course in Courses && Some(s.course.id) == nav.course
      && s.lesson in s.course.lessonsData && Some(s.lesson.id) == nav.lesson
    ensures s.CourseScreen? ==> s.course in Courses && Some(s.course.id) == nav.course && Truthy(nav.course)
    ensures s.Catalog? <==> !s.LessonScreen? && !(Truthy(nav.course) && FindCourse(Courses, nav.course).Some?)
  {
    var c := FindCourse(Courses, nav.course);
    var l := if c.Some? then FindLesson(c.value.lessonsData, nav.lesson) else None;
    if Truthy(nav.lesson) && l.Some? then LessonScreen(c.value, l.value)
    else if Truthy(nav.course) && c.Some? then CourseScreen(c.value)
    else Catalog
  }

  /** "Back to Course" clears only the lesson. */
  function BackToCourse(nav: Nav): (r: Nav)
    ensures r.course == nav.course && r.lesson.None?
  {
    nav.(lesson := None)
  }

  /** "Back to Courses" clears only the course. */
  function BackToCourses(nav: Nav): (r: Nav)
    ensures r.lesson == nav.lesson && r.course.None?
  {
    nav.(course := None)
  }

  /** Leaving a lesson returns to the course it belongs to, and leaving a
      course returns to the catalog. */
  lemma BackGoesUpOneLevel(nav: Nav)
    ensures CurrentScreen(nav).LessonScreen? ==>
      CurrentScreen(BackToCourse(nav)) == CourseScreen(CurrentScreen(nav).course)
    ensures CurrentScreen(nav).CourseScreen? ==> CurrentScreen(BackToCourses(nav)) == Catalog
  {
  }

  /** Course ids are unique, so the lesson page names its course. */
  lemma CourseIdsDistinct()
    ensures forall i, j :: 0 <= i < j < |Courses| ==> Courses[i].id != Courses[j].id
  {
  }

  // ---------------------------------------------------------------------
  // Recommendations

  /** The course-level test for the farmer's `knowledgeLevel`. */
  predicate Recommends(knowledgeLevel: string, courseLevel: string) {
    || (knowledgeLevel == "beginner" && courseLevel == "Beginner")
    || (knowledgeLevel == "intermediate" && courseLevel != "Advanced")
    || knowledgeLevel == "advanced"
  }

  /** The courses whose level suits `knowledgeLevel`, in catalog order. */
  function Suitable(cs: seq<Course>, knowledgeLevel: string): (r: seq<Course>)
    ensures forall c :: c in r ==> c in cs && Recommends(knowledgeLevel, c.level)
    ensures forall c :: c in cs && Recommends(knowledgeLevel, c.level) ==> c in r
  {
    if |cs| == 0 then []
    else
      assert forall c :: c in cs <==> c == cs[0] || c in cs[1..];
      (if Recommends(knowledgeLevel, cs[0].level) then [cs[0]] else []) + Suitable(cs[1..], knowledgeLevel)
  }

  /** The "Recommended for You" card: absent without a profile, otherwise the
      first two suitable courses. */
  function Recommended(cs: seq<Course>, knowledgeLevel: Option<string>): (r: Option<seq<Course>>)
    ensures r.None? <==> knowledgeLevel.None?
    ensures r.Some? ==> |r.value| <= 2
    ensures r.Some? ==> forall c :: c in r.value ==> c in cs && Recommends(knowledgeLevel.value, c.level)
  {
    match knowledgeLevel
    case None => None
    case Some(k) => Some(Sorting.Take(Suitable(cs, k), 2))
  }

  /** What each knowledge level is shown: beginners only beginner courses,
      intermediate farmers nothing advanced, and any other value nothing. */
  lemma RecommendedLevels(cs: seq<Course>, k: string)
    ensures k == "beginner" ==> forall c :: c in Recommended(cs, Some(k)).value ==> c.level == "Beginner"
    ensures k == "intermediate" ==> forall c :: c in Recommended(cs, Some(k)).value ==> c.level != "Advanced"
    ensures k !in ["beginner", "intermediate", "advanced"] ==> Recommended(cs, Some(k)).value == []
  {
    if k !in ["beginner", "intermediate", "advanced"] {
      assert forall c :: c in cs ==> !Recommends(k, c.level);
      SuitableNone(cs, k);
    }
  }

  lemma {:induction false} SuitableNone(cs: seq<Course>, k: string)
    requires forall c :: c in cs ==> !Recommends(k, c.level)
    ensures Suitable(cs, k) == []
  {
    if |cs| > 0 {
      assert cs[0] in cs;
      assert forall c :: c in cs[1..] ==> c in cs;
      SuitableNone(cs[1..], k);
    }
  }

  /** How many courses of `cs` suit `knowledgeLevel`. */
  function CountSuitable(cs: seq<Course>, knowledgeLevel: string): nat {
    if |cs| == 0 then 0
    else (if Recommends(knowledgeLevel, cs[0].level) then 1 else 0) + CountSuitable(cs[1..], knowledgeLevel)
  }

  /** Catalog order decides: a suitable course is among the first `n`
      suitable ones whenever fewer than `n` suitable courses precede it. */
  lemma {:induction false} FirstSuitable(cs: seq<Course>, k: string, n: nat, i: int)
    requires 0 <= i < |cs| && Recommends(k, cs[i].level)
    requires CountSuitable(cs[..i], k) < n
    ensures cs[i] in Sorting.Take(Suitable(cs, k), n)
  {
    var rest := Suitable(cs[1..], k);
    if i == 0 {
      assert Suitable(cs, k) == [cs[0]] + rest;
      Sorting.TakeCons(cs[0], rest, n);
    } else {
      assert cs[..i][1..] == cs[1..][..i - 1];
      assert cs[1..][i - 1] == cs[i];
      if Recommends(k, cs[0].level) {
        assert Suitable(cs, k) == [cs[0]] + rest;
        Sorting.TakeCons(cs[0], rest, n);
        FirstSuitable(cs[1..], k, n - 1, i - 1);
      } else {
        assert Suitable(cs, k) == rest;
        FirstSuitable(cs[1..], k, n, i - 1);
      }
    }
  }

  /** The card shows a suitable course whenever at most one suitable course
      comes before it in the catalog. */
  lemma RecommendedFirstTwo(cs: seq<Course>, k: string, i: int)
    requires 0 <= i < |cs| && Recommends(k, cs[i].level)
    requires CountSuitable(cs[..i], k) < 2
    ensures cs[i] in Recommended(cs, Some(k)).value
  {
    FirstSuitable(cs, k, 2, i);
  }
}

=== FILE: numbers.dfy ===
/** Decimal text and the integers it denotes: `Number.parseInt` as the gift
    button applies it to the amount field, and the decimal rendering of an
    integer that a number input holds. */
module Numbers {
  import opened Wrappers
  import Strings

  predicate IsDigit(c: char) {
    '0' <= c <= '9'
  }

  predicate AllDigits(s: string) {
    forall i :: 0 <= i < |s| ==> IsDigit(s[i])
  }

  function DigitValue(c: char): (d: int)
    requires IsDigit(c)
    ensures 0 <= d < 10
  {
    c as int - '0' as int
  }

  function DigitChar(d: int): (c: char)
    requires 0 <= d < 10
    ensures IsDigit(c) && DigitValue(c) == d
  {
    ('0' as int + d) as char
  }

  /** The longest prefix of `s` made of decimal digits. */
  function DigitPrefix(s: string): (r: string)
    ensures |r| <= |s| && r == s[..|r|]
    ensures AllDigits(r)
    ensures |r| == |s| || !IsDigit(s[|r|])
  {
    if |s| == 0 || !IsDigit(s[0]) then [] else [s[0]] + DigitPrefix(s[1..])
  }

  /** The value of a digit string, most significant digit first. */
  function DigitsValue(ds: string): nat
    requires AllDigits(ds)
  {
    if |ds| == 0 then 0 else DigitsValue(ds[..|ds| - 1]) * 10 + DigitValue(ds[|ds| - 1])
  }

  /** `Number.parseInt(s)` with the default radix: leading whitespace is
      skipped, one sign is read, and the longest run of digits after it gives
      the value; anything after the run is ignored. `None` stands for `NaN`,
      the result when no digit follows the sign. */
  function ParseInt(s: string): (r: Option<int>)
    ensures r.None? <==> DigitPrefix(Unsigned(Strings.TrimStart(s))) == ""
    ensures r.Some? && Negative(Strings.TrimStart(s)) ==> r.value <= 0
    ensures r.Some? && !Negative(Strings.TrimStart(s)) ==> r.value >= 0
  {
    var t := Strings.TrimStart(s);
    var ds := DigitPrefix(Unsigned(t));
    if ds == "" then None
    else if Negative(t) then Some(-(DigitsValue(ds) as int))
    else Some(DigitsValue(ds))
  }

  predicate Negative(t: string) {
    |t| > 0 && t[0] == '-'
  }

  /** `t` without its leading sign, if it has one. */
  function Unsigned(t: string): (r: string)
    ensures r == t || (|t| > 0 && (t[0] == '-' || t[0] == '+') && r == t[1..])
  {
    if |t| > 0 && (t[0] == '-' || t[0] == '+') then t[1..] else t
  }

  /** The decimal digits of a natural number, without leading zeros. */
  function NatDecimal(n: nat): (r: string)
    ensures |r| > 0 && AllDigits(r)
    ensures |r| > 1 ==> r[0] != '0'
  {
    if n < 10 then [DigitChar(n)] else NatDecimal(n / 10) + [DigitChar(n % 10)]
  }

  /** `String(n)` for an integer `n`. */
  function Decimal(n: int): (r: string)
    ensures |r| > 0
    ensures n >= 0 ==> AllDigits(r)
    ensures n < 0 ==> r[0] == '-' && AllDigits(r[1..])
  {
    if n >= 0 then NatDecimal(n) else "-" + NatDecimal(-n)
  }

  lemma {:induction false} DigitsOfNatDecimal(n: nat)
    ensures DigitsValue(NatDecimal(n)) == n
  {
    if n >= 10 {
      var ds := NatDecimal(n);
      assert ds[..|ds| - 1] == NatDecimal(n / 10);
      DigitsOfNatDecimal(n / 10);
    }
  }

  /** A digit string is its own longest digit prefix. */
  lemma AllDigitsPrefix(s: string)
    requires AllDigits(s)
    ensures DigitPrefix(s) == s
  {
  }

  /** What the amount field holds is read back by `parseInt` as the number
      written into it. */
  lemma ParseDecimal(n: int)
    ensures ParseInt(Decimal(n)) == Some(n)
  {
    var s := Decimal(n);
    assert !Strings.IsWhitespace(s[0]);
    assert Strings.TrimStart(s) == s;
    if n >= 0 {
      AllDigitsPrefix(s);
      DigitsOfNatDecimal(n);
    } else {
      assert Unsigned(s) == NatDecimal(-n);
      AllDigitsPrefix(NatDecimal(-n));
      DigitsOfNatDecimal(-n);
    }
  }
}

=== FILE: onboarding.dfy ===
/** The character-creation wizard of `components/onboarding-flow.tsx`: six
    linear steps over a profile draft, a per-step validity predicate, a skip
    action that installs a default avatar, and the hand-off of the finished
    profile with fixed starting stats. */
module Onboarding {
  import Strings

  /** The avatar record. `kind` is the source's `type` field; like every
      other field it is a string at run time. */
  datatype Avatar = Avatar(
    kind: string,
    skin: string,
    hair: string,
    clothing: string,
    hat: string,
    tool: string)

  /** The `UserProfile` record: the draft during onboarding and the profile
      handed to the application afterwards. */
  datatype Profile = Profile(
    name: string,
    knowledgeLevel: string,
    farmingExperience: string,
    age: string,
    avatar: Avatar,
    specialization: string,
    level: int,
    xp: int,
    credits: int,
    popularity: int,
    achievements: seq<string>)

  const TotalSteps: int := 6

  const StartingAchievements: seq<string> :=
    ["Nature Conscious", "Farm Starter", "Green Thumb Beginner"]

  /** The avatar the draft starts with. */
  const InitialAvatar: Avatar := Avatar("male", "#FDBCB4", "👨‍🦱", "👕", "", "")

  /** The avatar written by "Skip Customization & Use Default Avatar". */
  const DefaultAvatar: Avatar := Avatar("male", "#FDBCB4", "👨‍🦱", "👕", "🧢", "🌱")

  const InitialDraft: Profile :=
    Profile("", "", "", "", InitialAvatar, "", 1, 100, 100, 100, StartingAchievements)

  /** The choices each picker offers. */
  const KnowledgeOptions: seq<string> := ["beginner", "intermediate", "advanced"]
  const ExperienceOptions: seq<string> := ["new", "1-3years", "3-10years", "10+years"]
  const AgeOptions: seq<string> := ["18-25", "26-35", "36-50", "50+"]
  const KindOptions: seq<string> := ["male", "female", "robot"]
  const SkinOptions: seq<string> :=
    ["#FDBCB4", "#EEA990", "#CE967C", "#B07948", "#8D5524", "#708090"]
  const HairOptions: seq<string> :=
    ["👨‍🦱", "👨‍🦰", "👨‍🦳", "👨‍🦲", "👩‍🦱", "👩‍🦰", "👩‍🦳", "👩‍🦲", "bald"]
  const ClothingOptions: seq<string> := ["👕", "👔", "🦺", "👗", "👚", "🥼"]
  const HatOptions: seq<string> := ["", "🧢", "👒", "🎩", "⛑️", "👑"]
  const ToolOptions: seq<string> := ["", "🌱", "🪓", "🔧", "🚜", "⚒️"]
  const SpecializationOptions: seq<string> :=
    ["Crop Master", "Water Guardian", "Soil Scientist", "Eco Protector"]

  datatype Wizard = Wizard(step: int, draft: Profile)

  const Initial: Wizard := Wizard(1, InitialDraft)

  /** What the Next / Complete button produces: either the wizard moves on, or
      the finished profile is handed to `onComplete`. */
  datatype Outcome = Moved(wizard: Wizard) | Completed(profile: Profile)

  /** `handleNext`. It does not consult `canProceed` itself. */
  function Next(w: Wizard): (o: Outcome)
    ensures o.Moved? <==> w.step < TotalSteps
    ensures o.Moved? ==> o.wizard.step == w.step + 1 && o.wizard.draft == w.draft
    ensures o.Completed? ==>
      && o.profile.level == 1 && o.profile.xp == 100
      && o.profile.credits == 100 && o.profile.popularity == 100
      && o.profile.achievements == StartingAchievements
      && o.profile.name == w.draft.name
      && o.profile.knowledgeLevel == w.draft.knowledgeLevel
      && o.profile.farmingExperience == w.draft.farmingExperience
      && o.profile.age == w.draft.age
      && o.profile.avatar == w.draft.avatar
      && o.profile.specialization == w.draft.specialization
  {
    if w.step < TotalSteps then Moved(Wizard(w.step + 1, w.draft))
    else Completed(w.draft.(level := 1, xp := 100, credits := 100, popularity := 100,
                            achievements := StartingAchievements))
  }

  /** `handleBack`. */
  function Back(w: Wizard): (r: Wizard)
    ensures r.draft == w.draft
    ensures w.step > 1 ==> r.step == w.step - 1
    ensures w.step <= 1 ==> r == w
  {
    if w.step > 1 then Wizard(w.step - 1, w.draft) else w
  }

  /** `handleSkipAvatar`: an explicit jump to the last step, from wherever it
      is called. */
  function SkipAvatar(w: Wizard): (r: Wizard)
    ensures r.step == TotalSteps
    ensures r.draft.avatar == DefaultAvatar
    ensures r.draft.(avatar := w.draft.avatar) == w.draft
  {
    Wizard(TotalSteps, w.draft.(avatar := DefaultAvatar))
  }

  /** `canProceed`, the predicate that enables the Next button. */
  function CanProceed(step: int, d: Profile): (ok: bool)
    ensures ok ==> 1 <= step <= TotalSteps
    ensures step == 1 ==> (ok <==> exists i :: 0 <= i < |d.name| && !Strings.IsWhitespace(d.name[i]))
    ensures step == 2 ==> (ok <==> d.knowledgeLevel != "")
    ensures step == 3 ==> (ok <==> d.farmingExperience != "")
    ensures step == 4 ==> (ok <==> d.age != "")
    ensures step == 5 ==> (ok <==> d.avatar.kind != "" && d.avatar.skin != "")
    ensures step == 6 ==> (ok <==> d.specialization != "")
  {
    Strings.BlankIffAllWhitespace(d.name);
    match step
    case 1 => Strings.Trim(d.name) != ""
    case 2 => d.knowledgeLevel != ""
    case 3 => d.farmingExperience != ""
    case 4 => d.age != ""
    case 5 => d.avatar.kind != "" && d.avatar.skin != ""
    case 6 => d.specialization != ""
    case _ => false
  }

  /** One input of the wizard's form: the name field or a picker button. */
  datatype Edit =
    | TypeName(name: string)
    | PickKnowledge(knowledge: string)
    | PickExperience(experience: string)
    | PickAge(age: string)
    | PickKind(kind: string)
    | PickSkin(skin: string)
    | PickHair(hair: string)
    | PickClothing(clothing: string)
    | PickHat(hat: string)
    | PickTool(tool: string)
    | PickSpecialization(specialization: string)

  /** The draft field setters (`setUserData(prev => ({ ...prev, field }))`). */
  function ApplyEdit(d: Profile, e: Edit): (r: Profile)
    ensures e.TypeName? ==> r.name == e.name && r.(name := d.name) == d
    ensures e.PickKnowledge? ==>
      r.knowledgeLevel == e.knowledge && r.(knowledgeLevel := d.knowledgeLevel) == d
    ensures e.PickExperience? ==>
      r.farmingExperience == e.experience && r.(farmingExperience := d.farmingExperience) == d
    ensures e.PickAge? ==> r.age == e.age && r.(age := d.age) == d
    ensures e.PickKind? ==>
      r.avatar.kind == e.kind && r.(avatar := r.avatar.(kind := d.avatar.kind)) == d
    ensures e.PickSkin? ==>
      r.avatar.skin == e.skin && r.(avatar := r.avatar.(skin := d.avatar.skin)) == d
    ensures e.PickHair? ==>
      r.avatar.hair == e.hair && r.(avatar := r.avatar.(hair := d.avatar.hair)) == d
    ensures e.PickClothing? ==>
      r.avatar.clothing == e.clothing && r.(avatar := r.avatar.(clothing := d.avatar.clothing)) == d
    ensures e.PickHat? ==>
      r.avatar.hat == e.hat && r.(avatar := r.avatar.(hat := d.avatar.hat)) == d
    ensures e.PickTool? ==>
      r.avatar.tool == e.tool && r.(avatar := r.avatar.(tool := d.avatar.tool)) == d
    ensures e.PickSpecialization? ==>
      r.specialization == e.specialization && r.(specialization := d.specialization) == d
  {
    match e
    case TypeName(v) => d.(name := v)
    case PickKnowledge(v) => d.(knowledgeLevel := v)
    case PickExperience(v) => d.(farmingExperience := v)
    case PickAge(v) => d.(age := v)
    case PickKind(v) => d.(avatar := d.avatar.(kind := v))
    case PickSkin(v) => d.(avatar := d.avatar.(skin := v))
    case PickHair(v) => d.(avatar := d.avatar.(hair := v))
    case PickClothing(v) => d.(avatar := d.avatar.(clothing := v))
    case PickHat(v) => d.(avatar := d.avatar.(hat := v))
    case PickTool(v) => d.(avatar := d.avatar.(tool := v))
    case PickSpecialization(v) => d.(specialization := v)
  }

  /** The step whose screen shows the control behind `e`. */
  function EditStep(e: Edit): int {
    match e
    case TypeName(_) => 1
    case PickKnowledge(_) => 2
    case PickExperience(_) => 3
    case PickAge(_) => 4
    case PickSpecialization(_) => 6
    case _ => 5
  }

  /** The value is one the control can produce: any text for the name field,
      one of the listed choices for a picker. */
  predicate EditValueOffered(e: Edit) {
    match e
    case TypeName(_) => true
    case PickKnowledge(v) => v in KnowledgeOptions
    case PickExperience(v) => v in ExperienceOptions
    case PickAge(v) => v in AgeOptions
    case PickKind(v) => v in KindOptions
    case PickSkin(v) => v in SkinOptions
    case PickHair(v) => v in HairOptions
    case PickClothing(v) => v in ClothingOptions
    case PickHat(v) => v in HatOptions
    case PickTool(v) => v in ToolOptions
    case PickSpecialization(v) => v in SpecializationOptions
  }

  /** A user action on the wizard. */
  datatype Event = Input(edit: Edit) | ClickNext | ClickBack | ClickSkip

  /** The action is available on screen: the control is rendered on the
      current step and its button is not disabled. Next is disabled unless
      `canProceed` holds, Back is disabled on step 1, and Skip is rendered only
      on the avatar step. So an offered action always happens on one of the
      six steps, Back is offered exactly when it would move the wizard, and
      Skip only where it advances by a single step. */
  function Offered(w: Wizard, ev: Event): (ok: bool)
    ensures ok && !ev.ClickBack? ==> 1 <= w.step <= TotalSteps
    ensures ev.ClickNext? ==> (ok <==> CanProceed(w.step, w.draft))
    ensures ev.ClickBack? && w.step >= 1 ==> (ok <==> Back(w) != w)
    ensures ev.ClickSkip? ==> (ok <==> w.step == 5)
    ensures ev.ClickSkip? && ok ==> SkipAvatar(w).step == w.step + 1
  {
    match ev
    case Input(e) => EditStep(e) == w.step && EditValueOffered(e)
    case ClickNext => CanProceed(w.step, w.draft)
    case ClickBack => w.step != 1
    case ClickSkip => w.step == 5
  }

  /** The handler an action runs, whether or not the UI offers it. */
  function Handle(w: Wizard, ev: Event): (o: Outcome)
    ensures o.Completed? <==> ev.ClickNext? && w.step >= TotalSteps
    ensures !ev.ClickNext? ==> o.Moved?
    ensures ev.Input? ==> o.wizard.step == w.step
  {
    match ev
    case Input(e) => Moved(w.(draft := ApplyEdit(w.draft, e)))
    case ClickNext => Next(w)
    case ClickBack => Moved(Back(w))
    case ClickSkip => Moved(SkipAvatar(w))
  }

  /** The wizard as the user drives it: actions the UI does not offer have no
      effect, and once the profile has been handed off the wizard is gone. */
  function Run(w: Wizard, evs: seq<Event>): Outcome
    decreases |evs|
  {
    if |evs| == 0 then Moved(w)
    else
      var o := if Offered(w, evs[0]) then Handle(w, evs[0]) else Moved(w);
      match o
      case Completed(p) => o
      case Moved(w') => Run(w', evs[1..])
  }

  /** The avatar has a character type and a skin tone from the pickers. */
  predicate AvatarFromPickers(a: Avatar) {
    a.kind in KindOptions && a.skin in SkinOptions
  }

  /** What holds of every wizard the user can reach: the step is in range,
      the avatar came from the pickers, and every step before the current one
      is satisfied by the draft. */
  predicate Reachable(w: Wizard) {
    && 1 <= w.step <= TotalSteps
    && AvatarFromPickers(w.draft.avatar)
    && forall k :: 1 <= k < w.step ==> CanProceed(k, w.draft)
  }

  /** A finished profile: every step's field is filled in and the starting
      stats are in place. */
  predicate Finished(p: Profile) {
    && (forall k :: 1 <= k <= TotalSteps ==> CanProceed(k, p))
    && p.level == 1 && p.xp == 100 && p.credits == 100 && p.popularity == 100
    && p.achievements == StartingAchievements
  }

  /** The step-5 predicate holds for every avatar the pickers can build. */
  lemma AvatarStepAlwaysPasses(d: Profile)
    requires AvatarFromPickers(d.avatar)
    ensures CanProceed(5, d)
  {
  }

  lemma InitialReachable()
    ensures Reachable(Initial)
  {
  }

  /** Editing a field leaves every other step's verdict unchanged. */
  lemma EditKeepsOtherSteps(d: Profile, e: Edit, k: int)
    requires k != EditStep(e)
    ensures CanProceed(k, ApplyEdit(d, e)) == CanProceed(k, d)
  {
  }

  /** One offered action keeps the wizard reachable, or completes it with a
      finished profile. */
  lemma {:induction false} StepPreservesReachable(w: Wizard, ev: Event)
    requires Reachable(w) && Offered(w, ev)
    ensures Handle(w, ev).Moved? ==> Reachable(Handle(w, ev).wizard)
    ensures Handle(w, ev).Completed? ==> Finished(Handle(w, ev).profile)
  {
    match ev
    case Input(e) =>
      var w' := Handle(w, ev).wizard;
      forall k | 1 <= k < w'.step ensures CanProceed(k, w'.draft) {
        EditKeepsOtherSteps(w.draft, e, k);
      }
    case ClickNext =>
      if w.step == TotalSteps {
        var p := Handle(w, ev).profile;
        forall k | 1 <= k <= TotalSteps ensures CanProceed(k, p) {
          assert CanProceed(k, w.draft);
        }
      }
    case ClickBack =>
    case ClickSkip =>
      var w' := Handle(w, ev).wizard;
      forall k | 1 <= k < w'.step ensures CanProceed(k, w'.draft) {
        assert CanProceed(k, w.draft) || k == 5;
      }
  }

  /** Under any sequence of user actions the step stays within 1..6, the
      step-5 predicate keeps holding, and a profile that is handed off has
      every field filled in and the fixed starting stats. */
  lemma {:induction false} RunPreservesReachable(w: Wizard, evs: seq<Event>)
    requires Reachable(w)
    ensures Run(w, evs).Moved? ==> Reachable(Run(w, evs).wizard)
    ensures Run(w, evs).Moved? ==> CanProceed(5, Run(w, evs).wizard.draft)
    ensures Run(w, evs).Completed? ==> Finished(Run(w, evs).profile)
    decreases |evs|
  {
    if |evs| > 0 {
      if Offered(w, evs[0]) {
        StepPreservesReachable(w, evs[0]);
        match Handle(w, evs[0])
        case Completed(_) =>
        case Moved(w') => RunPreservesReachable(w', evs[1..]);
      } else {
        RunPreservesReachable(w, evs[1..]);
      }
    }
  }
}

=== FILE: quests.dfy ===
/** The quest log of `components/quests-system.tsx`: completing a quest moves
    it from the active list to the completed list. */
module Quests {
  import opened Wrappers
  import opened Icons
  import IdLists

  datatype QuestKind = Main | Side | DailyQuest | WeeklyQuest
  datatype Difficulty = Easy | Medium | Hard | Legendary

  datatype Rewards = Rewards(xp: int, credits: int, items: Option<seq<string>>)

  datatype Quest = Quest(
    id: int,
    title: string,
    description: string,
    kind: QuestKind,
    difficulty: Difficulty,
    progress: int,
    maxProgress: int,
    rewards: Rewards,
    timeLimit: Option<string>,
    location: Option<string>,
    completed: bool,
    icon: Icon)

  /** The view's state. The quest view holds no credit or XP counter: the
      rewards are only displayed. */
  datatype State = State(active: seq<Quest>, done: seq<Quest>)

  function QuestId(q: Quest): int { q.id }

  /** `activeQuests.find(q => q.id === k)`. */
  function Find(qs: seq<Quest>, k: int): (r: Option<Quest>)
    ensures r.None? <==> forall i :: 0 <= i < |qs| ==> qs[i].id != k
    ensures r.Some? ==> exists i :: 0 <= i < |qs| && qs[i] == r.value
                                    && qs[i].id == k && forall j :: 0 <= j < i ==> qs[j].id != k
  {
    if |qs| == 0 then None
    else if qs[0].id == k then Some(qs[0])
    else
      var r := Find(qs[1..], k);
      assert forall i :: 1 <= i < |qs| ==> qs[i] == qs[1..][i - 1];
      r
  }

  /** `handleCompleteQuest`: an active quest that has reached its maximum
      leaves the active list, keeping the others in order, and joins the end
      of the completed list with only its completion flag changed; when no
      active quest with the id has reached its maximum, nothing changes. */
  function Complete(st: State, k: int): (r: State)
    ensures (forall i :: 0 <= i < |st.active| && st.active[i].id == k ==>
               st.active[i].progress < st.active[i].maxProgress) ==> r == st
    ensures forall i :: 0 <= i < |st.active| && st.active[i].id == k
                        && st.active[i].progress >= st.active[i].maxProgress
                        && IdLists.DistinctIds(st.active, QuestId) ==>
              && r.active == st.active[..i] + st.active[i + 1..]
              && r.done == st.done + [st.active[i].(completed := true)]
  {
    FindListed(st.active, k);
    match Find(st.active, k)
    case Some(q) =>
      if q.progress >= q.maxProgress then
        State(IdLists.WithoutId(st.active, QuestId, k), st.done + [q.(completed := true)])
      else st
    case None => st
  }

  /** With distinct ids, the search finds the one quest carrying the id, and
      the filter removes exactly its position. */
  lemma FindListed(qs: seq<Quest>, k: int)
    ensures forall i :: 0 <= i < |qs| && qs[i].id == k && IdLists.DistinctIds(qs, QuestId) ==>
              && Find(qs, k) == Some(qs[i])
              && IdLists.WithoutId(qs, QuestId, k) == qs[..i] + qs[i + 1..]
  {
    forall i | 0 <= i < |qs| && qs[i].id == k && IdLists.DistinctIds(qs, QuestId)
      ensures Find(qs, k) == Some(qs[i])
      ensures IdLists.WithoutId(qs, QuestId, k) == qs[..i] + qs[i + 1..]
    {
      IdLists.WithoutIdAt(qs, QuestId, i);
    }
  }

  /** A successful completion moves exactly the quest: it leaves the active
      list (whose other quests stay, in order), joins the end of the completed
      list with only its completion flag changed, and the two lists together
      keep their size. */
  lemma CompleteMovesQuest(st: State, i: int)
    requires IdLists.DistinctIds(st.active, QuestId)
    requires 0 <= i < |st.active|
    requires st.active[i].progress >= st.active[i].maxProgress
    ensures Complete(st, st.active[i].id).active == st.active[..i] + st.active[i + 1..]
    ensures Complete(st, st.active[i].id).done == st.done + [st.active[i].(completed := true)]
    ensures |Complete(st, st.active[i].id).active| + |Complete(st, st.active[i].id).done|
            == |st.active| + |st.done|
  {
  }

  /** A second completion of the same id changes nothing: the quest is no
      longer active. */
  lemma CompleteTwiceIsNoop(st: State, k: int)
    ensures Complete(Complete(st, k), k) == Complete(st, k)
  {
    var st' := Complete(st, k);
    if st' != st {
      IdLists.WithoutIdMembers(st.active, QuestId, k);
      assert Find(st'.active, k).None? by {
        forall i | 0 <= i < |st'.active| ensures st'.active[i].id != k {
          assert st'.active[i] in st'.active;
        }
      }
    }
  }

  /** The "Complete Quest" button of the `i`-th active quest is disabled
      while its progress is below the maximum. */
  function PressComplete(st: State, i: int): (r: State)
    requires 0 <= i < |st.active|
    ensures st.active[i].progress < st.active[i].maxProgress ==> r == st
    ensures st.active[i].progress >= st.active[i].maxProgress && IdLists.DistinctIds(st.active, QuestId) ==>
      r.active == st.active[..i] + st.active[i + 1..] && r.done == st.done + [st.active[i].(completed := true)]
  {
    if st.active[i].progress < st.active[i].maxProgress then st
    else
      assert IdLists.DistinctIds(st.active, QuestId) ==>
        Complete(st, st.active[i].id).active == st.active[..i] + st.active[i + 1..]
      by {
        if IdLists.DistinctIds(st.active, QuestId) {
          CompleteMovesQuest(st, i);
        }
      }
      Complete(st, st.active[i].id)
  }

  const InitialActive: seq<Quest> := [
    Quest(1, "The Water Guardian's Trial",
          "Master water conservation techniques across 5 different farm zones",
          Main, Hard, 3, 5, Rewards(500, 200, Some(["Water Master Badge", "Irrigation Blueprint"])),
          None, Some("Farm Zones 1-5"), false, Droplets),
    Quest(2, "Soil Whisperer Challenge", "Achieve perfect soil pH balance in 3 crop fields",
          Main, Medium, 1, 3, Rewards(300, 150, Some(["Soil Sage Title"])),
          None, Some("Crop Fields A, B, C"), false, Sprout),
    Quest(3, "Daily Harvest Inspection", "Check crop health and document findings",
          DailyQuest, Easy, 0, 1, Rewards(50, 25, None),
          Some("Resets in 18h 32m"), None, false, Sun),
    Quest(4, "Community Helper", "Assist 3 fellow farmers with their sustainable practices",
          WeeklyQuest, Medium, 1, 3, Rewards(200, 100, Some(["Helper's Crown"])),
          Some("Resets in 4d 12h"), None, false, Users),
    Quest(5, "Pest Defense Strategy", "Implement organic pest control methods for 7 consecutive days",
          Side, Medium, 4, 7, Rewards(250, 120, Some(["Organic Defender Badge"])),
          None, None, false, Shield)
  ]

  const InitialDone: seq<Quest> := [
    Quest(6, "First Steps to Sustainability", "Complete your first sustainable farming practice",
          Main, Easy, 1, 1, Rewards(100, 50, Some(["Novice Farmer Badge"])),
          None, None, true, Target),
    Quest(7, "Green Energy Pioneer", "Install and use renewable energy for 30 days",
          Side, Hard, 30, 30, Rewards(400, 250, Some(["Solar Champion Title", "Energy Crystal"])),
          None, None, true, Zap)
  ]

  const Initial: State := State(InitialActive, InitialDone)

  /** A completion request on a state whose active quests are all short of
      their maximum is refused. */
  lemma NoneCompletable(st: State, k: int)
    requires forall i :: 0 <= i < |st.active| ==> st.active[i].progress < st.active[i].maxProgress
    ensures Complete(st, k) == st
  {
    var q := Find(st.active, k);
    if q.Some? {
      var i :| 0 <= i < |st.active| && st.active[i] == q.value;
    }
  }

  /** Every initially active quest is short of its maximum. */
  lemma InitialActiveShort()
    ensures forall i :: 0 <= i < |InitialActive| ==> InitialActive[i].progress < InitialActive[i].maxProgress
  {
    var a := InitialActive;
    assert a[0].progress < a[0].maxProgress && a[1].progress < a[1].maxProgress;
    assert a[2].progress < a[2].maxProgress && a[3].progress < a[3].maxProgress;
    assert a[4].progress < a[4].maxProgress;
  }

  /** Nothing in the view raises a quest's progress, and every initially
      active quest is short of its maximum: from the initial state every
      completion request is refused. */
  lemma InitialNothingCompletable(k: int)
    ensures IdLists.DistinctIds(Initial.active, QuestId)
    ensures Complete(Initial, k) == Initial
  {
    InitialActiveShort();
    NoneCompletable(Initial, k);
    InitialIds();
  }

  /** The initially active quests carry the ids 1 to 5, in order. */
  lemma InitialIds()
    ensures forall i :: 0 <= i < |InitialActive| ==> InitialActive[i].id == i + 1
  {
  }
}

=== FILE: settings.dfy ===
/** The settings view of `components/settings-system.tsx`: the profile form
    and the credits it awards for filling in empty fields, the help chat, and
    the choice of panel. */
module Settings {
  import opened Wrappers
  import Strings

  /** The editable text fields of `profileData`. */
  datatype Field =
    | FullName | Email | Phone | Location | FarmSize | FarmType
    | YearsExperience | Specialization | Bio | Website

  datatype ProfileData = ProfileData(
    fullName: string,
    email: string,
    phone: string,
    location: string,
    farmSize: string,
    farmType: string,
    yearsExperience: string,
    specialization: string,
    bio: string,
    website: string,
    completedFields: int)

  /** The initial profile's fixed fields. */
  const SampleProfile: ProfileData :=
    ProfileData("John Doe", "john.doe@farmquest.com", "+1 (555) 123-4567", "California, USA",
                "50 acres", "Organic Vegetables", "5-10 years", "Sustainable Agriculture",
                "Passionate about sustainable farming practices and helping fellow farmers grow better crops.",
                "www.johndoefarm.com", 8)

  /** The initial profile; the years of experience come from the onboarding
      profile when it has a truthy value. */
  function InitialProfile(farmingExperience: Option<string>): (p: ProfileData)
    ensures farmingExperience.Some? && farmingExperience.value != "" ==> p.yearsExperience == farmingExperience.value
    ensures !(farmingExperience.Some? && farmingExperience.value != "") ==> p.yearsExperience == "5-10 years"
    ensures forall f :: f != YearsExperience ==> Get(p, f) == Get(SampleProfile, f)
    ensures p.completedFields == 8
  {
    if farmingExperience.Some? && farmingExperience.value != "" then
      SampleProfile.(yearsExperience := farmingExperience.value)
    else SampleProfile
  }

  function Get(p: ProfileData, f: Field): string {
    match f
    case FullName => p.fullName
    case Email => p.email
    case Phone => p.phone
    case Location => p.location
    case FarmSize => p.farmSize
    case FarmType => p.farmType
    case YearsExperience => p.yearsExperience
    case Specialization => p.specialization
    case Bio => p.bio
    case Website => p.website
  }

  function Set(p: ProfileData, f: Field, v: string): (r: ProfileData)
    ensures Get(r, f) == v
    ensures forall g :: g != f ==> Get(r, g) == Get(p, g)
    ensures r.completedFields == p.completedFields
  {
    match f
    case FullName => p.(fullName := v)
    case Email => p.(email := v)
    case Phone => p.(phone := v)
    case Location => p.(location := v)
    case FarmSize => p.(farmSize := v)
    case FarmType => p.(farmType := v)
    case YearsExperience => p.(yearsExperience := v)
    case Specialization => p.(specialization := v)
    case Bio => p.(bio := v)
    case Website => p.(website := v)
  }

  /** Two profiles with the same fields are the same profile. */
  lemma FieldsDetermineProfile(p: ProfileData, q: ProfileData)
    requires forall f :: Get(p, f) == Get(q, f)
    requires p.completedFields == q.completedFields
    ensures p == q
  {
    assert Get(p, FullName) == Get(q, FullName) && Get(p, Email) == Get(q, Email);
    assert Get(p, Phone) == Get(q, Phone) && Get(p, Location) == Get(q, Location);
    assert Get(p, FarmSize) == Get(q, FarmSize) && Get(p, FarmType) == Get(q, FarmType);
    assert Get(p, YearsExperience) == Get(q, YearsExperience);
    assert Get(p, Specialization) == Get(q, Specialization);
    assert Get(p, Bio) == Get(q, Bio) && Get(p, Website) == Get(q, Website);
  }

  datatype ProfileResult = ProfileResult(profile: ProfileData, credits: int)

  /** `handleProfileUpdate`: stores the value and awards ten credits when a
      non-empty value fills a field that was empty. */
  function ProfileUpdate(p: ProfileData, credits: int, f: Field, v: string): (r: ProfileResult)
    ensures Get(r.profile, f) == v
    ensures forall g :: g != f ==> Get(r.profile, g) == Get(p, g)
    ensures r.profile.completedFields == p.completedFields
    ensures r.credits == credits + 10 <==> v != "" && Get(p, f) == ""
    ensures r.credits == credits || r.credits == credits + 10
  {
    ProfileResult(Set(p, f, v), if v != "" && Get(p, f) == "" then credits + 10 else credits)
  }

  /** Clearing a field and typing it again is paid every time: the award is
      ten credits per refill, not one per field. */
  lemma RefillAwardsAgain(p: ProfileData, credits: int, f: Field, v: string)
    requires v != "" && Get(p, f) != ""
    ensures
      var cleared := ProfileUpdate(p, credits, f, "");
      var refilled := ProfileUpdate(cleared.profile, cleared.credits, f, v);
      refilled.credits == credits + 10 && refilled.profile == Set(p, f, v)
  {
    var cleared := ProfileUpdate(p, credits, f, "");
    var refilled := ProfileUpdate(cleared.profile, cleared.credits, f, v);
    FieldsDetermineProfile(refilled.profile, Set(p, f, v));
  }

  /** `Math.round(completedFields / 10 * 100)`. No handler changes
      `completedFields`, so the bar stays at 80%. */
  function CompletionPercentage(p: ProfileData): (r: int)
    ensures 0 <= p.completedFields <= 10 ==> 0 <= r <= 100
    ensures r == 100 <==> p.completedFields == 10
    ensures r == 80 <==> p.completedFields == 8
  {
    p.completedFields * 10
  }

  lemma CompletionStaysAtEighty(p: ProfileData, credits: int, f: Field, v: string)
    requires CompletionPercentage(p) == 80
    ensures CompletionPercentage(ProfileUpdate(p, credits, f, v).profile) == 80
  {
  }

  // ---------------------------------------------------------------------
  // Help chat

  datatype Sender = User | Bot

  datatype ChatMessage = ChatMessage(id: int, text: string, sender: Sender)

  datatype Chat = Chat(messages: seq<ChatMessage>, draft: string)

  const InitialChat: Chat :=
    Chat([ChatMessage(1, "Hello! How can I help you with your farming questions today?", Bot)], "")

  /** `handleSendMessage` at clock time `now`: a blank draft is ignored;
      otherwise the draft, untrimmed, is appended as the user's message and
      the field is cleared. The bot's answer arrives later (`BotReply`). */
  function SendMessage(c: Chat, now: int): (r: Chat)
    ensures Strings.IsBlank(c.draft) ==> r == c
    ensures !Strings.IsBlank(c.draft) ==>
      && r.messages == c.messages + [ChatMessage(now, c.draft, User)]
      && r.draft == ""
  {
    if Strings.IsBlank(c.draft) then c
    else Chat(c.messages + [ChatMessage(now, c.draft, User)], "")
  }

  const BotResponses: seq<string> := [
    "That's a great question! Let me help you with that farming technique.",
    "Based on your farming experience, I'd recommend checking our Learning section for detailed guides.",
    "You can find more information about this in our Documentation section.",
    "Have you tried the sustainable farming practices in your Habits section?",
    "For specific farming issues, I recommend connecting with experienced farmers in the Community tab."
  ]

  /** The delayed answer: `pick` is `Math.floor(Math.random() * 5)` and
      `now` the clock when the timer fires. */
  function BotReply(c: Chat, now: int, pick: int): (r: Chat)
    requires 0 <= pick < |BotResponses|
    ensures |r.messages| == |c.messages| + 1 && r.messages[..|c.messages|] == c.messages
    ensures r.messages[|c.messages|].sender == Bot && r.messages[|c.messages|].text in BotResponses
    ensures r.draft == c.draft
  {
    c.(messages := c.messages + [ChatMessage(now + 1, BotResponses[pick], Bot)])
  }

  /** Messages are only ever appended: sending never rewrites the history. */
  lemma SendKeepsHistory(c: Chat, now: int)
    ensures SendMessage(c, now).messages[..|c.messages|] == c.messages
    ensures |SendMessage(c, now).messages| <= |c.messages| + 1
  {
  }

  // ---------------------------------------------------------------------
  // Panels

  datatype Panel = Menu | ProfilePanel | AccountsPanel | LanguagePanel | HelpPanel

  /** The panel rendered for `activeSection`. */
  function PanelFor(section: Option<string>): (r: Panel)
    ensures section == Some("profile") <==> r == ProfilePanel
    ensures section == Some("accounts") <==> r == AccountsPanel
    ensures section == Some("language") <==> r == LanguagePanel
    ensures section == Some("help") <==> r == HelpPanel
  {
    if section == Some("profile") then ProfilePanel
    else if section == Some("accounts") then AccountsPanel
    else if section == Some("language") then LanguagePanel
    else if section == Some("help") then HelpPanel
    else Menu
  }

  /** The ids of the menu entries, in menu order. */
  const MenuItems: seq<string> := ["profile", "accounts", "language", "help"]

  /** Every menu entry opens a panel of its own, and the back buttons
      (`setActiveSection(null)`) return to the menu. */
  lemma MenuOpensPanels()
    ensures forall i :: 0 <= i < |MenuItems| ==> PanelFor(Some(MenuItems[i])) != Menu
    ensures forall i, j :: 0 <= i < j < |MenuItems| ==> PanelFor(Some(MenuItems[i])) != PanelFor(Some(MenuItems[j]))
    ensures PanelFor(None) == Menu
  {
  }

}

=== FILE: sorting.dfy ===
/** Stable sorting by an integer key, non-increasing. JavaScript's
    `Array.prototype.sort` with a comparator `(a, b) => key(b) - key(a)` is
    stable, so records with equal keys keep their original relative order;
    insertion sort has the same behaviour. An ascending sort is the same sort
    on the negated key. */
module Sorting {

  /** Keys never increase along `s`. */
  predicate SortedBy<T>(s: seq<T>, key: T -> int) {
    forall i, j :: 0 <= i < j < |s| ==> key(s[i]) >= key(s[j])
  }

  /** Inserts `x` into the sorted `s` in front of every record whose key is
      not larger than its own. */
  function Insert<T(==)>(x: T, s: seq<T>, key: T -> int): (r: seq<T>)
    requires SortedBy(s, key)
    ensures SortedBy(r, key)
    ensures multiset(r) == multiset(s) + multiset{x}
    ensures |r| == |s| + 1
  {
    if |s| == 0 || key(x) >= key(s[0]) then
      ConsSorted(x, s, key);
      [x] + s
    else
      var rest := Insert(x, s[1..], key);
      assert forall j :: 0 <= j < |s[1..]| ==> s[1..][j] == s[j + 1];
      BoundedByMultiset(rest, s[1..], x, key, key(s[0]));
      ConsSorted(s[0], rest, key);
      assert s == [s[0]] + s[1..];
      [s[0]] + rest
  }

  /** A record whose key bounds a sorted list may go in front of it. */
  lemma ConsSorted<T>(h: T, r: seq<T>, key: T -> int)
    requires SortedBy(r, key)
    requires forall j :: 0 <= j < |r| ==> key(r[j]) <= key(h)
    ensures SortedBy([h] + r, key)
  {
    forall a, b | 0 <= a < b < |[h] + r| ensures key(([h] + r)[a]) >= key(([h] + r)[b]) {
      assert ([h] + r)[b] == r[b - 1];
      if a > 0 {
        assert ([h] + r)[a] == r[a - 1];
      }
    }
  }

  /** A bound on the keys of `t` and of `x` bounds every rearrangement of
      `t` with `x` added. */
  lemma BoundedByMultiset<T>(r: seq<T>, t: seq<T>, x: T, key: T -> int, b: int)
    requires multiset(r) == multiset(t) + multiset{x}
    requires forall j :: 0 <= j < |t| ==> key(t[j]) <= b
    requires key(x) <= b
    ensures forall j :: 0 <= j < |r| ==> key(r[j]) <= b
  {
    forall j | 0 <= j < |r| ensures key(r[j]) <= b {
      assert r[j] in multiset(r);
      if r[j] != x {
        assert r[j] in multiset(t);
        var i :| 0 <= i < |t| && t[i] == r[j];
      }
    }
  }

  /** Stable insertion sort: the result is sorted and a permutation of `s`
      (stability is `SortStable`). */
  function Sort<T(==)>(s: seq<T>, key: T -> int): (r: seq<T>)
    ensures SortedBy(r, key)
    ensures multiset(r) == multiset(s)
    ensures |r| == |s|
  {
    if |s| == 0 then []
    else
      assert s == [s[0]] + s[1..];
      Insert(s[0], Sort(s[1..], key), key)
  }

  /** Sorting is stable: the records sharing any one key appear in the same
      order as in `s`. */
  lemma {:induction false} SortStable<T>(s: seq<T>, key: T -> int)
    ensures forall k :: WithKey(Sort(s, key), key, k) == WithKey(s, key, k)
  {
    if |s| > 0 {
      SortStable(s[1..], key);
      InsertStable(s[0], Sort(s[1..], key), key);
    }
  }

  /** The records of `s` whose key is `k`, in their order in `s`. */
  function WithKey<T>(s: seq<T>, key: T -> int, k: int): seq<T> {
    if |s| == 0 then [] else (if key(s[0]) == k then [s[0]] else []) + WithKey(s[1..], key, k)
  }

  /** `a` is a prefix of `b`. */
  ghost predicate IsPrefix<T>(a: seq<T>, b: seq<T>) {
    |a| <= |b| && a == b[..|a|]
  }

  /** Inserting goes in front of the records with an equal key: among the
      records with its key, the inserted one comes first. */
  lemma {:induction false} InsertStable<T>(x: T, s: seq<T>, key: T -> int)
    requires SortedBy(s, key)
    ensures forall k :: WithKey(Insert(x, s, key), key, k) == (if key(x) == k then [x] else []) + WithKey(s, key, k)
  {
    if |s| == 0 || key(x) >= key(s[0]) {
      assert ([x] + s)[1..] == s;
    } else {
      assert SortedBy(s[1..], key) by {
        assert forall j :: 0 <= j < |s[1..]| ==> s[1..][j] == s[j + 1];
      }
      InsertStable(x, s[1..], key);
      var r := Insert(x, s, key);
      assert r[1..] == Insert(x, s[1..], key);
    }
  }

  /** Filtering by key distributes over concatenation. */
  lemma {:induction false} WithKeyAppend<T>(a: seq<T>, b: seq<T>, key: T -> int, k: int)
    ensures WithKey(a + b, key, k) == WithKey(a, key, k) + WithKey(b, key, k)
  {
    if |a| > 0 {
      assert (a + b)[1..] == a[1..] + b;
      WithKeyAppend(a[1..], b, key, k);
    } else {
      assert a + b == b;
    }
  }

  /** The records of a prefix with a given key are a prefix of the list's
      records with that key. */
  lemma WithKeyPrefix<T>(s: seq<T>, key: T -> int, m: nat)
    requires m <= |s|
    ensures forall k :: IsPrefix(WithKey(s[..m], key, k), WithKey(s, key, k))
  {
    assert s == s[..m] + s[m..];
    forall k ensures IsPrefix(WithKey(s[..m], key, k), WithKey(s, key, k)) {
      WithKeyAppend(s[..m], s[m..], key, k);
    }
  }

  /** Number of records of `s` satisfying `p`. */
  function CountWhere<T>(s: seq<T>, p: T -> bool): nat {
    if |s| == 0 then 0 else (if p(s[0]) then 1 else 0) + CountWhere(s[1..], p)
  }

  lemma {:induction false} InsertCount<T>(x: T, s: seq<T>, key: T -> int, p: T -> bool)
    requires SortedBy(s, key)
    ensures CountWhere(Insert(x, s, key), p) == CountWhere(s, p) + (if p(x) then 1 else 0)
  {
    if |s| == 0 || key(x) >= key(s[0]) {
      assert ([x] + s)[1..] == s;
    } else {
      InsertCount(x, s[1..], key, p);
      var r := Insert(x, s, key);
      assert r[1..] == Insert(x, s[1..], key);
    }
  }

  /** Sorting changes no count: every predicate holds of as many records
      after sorting as before. */
  lemma {:induction false} SortCount<T>(s: seq<T>, key: T -> int, p: T -> bool)
    ensures CountWhere(Sort(s, key), p) == CountWhere(s, p)
  {
    if |s| > 0 {
      SortCount(s[1..], key, p);
      InsertCount(s[0], Sort(s[1..], key), key, p);
    }
  }

  /** With exactly one record satisfying `p`, that record sits at a unique
      position. */
  lemma {:induction false} CountOneUnique<T>(s: seq<T>, p: T -> bool)
    requires CountWhere(s, p) == 1
    ensures exists i :: 0 <= i < |s| && p(s[i])
    ensures forall i, j :: 0 <= i < |s| && 0 <= j < |s| && p(s[i]) && p(s[j]) ==> i == j
  {
    if p(s[0]) {
      CountZeroNone(s[1..], p);
      assert forall j :: 1 <= j < |s| ==> s[j] == s[1..][j - 1];
    } else {
      CountOneUnique(s[1..], p);
      var k :| 0 <= k < |s[1..]| && p(s[1..][k]);
      assert p(s[k + 1]);
      forall i, j | 0 <= i < |s| && 0 <= j < |s| && p(s[i]) && p(s[j]) ensures i == j {
        assert i > 0 && j > 0;
        assert s[i] == s[1..][i - 1] && s[j] == s[1..][j - 1];
      }
    }
  }

  lemma {:induction false} CountZeroNone<T>(s: seq<T>, p: T -> bool)
    requires CountWhere(s, p) == 0
    ensures forall i :: 0 <= i < |s| ==> !p(s[i])
  {
    if |s| > 0 {
      CountZeroNone(s[1..], p);
      assert forall i :: 1 <= i < |s| ==> s[i] == s[1..][i - 1];
    }
  }

  /** The first `n` records of `s` (`s.slice(0, n)`). */
  function Take<T>(s: seq<T>, n: nat): (r: seq<T>)
    ensures |r| <= n && |r| <= |s|
    ensures |r| == if n < |s| then n else |s|
    ensures r == s[..|r|]
    ensures multiset(r) <= multiset(s)
  {
    if n < |s| then
      assert s == s[..n] + s[n..];
      s[..n]
    else s
  }

  /** Sorting keeps exactly the records it was given. */
  lemma SortMembers<T>(s: seq<T>, key: T -> int)
    ensures forall x :: x in Sort(s, key) <==> x in s
  {
    var r := Sort(s, key);
    assert forall x :: x in r <==> x in multiset(r);
    assert forall x :: x in s <==> x in multiset(s);
  }

  /** A record that a sorted list's prefix leaves out has a key no larger
      than any record the prefix keeps, and the prefix is full. */
  lemma TakeSortedBound<T>(s: seq<T>, key: T -> int, n: nat)
    requires SortedBy(s, key)
    ensures forall x :: x in s && x !in Take(s, n) ==>
              |Take(s, n)| == n && forall y :: y in Take(s, n) ==> key(y) >= key(x)
  {
    var r := Take(s, n);
    forall x | x in s && x !in r ensures |r| == n && forall y :: y in r ==> key(y) >= key(x) {
      var j :| 0 <= j < |s| && s[j] == x;
      assert j >= |r|;
      forall y | y in r ensures key(y) >= key(x) {
        var i :| 0 <= i < |r| && r[i] == y;
        assert s[i] == y;
      }
    }
  }

  /** The `n` records with the largest keys, largest first
      (`sort(...).slice(0, n)`): drawn from `s`, sorted, and every record
      left out has a key no larger than any kept one, the prefix being
      full. */
  function Top<T(==)>(s: seq<T>, key: T -> int, n: nat): (r: seq<T>)
    ensures |r| <= n
    ensures multiset(r) <= multiset(s)
    ensures forall x :: x in r ==> x in s
    ensures SortedBy(r, key)
    ensures forall x :: x in s && x !in r ==>
              |r| == n && forall y :: y in r ==> key(y) >= key(x)
    ensures forall k :: IsPrefix(WithKey(r, key, k), WithKey(s, key, k))
  {
    var sorted := Sort(s, key);
    SortMembers(s, key);
    TakeSortedBound(sorted, key, n);
    var r := Take(sorted, n);
    SortStable(s, key);
    WithKeyPrefix(sorted, key, |r|);
    r
  }

  /** Taking from a list with a head keeps the head. */
  lemma TakeCons<T>(x: T, s: seq<T>, n: nat)
    requires n >= 1
    ensures Take([x] + s, n) == [x] + Take(s, n - 1)
  {
  }

  /** The records whose key exceeds `k`. */
  function Above<T>(key: T -> int, k: int): T -> bool {
    x => key(x) > k
  }

  lemma {:induction false} CountNone<T>(s: seq<T>, p: T -> bool)
    requires forall i :: 0 <= i < |s| ==> !p(s[i])
    ensures CountWhere(s, p) == 0
  {
    if |s| > 0 {
      assert forall i :: 1 <= i < |s| ==> s[i] == s[1..][i - 1];
      CountNone(s[1..], p);
    }
  }

  /** In a sorted list, a record whose key no other record shares sits
      exactly after the records with a larger key: its position is their
      number. */
  lemma {:induction false} SortedPosition<T>(s: seq<T>, key: T -> int, i: int)
    requires SortedBy(s, key)
    requires 0 <= i < |s|
    requires forall j :: 0 <= j < |s| && j != i ==> key(s[j]) != key(s[i])
    ensures CountWhere(s, Above(key, key(s[i]))) == i
  {
    var k := key(s[i]);
    assert forall j :: 1 <= j < |s| ==> s[j] == s[1..][j - 1];
    if i == 0 {
      CountNone(s[1..], Above(key, k));
    } else {
      assert key(s[0]) > k;
      assert s[1..][i - 1] == s[i];
      SortedPosition(s[1..], key, i - 1);
    }
  }

  /** After sorting, the single record satisfying `p`, whose key `k` no
      other record shares, sits at the position given by the number of
      records with a larger key. */
  lemma SortedRank<T>(s: seq<T>, key: T -> int, p: T -> bool, k: int)
    requires CountWhere(s, p) == 1
    requires forall x :: x in s && p(x) ==> key(x) == k
    requires forall x :: x in s && !p(x) ==> key(x) != k
    ensures exists i :: 0 <= i < |Sort(s, key)| && p(Sort(s, key)[i])
    ensures forall i :: 0 <= i < |Sort(s, key)| && p(Sort(s, key)[i]) ==> i == CountWhere(s, Above(key, k))
  {
    var r := Sort(s, key);
    SortCount(s, key, p);
    SortCount(s, key, Above(key, k));
    forall x | x in r ensures x in s {
      assert x in multiset(r);
    }
    RankInSorted(r, key, p, k);
  }

  /** `SortedRank` for a list already sorted. */
  lemma RankInSorted<T>(r: seq<T>, key: T -> int, p: T -> bool, k: int)
    requires SortedBy(r, key)
    requires CountWhere(r, p) == 1
    requires forall x :: x in r && p(x) ==> key(x) == k
    requires forall x :: x in r && !p(x) ==> key(x) != k
    ensures exists i :: 0 <= i < |r| && p(r[i])
    ensures forall i :: 0 <= i < |r| && p(r[i]) ==> i == CountWhere(r, Above(key, k))
  {
    CountOneUnique(r, p);
    var i :| 0 <= i < |r| && p(r[i]);
    assert r[i] in r;
    forall j | 0 <= j < |r| && j != i ensures key(r[j]) != key(r[i]) {
      assert r[j] in r;
    }
    SortedPosition(r, key, i);
  }
}

=== FILE: strings.dfy ===
/** String helpers standing in for the few JavaScript string methods the
    application relies on: `trim`, `toLowerCase`, `includes` and
    `split(" ")[0]`. */
module Strings {

  /** The characters `String.prototype.trim` removes: the ECMAScript
      WhiteSpace and LineTerminator code points. */
  predicate IsWhitespace(c: char) {
    || c == ' ' || c == '\t' || c == '\n' || c == '\r'
    || c == '\U{000B}' || c == '\U{000C}' || c == '\U{00A0}' || c == '\U{1680}'
    || ('\U{2000}' <= c <= '\U{200A}')
    || c == '\U{2028}' || c == '\U{2029}' || c == '\U{202F}' || c == '\U{205F}'
    || c == '\U{3000}' || c == '\U{FEFF}'
  }

  /** `s` with its leading whitespace removed. */
  function TrimStart(s: string): (r: string)
    ensures |r| <= |s| && r == s[|s| - |r|..]
    ensures forall i :: 0 <= i < |s| - |r| ==> IsWhitespace(s[i])
    ensures r == [] || !IsWhitespace(r[0])
  {
    if |s| == 0 || !IsWhitespace(s[0]) then s else TrimStart(s[1..])
  }

  /** `s` with its trailing whitespace removed. */
  function TrimEnd(s: string): (r: string)
    ensures |r| <= |s| && r == s[..|r|]
    ensures forall i :: |r| <= i < |s| ==> IsWhitespace(s[i])
    ensures r == [] || !IsWhitespace(r[|r| - 1])
  {
    if |s| == 0 || !IsWhitespace(s[|s| - 1]) then s else TrimEnd(s[..|s| - 1])
  }

  /** JavaScript's `s.trim()`. */
  function Trim(s: string): string {
    TrimEnd(TrimStart(s))
  }

  /** `s.trim() === ""`, i.e. `!s.trim()` in a JavaScript truthiness test. */
  predicate IsBlank(s: string) {
    Trim(s) == ""
  }

  /** A string is blank exactly when every character of it is whitespace. */
  lemma BlankIffAllWhitespace(s: string)
    ensures IsBlank(s) <==> forall i :: 0 <= i < |s| ==> IsWhitespace(s[i])
  {
  }

  /** ASCII lower-casing of one character. */
  function LowerChar(c: char): (r: char)
    ensures 'A' <= c <= 'Z' ==> 'a' <= r <= 'z' && r as int == c as int + 32
    ensures !('A' <= c <= 'Z') ==> r == c
  {
    if 'A' <= c <= 'Z' then (c as int - 'A' as int + 'a' as int) as char else c
  }

  /** Character-wise lower-casing (ASCII letters only). */
  function Lower(s: string): (r: string)
    ensures |r| == |s|
    ensures forall i :: 0 <= i < |s| ==> r[i] == LowerChar(s[i])
  {
    if |s| == 0 then [] else [LowerChar(s[0])] + Lower(s[1..])
  }

  /** The substring relation `s.includes(sub)`, as a specification. */
  ghost predicate HasSubstring(s: string, sub: string) {
    exists i :: OccursAt(s, sub, i)
  }

  /** `sub` occurs in `s` starting at position `i`. */
  predicate OccursAt(s: string, sub: string, i: int) {
    0 <= i && i + |sub| <= |s| && s[i..i + |sub|] == sub
  }

  /** Executable `s.includes(sub)`: tries every start position from `from`. */
  function IncludesFrom(s: string, sub: string, from: nat): (r: bool)
    requires from <= |s| + 1
    ensures r <==> exists i :: from <= i && OccursAt(s, sub, i)
    decreases |s| + 1 - from
  {
    if from + |sub| > |s| then false
    else if OccursAt(s, sub, from) then true
    else IncludesFrom(s, sub, from + 1)
  }

  function Includes(s: string, sub: string): (r: bool)
    ensures r <==> HasSubstring(s, sub)
  {
    IncludesFrom(s, sub, 0)
  }

  /** `s.split(" ")[0]`: everything before the first space. */
  function FirstWord(s: string): (r: string)
    ensures |r| <= |s| && r == s[..|r|]
    ensures forall i :: 0 <= i < |r| ==> r[i] != ' '
    ensures |r| == |s| || s[|r|] == ' '
  {
    if |s| == 0 || s[0] == ' ' then [] else [s[0]] + FirstWord(s[1..])
  }

  /** No string occurs twice in `s`. */
  predicate NoDuplicates(s: seq<string>) {
    forall i, j :: 0 <= i < j < |s| ==> s[i] != s[j]
  }
}

=== FILE: wrappers.dfy ===
/** The optional-value datatype used wherever the application keeps a value
    that may be missing (`null` / `undefined` in the app). */
module Wrappers {

  datatype Option<+T> = None | Some(value: T) {

    /** Returns the wrapped value, or `default` when there is none. */
    function GetOr(default: T): T {
      match this
      case Some(v) => v
      case None => default
    }
  }
}
